=== FILE: README.md ===
# pokemon-scout in Dafny

A model of the back end of pokemon-scout. The service scrapes three Hungarian
trading-card shops (Metagames, Varázslatos Játékok and TCGBolt) and reconciles
every listing into a catalogue of products. Each listing's price and stock
history is kept as snapshots. Users register price alerts, and the service
mails them when a product falls to the target price or comes back into stock.

The model covers:

- the reconciliation of one scraped listing (`upsertProduct`);
- the alert decision and its deduplication state (`shouldNotify`,
  `evaluateAlertsForProduct`, `evaluateAlertsBulk`, `sendNotification`);
- the alert, store, product and user repositories;
- the ingestion loop, with its per-item and per-store failure isolation;
- the debounced write-back of the SQLite file, the migration rule and the
  statement-parameter normalisation;
- the pure helpers of the three scrapers;
- the base-path normalisation, the log ring buffer, the scraper registry and
  the decisions of the authentication middleware.

How the model is built:

- Tables are sequences of rows in insertion order. A SQL lookup is the first
  matching row.
- Identifiers come from a counter, `nextId`. Timestamps are naturals passed in
  as `now`.
- Everything outside the program is a function parameter (an oracle): email
  delivery, fetching a shop's inventory, bcrypt, JWT verification and URL
  resolution.

One file per source module, each holding one Dafny module:

| module | file | models |
|---|---|---|
| `Wrappers` | wrappers.dfy | `Option` and `Result` |
| `Types` | types.dfy | the record shapes of `backend/types.d.ts` |
| `Schema` | schema.dfy | the table rows as stored, with their well-formedness |
| `Seqs`, `Text` | seqs.dfy, text.dfy | the sequence and JavaScript string operations the rest uses |
| `ProductRepo`, `AlertRepo`, `StoreRepo`, `UserRepo` | *_repo.dfy | the repositories |
| `AlertService`, `ScraperService` | alert_service.dfy, scraper_service.dfy | the services |
| `Db` | db.dfy | `backend/db.js` |
| `Listing`, `Metagames`, `Varazslatos`, `TcgBolt`, `StoreIndex` | listing.dfy, … | the scrapers and their registry |
| `Config`, `Logger`, `Auth` | config.dfy, logger.dfy, auth.dfy | configuration, logging and middleware |

Two quirks of the code are modelled as written:

- **Alerts belong to an email address.** The repository keys alerts by product
  and email address, although the table definition in `backend/db.js` declares
  a `user_id` column and no `email` column. On the schema that `migrate()`
  creates (`backend/db.js:197-214`), every alert statement that names `email` would fail. The model
  therefore gives alert rows an email column that the code's own schema lacks.
- **A new product has no last-change time.** The insert statement of
  `upsertProduct` leaves `last_change_at` null.

Where the prose description of the system and the code differ, the model
follows the code:

- `extractRemoteId` matches `/pid(\d+)/i`. The id is therefore the digits after
  the first "pid" that is *followed by a digit*, not necessarily the first "pid"
  in the link (`Metagames.PidMatchIsLeftmost`).
- `normalizeBasePath` is not idempotent: "/a /" gives "/a ", and "/a " gives
  "/a" (`Config.InnerSpaceSurvives`, `Config.InnerSpaceTrimmedLater`).

## Model

| member | source | states |
|---|---|---|
| Schema.BoolRoundTrip | backend/repositories/productRepo.js:171-190 | a flag stored as 1 or 0 reads back as the same flag, and a 0/1 column survives the round trip |
| Schema.EmptyTablesValid | backend/db.js:135-217 | the empty database is well-formed: unique keys, ids below the counter, 0/1 flag columns |
| ProductRepo.MapDbProductRoundTrip | backend/repositories/productRepo.js:171-190 | mapping a row to a product and back loses nothing, for rows whose stock column is 0 or 1 |
| ProductRepo.Normalize | backend/repositories/productRepo.js:36-42 | the scraped currency is kept; otherwise the currency is HUF exactly when the price is present and nonzero; price, status, slug, remote id, image, category and raw text pass through, an absent one staying null |
| ProductRepo.Upsert | backend/repositories/productRepo.js:33-119 | on well-formed tables the reconciliation succeeds and keeps them well-formed; stores and alerts are never touched |
| ProductRepo.UpsertInserts | backend/repositories/productRepo.js:43-78 | an unseen (store, url) is appended with a fresh id, the scraped name and the normalised price, currency, stock, status, slug, remote id, image and category; it is seen, created and updated now, has no last-change time and no previous state; both flags are set and exactly one snapshot is added |
| ProductRepo.UpsertUpdates | backend/repositories/productRepo.js:79-108 | for a known product, priceChanged is inequality of the normalised price with the stored one and stockChanged inequality of the stock; the last-change time moves iff a flag is set; id, store, url and creation time are kept; name, status, slug, remote id, image and category are overwritten with the normalised listing and the row is seen and updated now; previous is the product before |
| ProductRepo.UpsertSnapshotGate | backend/repositories/productRepo.js:98-108 | a snapshot is appended iff a flag is set, and it carries the normalised price, currency, stock, status and raw price |
| ProductRepo.UpsertLocates | backend/repositories/productRepo.js:34-35 | the product returned is the row now stored under the listing's (store, url) |
| ProductRepo.UpsertTwiceIsQuiet | backend/repositories/productRepo.js:79-108 | reconciling the identical listing a second time reports no change and appends no snapshot |
| ProductRepo.UpsertIgnoresOtherTables | backend/repositories/productRepo.js:33-119 | the result depends only on the product and snapshot tables and the id counter |
| ProductRepo.UpsertAll | backend/services/scraperService.js:18-37 | reconciling a batch keeps the tables well-formed and yields one result per listing |
| ProductRepo.UpsertAllHistory | backend/repositories/productRepo.js:98-108 | over a batch the earlier snapshots are kept and exactly one is appended per result with a flag set |
| ProductRepo.ListedBeforeIsTotalPreorder | backend/repositories/productRepo.js:139 | in-stock-first, then newest-update-first is a total preorder, so sorting by it is well defined |
| ProductRepo.ListProducts | backend/repositories/productRepo.js:120-143 | the page holds the ordered matching products (matched on the filters with the page settings cleared) from position `offset` (0 when omitted) on, as many as `limit` (100 when omitted) allows: min(limit, matches - offset) of them, none past the end |
| ProductRepo.OrderedMatchesFacts | backend/repositories/productRepo.js:123-139 | the rows a page is cut from are a rearrangement of exactly the matching rows, sorted in-stock first and newest update first |
| ProductRepo.ListProductsDefaults | backend/repositories/productRepo.js:136-137 | omitting the limit and offset lists like limit 100 and offset 0 |
| ProductRepo.ListProductsPagesTile | backend/repositories/productRepo.js:120-143 | the page of `a` at `offset` followed by the page of `b` after it is the page of `a + b` at `offset`: paging has no gaps or overlaps |
| ProductRepo.ListProductsFiltered | backend/repositories/productRepo.js:123-134 | every product listed is in the catalogue and meets all the given filters (store, lower-cased name substring, stock) |
| ProductRepo.ListProductsOrdered | backend/repositories/productRepo.js:139 | in-stock products come first, and within equal stock the most recently updated comes first |
| ProductRepo.ListProductsComplete | backend/repositories/productRepo.js:120-143 | with no offset and a limit covering the table, every product meeting the filters is listed |
| ProductRepo.GetProduct | backend/repositories/productRepo.js:144-147 | the product with the id as stored, or nothing exactly when no row has that id |
| ProductRepo.JoinIndices | backend/repositories/productRepo.js:148-170 | every index pair produced joins a product with one of its active alerts, and the pairs come each once, in the model's fixed product-major, rowid order (strictly increasing (product, alert) index pairs) |
| ProductRepo.JoinIndicesComplete | backend/repositories/productRepo.js:148-170 | every (product, active alert) pair that joins, at or after the starting pair, is produced |
| ProductRepo.JoinIndicesAlertOnce | backend/repositories/productRepo.js:148-154 | with unique product ids an alert joins at most one product, so each alert occurs at most once in the join |
| ProductRepo.ListProductsNeedingAlertsDistinct | backend/repositories/productRepo.js:148-170 | on well-formed tables no two rows of the sweep carry the same alert id: each active alert of an existing product appears exactly once |
| ProductRepo.ListProductsNeedingAlerts | backend/repositories/productRepo.js:148-170 | every row returned joins a product with one of its active alerts, and every such pair is returned |
| AlertRepo.MapAlert | backend/repositories/alertRepo.js:60-77 | a null last-notified stock stays null; otherwise the stored integer becomes a flag, nonzero meaning true |
| AlertRepo.MapAlertRoundTrip | backend/repositories/alertRepo.js:60-77 | storing an alert and mapping it back gives the same alert, and a well-formed row survives the opposite trip |
| AlertRepo.CreateAlert | backend/repositories/alertRepo.js:23-41 | the call is refused exactly when the product already has an alert for the email; otherwise a new active alert is appended with both notification flags true unless explicitly false, no target by default, and nothing recorded |
| AlertRepo.CreateAlertOnValidTables | backend/repositories/alertRepo.js:23-41 | on well-formed tables creation either succeeds and keeps them well-formed or is refused as a duplicate |
| AlertRepo.ListActiveAlerts | backend/repositories/alertRepo.js:42-45 | exactly the active alerts of the product: every one listed is active and for the product, and every such row is listed |
| AlertRepo.ListActiveAlertsDistinct | backend/repositories/alertRepo.js:42-45 | on well-formed tables no alert is listed twice |
| AlertRepo.ListedRow | backend/repositories/alertRepo.js:10 | a listed alert is read from an active row of the product |
| AlertRepo.MarkAlertNotified | backend/repositories/alertRepo.js:46-52 | the alert's recorded price, stock (as 1 or 0) and notification time are set; its target, flags and activity, and every other row and table, are untouched |
| AlertRepo.DeactivateAlert | backend/repositories/alertRepo.js:53-55 | the alert becomes inactive and nothing else changes |
| AlertRepo.GetAlert | backend/repositories/alertRepo.js:56-59 | the alert with the id, or nothing exactly when no row has it |
| AlertRepo.DeactivatedStaysReadable | backend/repositories/alertRepo.js:53-59 | a deactivated alert is still read back by id |
| AlertRepo.DeactivatedFound | backend/repositories/alertRepo.js:53-59 | reading a deactivated alert back shows it inactive |
| AlertRepo.DeactivatedNotListed | backend/repositories/alertRepo.js:42-55 | a deactivated alert is no longer among any product's active alerts |
| AlertService.ShouldNotify | backend/services/alertService.js:33-58 | the decision fires exactly when the target-price, in-stock or restock rule does |
| AlertService.NotifyNeedsStockOrTarget | backend/services/alertService.js:36-56 | an out-of-stock product triggers nothing unless its known price is at or under the target |
| AlertService.PlateauIsQuiet | backend/services/alertService.js:36-49 | with nothing changed and the current price and stock already recorded, no rule fires |
| AlertService.DeeperDropFires | backend/services/alertService.js:36-43 | a price at or under the target and below the one last notified fires even without a reported price change |
| AlertService.RestockFires | backend/services/alertService.js:50-56 | an observed out-to-in transition fires a restock alert even when its in-stock flag is off |
| AlertService.SendNotification | backend/services/alertService.js:59-88 | the notification succeeds exactly when the mail is delivered, and only then is exactly that alert recorded with the product's price and stock |
| AlertService.NotifyEach | backend/services/alertService.js:6-10 | the alerts notified are the due ones in order, stopping before the first whose delivery fails, and only they are recorded |
| AlertService.EvaluateForProduct | backend/services/alertService.js:4-11 | only the product's active alerts are evaluated; the ones notified are recorded and nothing else changes |
| AlertService.RecordedKeepsValid | backend/services/alertService.js:84-87 | recording notifications keeps the tables well-formed |
| AlertService.EvaluationNotifiesOnce | backend/services/alertService.js:7-9 | every alert notified is an active alert of the product whose rules fired, and none is notified twice in one evaluation |
| AlertService.NotifiedPrefix | backend/services/alertService.js:6-10 | the notified alerts are a prefix of the due ones |
| AlertService.NotifiedDistinct | backend/services/alertService.js:7-9 | on well-formed tables no alert is notified twice in one evaluation |
| AlertService.BulkNotifiedDistinct | backend/services/alertService.js:12-32 | on well-formed tables the bulk sweep notifies no alert twice |
| AlertService.NotifiedSound | backend/services/alertService.js:5-9 | every alert notified is an active alert of the product that the input triggers |
| AlertService.BulkDecision | backend/services/alertService.js:12-32 | in the bulk path an alert fires iff the price is at or under the target, or it wants in-stock mail for an in-stock product not last recorded in stock; the restock rule never fires there |
| AlertService.NotifyJoins | backend/services/alertService.js:12-32 | the bulk sweep notifies the due joins in order and stops at the first failed delivery, which is a due join whose mail was not delivered |
| AlertService.NotifyJoinsTouched | backend/services/alertService.js:12-32 | each alert row afterwards holds what the notified joins, in order, recorded on it with their own product's state, and no other table changes |
| AlertService.EvaluateBulk | backend/services/alertService.js:12-32 | when no delivery fails every due join of the sweep is notified, in order; each alert row holds what the notified joins, in order, recorded on it, and nothing else changes; well-formed tables stay well-formed |
| AlertService.NotifyJoinsRecordsOwnProduct | backend/services/alertService.js:12-32 | after a sweep an alert that was not notified is unchanged, and a notified one holds the price, stock and time of the product its own join carried |
| AlertService.ApplyJoinsUntouched | backend/services/alertService.js:12-32 | a row that no notified join names is left as it was |
| AlertService.ApplyJoinsLast | backend/services/alertService.js:12-32 | a row named by a notified join, and by no later one, holds that join's product state |
| AlertService.TouchedKeepsValid | backend/services/alertService.js:84-87 | recording bulk notifications keeps the tables well-formed |
| AlertService.QuietStaysQuiet | backend/services/alertService.js:36-56 | an alert that stayed quiet stays quiet on a repeat that changes nothing |
| AlertService.RepeatRowQuiet | backend/services/alertService.js:36-49 | an alert recorded in the first round sits on the plateau in the second |
| AlertService.SecondRoundQuiet | backend/services/alertService.js:4-11 | the second evaluation sends nothing when every listed alert sits on the plateau or was already silent |
| AlertService.ReconcileTwiceNotifiesOnce | backend/services/alertService.js:4-11 | reconciling the identical listing twice, each time followed by an alert evaluation: when the first round delivered everything, the second reports no change, appends no snapshot, sends nothing and leaves the tables as reconciliation left them |
| AlertService.PriceRound | backend/services/alertService.js:36-43 | while the product stays in stock, an alert fires in a round iff the price is at or under target and it moved or fell below the last notified price; firing records that price |
| AlertService.PlateauScenario | backend/services/alertService.js:36-43 | target 9000 over prices 10000, 8000, 8000, 7000, 7000 fires at the first 8000 and the first 7000 only |
| StoreRepo.InsertStoreFacts | backend/repositories/storeRepo.js:30-33 | an unknown slug is appended with the given slug, name and base URL under a fresh id |
| StoreRepo.UpdateStoreFacts | backend/repositories/storeRepo.js:23-26 | a known store is rewritten with the new name and base URL, keeping its id and slug |
| StoreRepo.EnsureStore | backend/repositories/storeRepo.js:19-34 | the store returned has the given slug, name and base URL and is the one now stored under the slug; an unchanged store is returned with no write; other tables are untouched and well-formedness is kept |
| StoreRepo.EnsureStoreTwice | backend/repositories/storeRepo.js:19-34 | ensuring the same store twice yields the same store id and writes nothing the second time |
| StoreRepo.NameBeforeIsTotalPreorder | backend/repositories/storeRepo.js:4 | ordering by name is a total preorder |
| StoreRepo.ListStores | backend/repositories/storeRepo.js:35-38 | every store exactly once, sorted by name |
| ScraperService.Step | backend/services/scraperService.js:18-37 | one item either fails, noted at its position, or is evaluated; each counter grows by at most one and only for an evaluated item |
| ScraperService.ProcessFrom | backend/services/scraperService.js:18-37 | every item is evaluated or noted as failed, and each counter grows by at most the number evaluated |
| ScraperService.ProcessItems | backend/services/scraperService.js:14-37 | the counters never exceed the number evaluated, which never exceeds the inventory, and every item is evaluated or failed |
| ScraperService.ProcessItemsLoop | backend/services/scraperService.js:18-37 | the imperative loop over the inventory, counters kept in place, ends in the state the recursive item loop defines |
| ScraperService.StepMatchesUpsert | backend/services/scraperService.js:23-30 | a successful step leaves the catalogue as its reconciliation did, bumps each counter by its flag and hands the product to the alert engine; a failed one changes nothing |
| ScraperService.ProcessFromMatchesBatch | backend/services/scraperService.js:18-37 | the loop's effect on the catalogue is the batch reconciliation of the inventory, the counters count its new products and changes, and every product reaches the alert engine in inventory order |
| ScraperService.CountsIgnoreDelivery | backend/services/scraperService.js:23-30 | counters and catalogue do not depend on mail delivery, since counting precedes evaluation |
| ScraperService.EveryItemEvaluated | backend/services/scraperService.js:18-37 | on well-formed tables every item reaches the alert engine, whatever failed before it |
| ScraperService.ProcessStore | backend/services/scraperService.js:7-48 | the store is ensured first and stays ensured when the fetch fails, which ends the store with the fetch's error; a fetched store's summary totals its inventory, and no counter exceeds the total |
| ScraperService.ProcessStoreCounts | backend/services/scraperService.js:42-47 | a fetched store's summary counts exactly the new products, price changes and stock changes of reconciling its inventory, with the inventory size as total |
| ScraperService.Targets | backend/services/scraperService.js:51-59 | no slug means every registered store in order; a known slug means that store; an unknown slug is an error |
| ScraperService.RunTargets | backend/services/scraperService.js:61-70 | one outcome per target |
| ScraperService.RunTargetsOutcomes | backend/services/scraperService.js:61-70 | a target fails exactly when its own fetch fails, whatever happened to the others |
| ScraperService.RunTargetsFlushes | backend/services/scraperService.js:39-41 | the database is flushed once for each store whose fetch succeeded, in order |
| ScraperService.RunStoreScrape | backend/services/scraperService.js:49-72 | an unknown slug fails before any store is touched; otherwise every target gets an outcome |
| ScraperService.RunAllCoversEveryStore | backend/stores/index.js:4-8 | a run over all stores visits Metagames, Varázslatos Játékok and TCGBolt in that order |
| ScraperService.PrimeScraper | backend/services/scraperService.js:73-80 | priming never fails: it is the full run's successful result |
| StoreIndex.GetStoreScraper | backend/stores/index.js:9-11 | the scraper returned has the slug asked for, and there is none exactly when no registered slug matches |
| StoreIndex.GetStoreScraperTakesFirst | backend/stores/index.js:10 | with several matches the first in list order is returned |
| StoreIndex.SlugsDistinct | backend/stores/index.js:4-8 | the three registered slugs are distinct |
| StoreIndex.EveryScraperFound | backend/stores/index.js:4-11 | every registered scraper is found by its own slug |
| Db.WriteEntry | backend/db.js:13-31 | writing a key sets the key and its `:`, `@` and `$` aliases (for unprefixed keys) to the value and leaves all other names alone |
| Db.NormalizeParams | backend/db.js:6-36 | no parameters bind nothing; one array binds its items; one other non-object value or several values bind positionally; one plain object binds by name |
| Db.SpreadEqualsArray | backend/db.js:7-12 | passing values spread or as one array binds them the same |
| Db.NamedParamsDomain | backend/db.js:13-31 | the names bound are exactly the keys and their aliases |
| Db.NamedParamsKeepsKeys | backend/db.js:13-31 | every key of the object is bound |
| Db.NamedParamsLastWriter | backend/db.js:13-31 | a name is bound to the value of the last key that produces it |
| Db.UnprefixedKeysKeepValues | backend/db.js:13-31 | for distinct unprefixed keys, each key and its three aliases are bound to that key's value |
| Db.Open | backend/db.js:46-55 | a freshly opened database is open, has nothing scheduled, has written nothing, and holds the file's contents when there is a file |
| Db.SchedulePersist | backend/db.js:61-72 | a write is armed exactly when one already was or the database is open; contents and writes are untouched |
| Db.PersistNow | backend/db.js:56-60 | one durable write of the current contents |
| Db.Write | backend/db.js:108-132 | a mutation fails on a closed database or a failing statement; otherwise it applies the change and arms the timer |
| Db.Read | backend/db.js:93-107 | a query answers from the current contents and leaves the state as it was |
| Db.Fire | backend/db.js:64-71 | the timer writes the contents once when armed and leaves nothing armed; otherwise nothing happens |
| Db.Flush | backend/db.js:236-245 | flushing an open database writes once and leaves nothing armed; a closed one is untouched |
| Db.Close | backend/db.js:246-252 | closing an open database flushes once and closes it; closing a closed one changes nothing |
| Db.StepKeepsInv | backend/db.js:53-72 | every event keeps the state consistent, and a closed database stays closed |
| Db.RunKeepsInv | backend/db.js:53-72 | any run of events keeps the state consistent and keeps a closed database closed |
| Db.ClosedIsFinal | backend/db.js:62-63 | after closing, no event changes anything |
| Db.CloseTwice | backend/db.js:246-252 | closing is idempotent and flushes exactly once |
| Db.QuietWritesNothing | backend/db.js:93-132 | mutations and queries alone never write the file |
| Db.SuccessArms | backend/db.js:117 | a successful mutation leaves a write armed |
| Db.CoalescedWrite | backend/db.js:61-72 | any number of mutations before the timer fires yield exactly one durable write, of the latest contents |
| Db.FlushThenFire | backend/db.js:236-245 | a flush cancels the armed timer, so its firing afterwards writes nothing |
| Db.ApplyOne | backend/db.js:135-217 | `CREATE … IF NOT EXISTS` adds the table or index when absent and keeps every existing one |
| Db.ApplyAllOnlyAdds | backend/db.js:227-234 | running the schema script only adds tables and indexes |
| Db.ApplyAllIdempotent | backend/db.js:227-234 | running the schema script twice is the same as once |
| Db.DropTable | backend/db.js:218-226 | dropping a table removes it and its indexes and nothing else |
| Db.MigrateDropDecision | backend/db.js:218-226 | the alert table is dropped exactly when it exists without a `user_id` column |
| Db.AlertsCreatedFresh | backend/db.js:197-217 | without an alert table, the script creates it with the declared columns |
| Db.MigrateHasUserId | backend/db.js:218-234 | after migrating, the alert table exists and has a `user_id` column |
| Db.MigrateIdempotent | backend/db.js:219-234 | a second migration drops nothing and creates nothing new |
| Db.Migrate | backend/db.js:135-235 | migrating an open database applies the migration and arms a write; a closed one refuses |
| Listing.ParseBarePrice | backend/stores/varazslatos.js:31-43 | empty text gives nothing; the raw text is the cleaned text unless that is empty; a price exists iff the cleaned text has a digit, and it is the value of those digits |
| Listing.ParseBarePriceRoundTrip | backend/stores/tcgbolt.js:25-33 | "<n> Ft" parses back to n with the text kept |
| Listing.FirstNonEmpty | backend/stores/metagames.js:70-74 | the first non-blank status text, trimmed, or nothing exactly when all are blank |
| Listing.HufIfPriced | backend/stores/varazslatos.js:111 | HUF exactly for a present, nonzero price |
| Listing.NameAndLink | backend/stores/varazslatos.js:79-85 | the name is the first anchor with visible text; the link is that anchor's or the first anchor's |
| Metagames.ListingRoot | backend/stores/metagames.js:5-6 | a configured, non-empty root wins; otherwise the default listing root |
| Metagames.BuildListingUrl | backend/stores/metagames.js:7-12 | page 0 or less is the root itself; a later page extends the root |
| Metagames.ListingUrlCarriesPage | backend/stores/metagames.js:10-11 | after the root come "?" (or "&" when the root has a query), "page=" and digits that read back as the page |
| Metagames.NormalizeUrl | backend/stores/metagames.js:13-19 | a missing link is the shop's base, an http link is kept, anything else is resolved against the base |
| Metagames.ParsePrice | backend/stores/metagames.js:20-33 | empty text gives nothing; otherwise raw is the cleaned text, a price exists iff it has digits and is their value, and the currency is HUF iff there is a price and the text says "Ft" |
| Metagames.ParsePriceRoundTrip | backend/stores/metagames.js:20-33 | "<n> Ft" parses back to n in HUF |
| Metagames.ExtractRemoteId | backend/stores/metagames.js:34-39 | a missing link has no id; an id is a non-empty run of digits |
| Metagames.PidMatchIsLeftmost | backend/stores/metagames.js:37-38 | the id is the digit run after the leftmost "pid", in any case, that a digit follows |
| Metagames.PidMatchNone | backend/stores/metagames.js:37-38 | there is no id exactly when no "pid" is followed by a digit |
| Metagames.ExtractSlug | backend/stores/metagames.js:40-48 | the last non-empty "/" segment, which holds no slash; nothing for a missing link |
| Metagames.StripAccentsKeepsContains | backend/stores/metagames.js:78-80 | removing accents keeps an occurrence of a phrase an occurrence |
| Metagames.InStockReduced | backend/stores/metagames.js:75-87 | the card is in stock iff there is no restock button and the status mentions neither "nincs keszleten" nor "hamarosan" without accents, nor "elfogyott" |
| Metagames.CardProduct | backend/stores/metagames.js:58-104 | a card without a name or a link yields nothing; otherwise the name, the absolute link and image, the id and slug of the link, the parsed price and raw price text, the parsed currency or HUF assumed for a nonzero price, the first status text, no category and the stock decision |
| Varazslatos.SlashTerminated | backend/stores/varazslatos.js:28 | the path with exactly one trailing slash added when it lacks one |
| Varazslatos.PageReference | backend/stores/varazslatos.js:25-30 | page 1 or less is the bare path; a later page extends the path and ends in a slash |
| Varazslatos.PageReferenceNamesPage | backend/stores/varazslatos.js:28-29 | a later page's last segment is "oldal-<n>", and n reads back as the page |
| Varazslatos.PageReferenceIgnoresTrailingSlash | backend/stores/varazslatos.js:28 | writing the path with or without its trailing slash gives the same later page |
| Varazslatos.SoldOutLabelDecides | backend/stores/varazslatos.js:52-58 | one label saying "elfogyott" or "nincs készleten", in any case, puts the card out of stock |
| Varazslatos.UnmarkedCardInStock | backend/stores/varazslatos.js:44-60 | a card with no state class, no disabled control and no label is in stock |
| Varazslatos.FirstTruthy | backend/stores/varazslatos.js:92-94 | the first non-empty attribute, or nothing exactly when neither is |
| Varazslatos.CardProduct | backend/stores/varazslatos.js:77-116 | a card yields nothing without a name, a link or a resolvable link; otherwise the resolved link, its last segment as slug, the first non-blank price parsed, HUF exactly for a nonzero price, the first status text and the stock decision |
| Varazslatos.SlugOfProductUrl | backend/stores/varazslatos.js:109 | a product page `<prefix>/<slug>/` has `<slug>` as its slug |
| TcgBolt.ExtractSlug | backend/stores/tcgbolt.js:34-42 | the last non-empty segment of the URL's path, or nothing when the URL does not parse |
| TcgBolt.SlugOfProductPath | backend/stores/tcgbolt.js:34-42 | a product path `<prefix>/<slug>`, with or without a closing slash, has `<slug>` as its slug |
| TcgBolt.NotInStockPhraseDecides | backend/stores/tcgbolt.js:48-50 | stock text saying "nincs készleten" puts the card out of stock |
| TcgBolt.StatusText | backend/stores/tcgbolt.js:91-105 | the trimmed stock text, or when that is empty "Készleten" or "Nincs készleten" by the stock decision |
| TcgBolt.StatusAgreesWithStock | backend/stores/tcgbolt.js:43-52 | the status of an in-stock card never says "nincs" or "elfogyott" |
| TcgBolt.FirstPresent | backend/stores/tcgbolt.js:87-90 | the first value present, even an empty one, or nothing exactly when none is |
| TcgBolt.CardProduct | backend/stores/tcgbolt.js:72-108 | a card yields nothing without a name, a link or a resolvable link; otherwise the resolved link and its slug, HUF exactly for a nonzero price, the first product id present and the stock decision |
| UserRepo.NormalizeEmailIdempotent | backend/repositories/userRepo.js:54-57 | a stored email normalises to itself, so looking it up finds it |
| UserRepo.GetUserById | backend/repositories/userRepo.js:35-49 | the account with the id, or nothing exactly when none has it |
| UserRepo.GetUserByEmail | backend/repositories/userRepo.js:54-68 | the account whose stored email equals the normalised query |
| UserRepo.LookupIgnoresCaseAndSpace | backend/repositories/userRepo.js:55-57 | emails differing in letter case or surrounding whitespace find the same account |
| UserRepo.VerifyUserPassword | backend/repositories/userRepo.js:73-90 | nothing when the account is absent or the password does not check; otherwise that account |
| UserRepo.CreateUser | backend/repositories/userRepo.js:10-30 | refused exactly when the normalised email is taken; otherwise an account with a fresh id, the normalised email, the password's hash and the admin flag (false by default) |
| UserRepo.CreateThenFind | backend/repositories/userRepo.js:10-30 | a created account is found by id and by email in any case, logs in iff its hash checks, and cannot be created again |
| UserRepo.MakeAdmin | backend/repositories/userRepo.js:145-150 | the account with the id becomes an administrator; every other row stays |
| UserRepo.MakeAdminPromotes | backend/repositories/userRepo.js:145-150 | afterwards the account exists exactly when it did, is an administrator, and keeps its id, email and creation time |
| UserRepo.UpdateUserPassword | backend/repositories/userRepo.js:95-103 | the account's hash becomes the new password's hash |
| UserRepo.PasswordChangeTakesEffect | backend/repositories/userRepo.js:95-103 | after a change the account logs in with the new password exactly when its hash checks |
| UserRepo.DeleteUser | backend/repositories/userRepo.js:138-140 | the account is gone: looking it up by id finds nothing |
| UserRepo.DeleteUserKeepsOthers | backend/repositories/userRepo.js:138-140 | every other account is left as it was |
| UserRepo.ListUsers | backend/repositories/userRepo.js:108-125 | the page holds the accounts newest first from position `offset` (0 when omitted) on, as many as `limit` (50 when omitted) allows: min(limit, accounts - offset) of them |
| UserRepo.NewestFirstSortedPermutation | backend/repositories/userRepo.js:111-113 | the rows a page is cut from are a rearrangement of the whole table, newest creation first |
| UserRepo.ListUsersDefaults | backend/repositories/userRepo.js:108 | omitting the limit and offset lists like limit 50 and offset 0 |
| UserRepo.ListUsersPagesTile | backend/repositories/userRepo.js:108-125 | the page of `a` at `offset` followed by the page of `b` after it is the page of `a + b` at `offset` |
| UserRepo.ListUsersCoversAll | backend/repositories/userRepo.js:108-125 | a first page at least as long as the table lists every account |
| Auth.HeaderToken | backend/utils/authMiddleware.js:43-45 | a token exists iff the header starts with "Bearer " (that case), and the header is "Bearer " followed by it |
| Auth.ExtractToken | backend/utils/authMiddleware.js:40-50 | a non-empty bearer token wins; otherwise a non-empty cookie; an empty token counts as none |
| Auth.BearerRoundTrip | backend/utils/authMiddleware.js:43-45 | "Bearer " followed by a token gives back that token, whatever the cookie |
| Auth.BareBearerFallsBack | backend/utils/authMiddleware.js:47-50 | a bare "Bearer " header leaves the decision to the cookie |
| Auth.LowercaseSchemeIgnored | backend/utils/authMiddleware.js:43 | "bearer " in lower case is not recognised |
| Auth.RequireAuth | backend/utils/authMiddleware.js:37-74 | 401 without a token, with a token that does not verify, or for a user who no longer exists; otherwise the request proceeds with the user as stored |
| Auth.RequireAdmin | backend/utils/authMiddleware.js:79-94 | 401 without a user, 403 for a non-administrator, otherwise proceed unchanged |
| Auth.OptionalAuth | backend/utils/authMiddleware.js:99-127 | the request always proceeds, with a user only when the token verifies and names one |
| Auth.OptionalAgreesWithRequired | backend/utils/authMiddleware.js:37-127 | the optional middleware attaches a user exactly when the required one would proceed, and the same user |
| Auth.AdminChain | backend/utils/authMiddleware.js:37-94 | authentication then the admin check passes exactly when the token verifies and the stored user is an administrator |
| Auth.ClaimsBeyondIdIgnored | backend/utils/authMiddleware.js:56-69 | decisions depend only on the user id a token names, not on its email or admin claim |
| Auth.AdminFlagFromDatabase | backend/utils/authMiddleware.js:79-94 | the admin check follows the database's flag, not the token's |
| Config.StripLeadingOnlySlashes | backend/config.js:9 | only slashes are removed from the front |
| Config.StripTrailingOnlySlashes | backend/config.js:10 | only slashes are removed from the back |
| Config.NormalizeBasePathShape | backend/config.js:3-12 | nothing, "" and what trims to "" or "/" give ""; any other result is one slash, not followed by another, with no trailing slash |
| Config.NormalizeBasePathEmpty | backend/config.js:3-12 | the result is empty exactly when the trimmed input is nothing but slashes |
| Config.NormalShapeIsFixpoint | backend/config.js:3-12 | a path of normal shape, not ending in whitespace, normalises to itself |
| Config.NormalizeBasePathIdempotent | backend/config.js:3-12 | normalising a result again gives the same result, when that result does not end in whitespace |
| Config.InnerSpaceSurvives | backend/config.js:6-11 | "/a /" normalises to "/a " |
| Config.InnerSpaceTrimmedLater | backend/config.js:6-11 | "/a " normalises to "/a", so normalisation is not idempotent |
| Config.BasePathOr | backend/config.js:13 | the result is empty only for empty input |
| Config.PokemonscoutIsNormal | backend/config.js:13 | "/pokemonscout" normalises to itself and is the base path |
| Logger.AddLog | backend/logger.js:4-9 | the message goes last; below the cap nothing is dropped; at the cap exactly the oldest entry is dropped |
| Logger.AddAllKeepsRecent | backend/logger.js:4-9 | a buffer holding the last messages of a history keeps holding the last messages as more are logged |
| Logger.BufferIsLastMessages | backend/logger.js:2-9 | from empty, the buffer is the last 1000 messages logged, in order, and never longer |
| Logger.GetLogs | backend/logger.js:29-31 | a copy equal to the buffer |
| Logger.ClearLogs | backend/logger.js:32-34 | the buffer is emptied |
| Logger.ClearThenLog | backend/logger.js:32-34 | after a clear the buffer holds only what is logged after it |
| Seqs.FindFirst | backend/stores/index.js:10 | the first index whose element satisfies the test, or nothing exactly when none does |
| Seqs.SortBySorted | backend/repositories/productRepo.js:139 | sorting by a total preorder yields a sequence sorted by it |

## Left out

- The HTTP layer (`backend/index.js`): routing, request validation, static files, cron scheduling and signal handlers.
- Negative or fractional `limit` and `offset` values: the model takes them as naturals. SQLite would read a negative limit as "no limit"; the product route in `backend/index.js` accepts only a positive limit up to 500 and a non-negative offset, and nothing in the repository calls `listUsers`.
- Scraper I/O: the network fetches, HTML traversal, pagination loops, page limits and sleeps. Each card is a record of the strings and flags the scraper extracts, and each shop's inventory fetch is the oracle `scrapeAll`.
- URL resolution (`new URL`) is an oracle, apart from the empty-link and "starts with http" cases of the Metagames scraper.
- `Number.parseInt` losing precision on very long digit strings: prices are unbounded naturals.
- The notification's formatting and templating and the mail transport: delivery is an oracle that succeeds or fails.
- bcrypt hashing and comparison, JWT signing (`generateToken`) and verification: oracles. The middleware's catch paths that answer "Authentication failed" or "Authorization failed" only guard against exceptions from those calls and the database, and are not modelled.
- Random identifiers (`cuid`, `randomUUID`) are a counter, and wall-clock times are the parameter `now`.
- The SQL engine, file export and file write: a durable write is a counter plus the written contents. The timer's delay is an explicit firing event.
- SQL `LIKE` wildcards in the name filter: the search is a plain substring match.
- Concurrent runs started by cron and by hand: the model is sequential.
- Console capture and message formatting in the logger: messages reach the buffer already formatted.
- `make-admin.js`, `server.cjs` and the `.d.ts` declaration files, which declare shapes only.
- Foreign-key cascades on delete: `backend/db.js` never turns on `PRAGMA foreign_keys`, so SQLite enforces no foreign key and runs no cascade. Deleting a user therefore leaves its alerts in place, and the model's alerts carry an email rather than a user id.
- A multi-statement `exec` failing half-way: each schema statement is applied whole.
- The order of `Object.entries` in `normalizeParams`: the object is a sequence of distinct key–value entries.
- `getUserCount`: a count query with nothing to state beyond the table's length.
- Config.NormalizeBasePathIdempotent: holds only when the first result does not end in whitespace, because whitespace inside a trailing slash survives one pass and is trimmed by the next.
- Metagames.ExtractRemoteId: the digit group is unbounded, with no conversion to a number.
- Text.Lower: folds only ASCII, the Latin-1 capitals and Ő/Ű. JavaScript's `toLowerCase` folds every cased letter, and a few letters, such as U+0130, lower to two code units. The shops' texts and the service's emails are Hungarian and Latin-script, so the model keeps this table.
- UserRepo.LookupIgnoresCaseAndSpace: "letter case" means the case Text.Lower folds. Two emails that differ only in, say, Cyrillic or Greek letter case are two accounts in the model but one account in the code.
- Metagames.PlainChar: strips accents only from the Latin-1 letters and ő/ű. NFD decomposition followed by removing U+0300–U+036F also strips accents elsewhere, such as U+1E31 ("ḱ").
- Metagames.InStockReduced: holds for the folding of Text.Lower and Metagames.PlainChar. A status spelled with letters outside those tables, such as "nincs ḱeszleten", is out of stock for the code but not for the model.
- ProductRepo.JoinIndices: the query in `backend/repositories/productRepo.js:149-154` has no `ORDER BY`, so SQLite chooses the join order (products outer, or `price_alerts` outer through `price_alerts_product_idx`). The model fixes one order: products by rowid, then each product's alerts by rowid. Because `AlertService.NotifyJoins` stops at the first failed delivery, which due joins are notified and recorded before that failure is stated only for this order. `AlertService.EvaluateBulk`'s no-failure clause, that every due join is notified, is likewise proved for this order only.
- Row order among equal sort keys: SQLite leaves it open under `ORDER BY`, and the model's insertion sort fixes one. Contracts state only sortedness and the rearrangement, not the order of ties.
- ScraperService.ProcessItems: an item whose upsert succeeds but whose alert delivery fails is counted, evaluated and also noted as failed; the model reports the failure but not the logged message.

=== FILE: alert_repo.dfy ===
/** The alert repository (backend/repositories/alertRepo.js). Alerts are
    keyed by (product, email), as this repository's statements are written. */
module AlertRepo {
  import opened Wrappers
  import opened Types
  import opened Schema
  import Seqs

  /** A stored row as the repository returns it (`mapAlert`): a null
      `last_notified_in_stock` stays null, any other value becomes a boolean. */
  function MapAlert(row: AlertRow): (a: PriceAlert)
    ensures row.lastNotifiedInStock.None? <==> a.lastNotifiedInStock.None?
    ensures row.lastNotifiedInStock.Some? ==> a.lastNotifiedInStock == Some(row.lastNotifiedInStock.value != 0)
  {
    PriceAlert(row.id, row.productId, row.email, row.targetPriceHuf,
               IntToBool(row.notifyOnInStock), IntToBool(row.notifyOnRestock), IntToBool(row.active),
               row.lastNotifiedAt, row.lastNotifiedPriceHuf,
               match row.lastNotifiedInStock case None => None case Some(n) => Some(IntToBool(n)),
               row.createdAt, row.updatedAt)
  }

  function AlertToRow(a: PriceAlert): AlertRow
  {
    AlertRow(a.id, a.productId, a.email, a.targetPriceHuf,
             BoolToInt(a.notifyOnInStock), BoolToInt(a.notifyOnRestock), BoolToInt(a.active),
             a.lastNotifiedAt, a.lastNotifiedPriceHuf,
             match a.lastNotifiedInStock case None => None case Some(b) => Some(BoolToInt(b)),
             a.createdAt, a.updatedAt)
  }

  /** Mapping loses nothing on well-formed rows, and every alert is the
      image of its row. */
  lemma MapAlertRoundTrip(a: PriceAlert, row: AlertRow, nextId: nat)
    ensures MapAlert(AlertToRow(a)) == a
    ensures ValidAlertRow(row, nextId) ==> AlertToRow(MapAlert(row)) == row
  {
  }

  /** The input of `createAlert`; absent options are `None`. */
  datatype NewAlert = NewAlert(
    productId: Id,
    email: string,
    targetPriceHuf: Option<nat>,
    notifyOnInStock: Option<bool>,
    notifyOnRestock: Option<bool>)

  const AlertExistsMessage := "Alert already exists for this product and email"

  /** `SELECT * FROM price_alerts WHERE product_id = ? AND email = ?`,
      active or not. */
  predicate HasAlertFor(t: Tables, productId: Id, email: string)
  {
    exists k :: 0 <= k < |t.alerts| && t.alerts[k].productId == productId && t.alerts[k].email == email
  }

  /** `params.flag === false ? 0 : 1`. */
  function FlagOrTrue(flag: Option<bool>): int
  {
    if flag == Some(false) then 0 else 1
  }

  function FindAlert(rows: seq<AlertRow>, id: Id): Option<nat>
  {
    Seqs.FindFirst(rows, (r: AlertRow) => r.id == id)
  }

  /** `createAlert`: refuses a second alert for the same product and email;
      otherwise inserts an active alert with the given target (default
      null), both notification flags true unless explicitly false, and no
      notification recorded yet. */
  function CreateAlert(t: Tables, params: NewAlert, now: Time): (r: Result<(PriceAlert, Tables), string>)
    ensures HasAlertFor(t, params.productId, params.email) <==> r == Err(AlertExistsMessage)
    ensures r.Ok? ==> var (a, t') := r.value;
      && a.productId == params.productId && a.email == params.email
      && a.targetPriceHuf == params.targetPriceHuf
      && a.notifyOnInStock == (params.notifyOnInStock != Some(false))
      && a.notifyOnRestock == (params.notifyOnRestock != Some(false))
      && a.active && a.lastNotifiedAt.None? && a.lastNotifiedPriceHuf.None? && a.lastNotifiedInStock.None?
      && t'.alerts == t.alerts + [AlertToRow(a)]
      && t'.products == t.products && t'.stores == t.stores && t'.snapshots == t.snapshots && t'.users == t.users
  {
    var exists_ := Seqs.FindFirst(t.alerts, (a: AlertRow) => a.productId == params.productId && a.email == params.email);
    if exists_.Some? then
      Err(AlertExistsMessage)
    else
      var row := NewAlertRow(t.nextId, params, now);
      var t' := t.(alerts := t.alerts + [row], nextId := t.nextId + 1);
      match FindAlert(t'.alerts, row.id)
      case None => Err("Failed to read alert after insert")
      case Some(k) =>
        if t'.alerts[k] == row then Ok((MapAlert(row), t'))
        else Err("Failed to read alert after insert")
  }

  /** The row `createAlert` inserts. */
  function NewAlertRow(id: Id, params: NewAlert, now: Time): AlertRow
  {
    AlertRow(id, params.productId, params.email, params.targetPriceHuf,
             FlagOrTrue(params.notifyOnInStock), FlagOrTrue(params.notifyOnRestock), 1,
             None, None, None, now, now)
  }

  /** On well-formed tables the insert is read back: creating fails only
      for an existing (product, email) pair, and keeps the tables
      well-formed. */
  lemma CreateAlertOnValidTables(t: Tables, params: NewAlert, now: Time)
    requires Valid(t)
    ensures var r := CreateAlert(t, params, now);
      && (r.Ok? || r == Err(AlertExistsMessage))
      && (r.Ok? ==> Valid(r.value.1))
  {
    if !HasAlertFor(t, params.productId, params.email) {
      var row := NewAlertRow(t.nextId, params, now);
      var t' := t.(alerts := t.alerts + [row], nextId := t.nextId + 1);
      AppendAlertValid(t, row);
      assert t'.alerts[|t.alerts|] == row;
      assert CreateAlert(t, params, now) == Ok((MapAlert(row), t'));
    }
  }

  /** Appending a well-formed row under the next id keeps the tables
      well-formed, and the id finds the new row. */
  lemma AppendAlertValid(t: Tables, row: AlertRow)
    requires Valid(t) && row.id == t.nextId && ValidAlertRow(row, t.nextId + 1)
    ensures var t' := t.(alerts := t.alerts + [row], nextId := t.nextId + 1);
      Valid(t') && FindAlert(t'.alerts, row.id) == Some(|t.alerts|)
  {
    var t' := t.(alerts := t.alerts + [row], nextId := t.nextId + 1);
    forall i | 0 <= i < |t.alerts| ensures ValidAlertRow(t'.alerts[i], t'.nextId) {
      assert ValidAlertRow(t.alerts[i], t.nextId);
    }
    assert ValidAlerts(t');
    assert ValidStores(t') && ValidProducts(t') && ValidSnapshots(t') && ValidUsers(t');
    Seqs.FindFirstAt(t'.alerts, (r: AlertRow) => r.id == row.id, |t.alerts|);
  }

  /** `SELECT * FROM price_alerts WHERE product_id = ? AND active = 1`. */
  predicate ActiveFor(productId: Id, row: AlertRow)
  {
    row.productId == productId && row.active == 1
  }

  function MapAlerts(rows: seq<AlertRow>): (r: seq<PriceAlert>)
    ensures |r| == |rows|
    ensures forall i :: 0 <= i < |rows| ==> r[i] == MapAlert(rows[i])
  {
    seq(|rows|, i requires 0 <= i < |rows| => MapAlert(rows[i]))
  }

  /** The rows `listActiveAlerts` selects, in table order. */
  function ActiveRows(t: Tables, productId: Id): seq<AlertRow>
  {
    Seqs.Filter(t.alerts, (a: AlertRow) => ActiveFor(productId, a))
  }

  /** `listActiveAlerts`: exactly the active alerts of the product, in table
      order. */
  function ListActiveAlerts(t: Tables, productId: Id): (r: seq<PriceAlert>)
    ensures forall i :: 0 <= i < |r| ==> r[i].productId == productId && r[i].active
    ensures forall k :: 0 <= k < |t.alerts| && ActiveFor(productId, t.alerts[k]) ==> MapAlert(t.alerts[k]) in r
    ensures forall i :: 0 <= i < |r| ==> r[i] in MapAlerts(t.alerts)
  {
    var rows := ActiveRows(t, productId);
    var r := MapAlerts(rows);
    Seqs.FilterMembers(t.alerts, (a: AlertRow) => ActiveFor(productId, a));
    assert forall i :: 0 <= i < |r| ==> r[i] in MapAlerts(t.alerts) by {
      forall i | 0 <= i < |r| ensures r[i] in MapAlerts(t.alerts) {
        assert rows[i] in t.alerts;
        var k :| 0 <= k < |t.alerts| && t.alerts[k] == rows[i];
        assert MapAlerts(t.alerts)[k] == r[i];
      }
    }
    assert forall k :: 0 <= k < |t.alerts| && ActiveFor(productId, t.alerts[k]) ==> MapAlert(t.alerts[k]) in r by {
      forall k | 0 <= k < |t.alerts| && ActiveFor(productId, t.alerts[k]) ensures MapAlert(t.alerts[k]) in r {
        assert t.alerts[k] in rows;
        var i :| 0 <= i < |rows| && rows[i] == t.alerts[k];
        assert r[i] == MapAlert(t.alerts[k]);
      }
    }
    r
  }

  function AlertKey(a: PriceAlert): Id
  {
    a.id
  }

  function RowKey(a: AlertRow): Id
  {
    a.id
  }

  /** On well-formed tables no alert is listed twice. */
  lemma ListActiveAlertsDistinct(t: Tables, productId: Id)
    requires Valid(t)
    ensures Seqs.DistinctBy(ListActiveAlerts(t, productId), AlertKey)
  {
    var rows := ActiveRows(t, productId);
    assert Seqs.DistinctBy(t.alerts, RowKey);
    Seqs.FilterDistinct(t.alerts, (a: AlertRow) => ActiveFor(productId, a), RowKey);
    var r := ListActiveAlerts(t, productId);
    assert r == MapAlerts(rows);
    forall i, j | 0 <= i < j < |r| ensures AlertKey(r[i]) != AlertKey(r[j]) {
      assert RowKey(rows[i]) != RowKey(rows[j]);
    }
  }

  /** Every listed alert is the image of an active row of the product. */
  lemma ListedRow(t: Tables, productId: Id, a: PriceAlert) returns (k: nat)
    requires Valid(t) && a in ListActiveAlerts(t, productId)
    ensures k < |t.alerts| && ActiveFor(productId, t.alerts[k]) && MapAlert(t.alerts[k]) == a
  {
    var r := ListActiveAlerts(t, productId);
    var i :| 0 <= i < |r| && r[i] == a;
    var m :| 0 <= m < |t.alerts| && MapAlerts(t.alerts)[m] == a;
    assert ValidAlertRow(t.alerts[m], t.nextId);
    k := m;
  }

  /** `markAlertNotified`: the row with this id records the notification
      time, price (null when none) and stock (as 1 or 0). */
  function MarkAlertNotified(t: Tables, id: Id, priceHuf: Option<nat>, inStock: bool, now: Time): (t': Tables)
    ensures |t'.alerts| == |t.alerts|
    ensures forall k :: 0 <= k < |t.alerts| && t.alerts[k].id == id ==>
      t'.alerts[k] == t.alerts[k].(lastNotifiedAt := Some(now), lastNotifiedPriceHuf := priceHuf,
                                   lastNotifiedInStock := Some(BoolToInt(inStock)), updatedAt := now)
    ensures forall k :: 0 <= k < |t.alerts| && t.alerts[k].id != id ==> t'.alerts[k] == t.alerts[k]
    ensures t'.products == t.products && t'.stores == t.stores && t'.snapshots == t.snapshots
            && t'.users == t.users && t'.nextId == t.nextId
    ensures Valid(t) ==> Valid(t')
  {
    var alerts := seq(|t.alerts|, k requires 0 <= k < |t.alerts| =>
      if t.alerts[k].id == id
      then t.alerts[k].(lastNotifiedAt := Some(now), lastNotifiedPriceHuf := priceHuf,
                        lastNotifiedInStock := Some(BoolToInt(inStock)), updatedAt := now)
      else t.alerts[k]);
    t.(alerts := alerts)
  }

  /** `deactivateAlert`: the row with this id becomes inactive. */
  function DeactivateAlert(t: Tables, id: Id, now: Time): (t': Tables)
    ensures |t'.alerts| == |t.alerts|
    ensures forall k :: 0 <= k < |t.alerts| && t.alerts[k].id == id ==>
      t'.alerts[k] == t.alerts[k].(active := 0, updatedAt := now)
    ensures forall k :: 0 <= k < |t.alerts| && t.alerts[k].id != id ==> t'.alerts[k] == t.alerts[k]
    ensures t'.products == t.products && t'.stores == t.stores && t'.snapshots == t.snapshots
            && t'.users == t.users && t'.nextId == t.nextId
    ensures Valid(t) ==> Valid(t')
  {
    var alerts := seq(|t.alerts|, k requires 0 <= k < |t.alerts| =>
      if t.alerts[k].id == id then t.alerts[k].(active := 0, updatedAt := now) else t.alerts[k]);
    t.(alerts := alerts)
  }

  /** `getAlert`: the alert with this id, if any. */
  function GetAlert(t: Tables, id: Id): (r: Option<PriceAlert>)
    ensures r.Some? ==> r.value.id == id && r.value in MapAlerts(t.alerts)
    ensures r.None? <==> forall k :: 0 <= k < |t.alerts| ==> t.alerts[k].id != id
  {
    match FindAlert(t.alerts, id)
    case Some(k) =>
      assert MapAlerts(t.alerts)[k] == MapAlert(t.alerts[k]);
      Some(MapAlert(t.alerts[k]))
    case None => None
  }

  /** A deactivated alert drops out of its product's active list but stays
      readable by id, inactive. */
  lemma DeactivatedStaysReadable(t: Tables, id: Id, now: Time)
    requires GetAlert(t, id).Some?
    ensures var t' := DeactivateAlert(t, id, now);
      && GetAlert(t', id).Some? && !GetAlert(t', id).value.active
      && GetAlert(t', id).value.productId == GetAlert(t, id).value.productId
      && forall i :: 0 <= i < |ListActiveAlerts(t', GetAlert(t, id).value.productId)| ==>
           ListActiveAlerts(t', GetAlert(t, id).value.productId)[i].id != id
  {
    DeactivatedFound(t, id, now);
    DeactivatedNotListed(t, id, now, GetAlert(t, id).value.productId);
  }

  /** The id still finds the deactivated row, now inactive. */
  lemma DeactivatedFound(t: Tables, id: Id, now: Time)
    requires GetAlert(t, id).Some?
    ensures var t' := DeactivateAlert(t, id, now);
      && GetAlert(t', id).Some? && !GetAlert(t', id).value.active
      && GetAlert(t', id).value.productId == GetAlert(t, id).value.productId
  {
    var t' := DeactivateAlert(t, id, now);
    var k := FindAlert(t.alerts, id).value;
    Seqs.FindFirstAt(t'.alerts, (r: AlertRow) => r.id == id, k);
  }

  /** No active list shows a deactivated id. */
  lemma DeactivatedNotListed(t: Tables, id: Id, now: Time, productId: Id)
    ensures var r := ListActiveAlerts(DeactivateAlert(t, id, now), productId);
      forall i :: 0 <= i < |r| ==> r[i].id != id
  {
    var t' := DeactivateAlert(t, id, now);
    var r := ListActiveAlerts(t', productId);
    forall i | 0 <= i < |r| ensures r[i].id != id {
      var m :| 0 <= m < |t'.alerts| && MapAlerts(t'.alerts)[m] == r[i];
      assert r[i].active;
    }
  }
}

=== FILE: alert_service.dfy ===
/** The alert engine (backend/services/alertService.js): which alerts a
    reconciled product triggers, sending them one after another and
    recording each delivered one for deduplication. Email delivery is the
    oracle `send`; it answers whether the mail went out. */
module AlertService {
  import opened Wrappers
  import opened Types
  import opened Schema
  import Seqs
  import AlertRepo
  import ProductRepo

  /** What a reconciliation tells the engine about one product. */
  datatype AlertInput = AlertInput(
    product: Product,
    previous: Option<Product>,
    priceChanged: bool,
    stockChanged: bool)

  /** The input the reconciliation of a product produces. */
  function InputOf(r: ProductRepo.UpsertResult): AlertInput
  {
    AlertInput(r.product, r.previous, r.priceChanged, r.stockChanged)
  }

  /** Target rule: a known price at or under the target, and either the
      price just changed, nothing was recorded yet, or the price dropped
      strictly below the one last notified. */
  predicate TargetPriceRule(a: PriceAlert, input: AlertInput)
  {
    && a.targetPriceHuf.Some? && input.product.currentPriceHuf.Some?
    && input.product.currentPriceHuf.value <= a.targetPriceHuf.value
    && (|| input.priceChanged
        || a.lastNotifiedPriceHuf.None?
        || input.product.currentPriceHuf.value < a.lastNotifiedPriceHuf.value)
  }

  /** Whether the product counts as having been out of stock: the previous
      state when there is one, otherwise "not last notified as in stock". */
  predicate WasOut(a: PriceAlert, input: AlertInput)
  {
    match input.previous
    case Some(p) => !p.inStock
    case None => a.lastNotifiedInStock != Some(true)
  }

  /** In-stock rule. */
  predicate InStockRule(a: PriceAlert, input: AlertInput)
  {
    && a.notifyOnInStock && input.product.inStock && WasOut(a, input)
    && (input.stockChanged || a.lastNotifiedInStock != Some(true))
  }

  /** Restock rule: an observed transition from out of stock to in stock. */
  predicate RestockRule(a: PriceAlert, input: AlertInput)
  {
    && a.notifyOnRestock && input.stockChanged && input.product.inStock
    && input.previous.Some? && !input.previous.value.inStock
  }

  /** `shouldNotify`, in the source's shape: a flag that each rule may
      raise in turn. It fires exactly when one of the three rules does. */
  function ShouldNotify(a: PriceAlert, input: AlertInput): (notify: bool)
    ensures notify <==> TargetPriceRule(a, input) || InStockRule(a, input) || RestockRule(a, input)
  {
    var p := input.product;
    var notify := false;
    var notify :=
      if a.targetPriceHuf != None && p.currentPriceHuf != None
         && p.currentPriceHuf.value <= a.targetPriceHuf.value
         && (input.priceChanged || a.lastNotifiedPriceHuf == None
             || p.currentPriceHuf.value < a.lastNotifiedPriceHuf.value)
      then true else notify;
    var notify :=
      if a.notifyOnInStock && p.inStock then
        var wasOut := if input.previous != None then !input.previous.value.inStock
                      else a.lastNotifiedInStock != Some(true);
        if wasOut && (input.stockChanged || a.lastNotifiedInStock != Some(true)) then true else notify
      else notify;
    var notify :=
      if a.notifyOnRestock && input.stockChanged && p.inStock
         && input.previous != None && !input.previous.value.inStock
      then true else notify;
    notify
  }

  /** Nothing fires for a product that is out of stock unless its known
      price is at or under the alert's target. */
  lemma NotifyNeedsStockOrTarget(a: PriceAlert, input: AlertInput)
    requires ShouldNotify(a, input)
    ensures || input.product.inStock
            || (a.targetPriceHuf.Some? && input.product.currentPriceHuf.Some?
                && input.product.currentPriceHuf.value <= a.targetPriceHuf.value)
  {
  }

  /** The plateau is quiet: when nothing changed, the stock stayed what it
      was, and the alert last recorded the current price and stock, no
      rule fires. */
  lemma PlateauIsQuiet(a: PriceAlert, input: AlertInput)
    requires !input.priceChanged && !input.stockChanged
    requires input.previous.Some? && input.previous.value.inStock == input.product.inStock
    requires a.lastNotifiedPriceHuf == input.product.currentPriceHuf
    ensures !ShouldNotify(a, input)
  {
  }

  /** A deeper drop fires again: a price at or under the target and strictly
      below the one last notified triggers even when the reconciliation
      reported no price change. */
  lemma DeeperDropFires(a: PriceAlert, input: AlertInput)
    requires a.targetPriceHuf.Some? && input.product.currentPriceHuf.Some?
    requires input.product.currentPriceHuf.value <= a.targetPriceHuf.value
    requires a.lastNotifiedPriceHuf.Some?
    requires input.product.currentPriceHuf.value < a.lastNotifiedPriceHuf.value
    ensures ShouldNotify(a, input)
  {
  }

  /** A restock alert fires on an observed out-to-in transition even when
      the in-stock flag of the alert is off. */
  lemma RestockFires(a: PriceAlert, input: AlertInput)
    requires a.notifyOnRestock && !a.notifyOnInStock
    requires input.stockChanged && input.product.inStock
    requires input.previous.Some? && !input.previous.value.inStock
    ensures ShouldNotify(a, input)
  {
  }

  /** The recorded form of an alert row after a delivered notification for
      product `p` (`markAlertNotified`). */
  function Recorded(row: AlertRow, p: Product, now: Time): AlertRow
  {
    row.(lastNotifiedAt := Some(now), lastNotifiedPriceHuf := p.currentPriceHuf,
         lastNotifiedInStock := Some(BoolToInt(p.inStock)), updatedAt := now)
  }

  /** `sendNotification`: the mail goes out first; only a delivered mail is
      recorded on the alert, with the product's current price and stock. */
  function SendNotification(t: Tables, a: PriceAlert, p: Product, send: (PriceAlert, Product) -> bool, now: Time)
    : (r: Result<Tables, string>)
    ensures r.Ok? <==> send(a, p)
    ensures r.Ok? ==> RecordedExactly(t, r.value, [a.id], p, now)
    ensures Valid(t) && r.Ok? ==> Valid(r.value)
  {
    if send(a, p) then
      var t' := AlertRepo.MarkAlertNotified(t, a.id, p.currentPriceHuf, p.inStock, now);
      assert forall k :: 0 <= k < |t.alerts| ==> (t.alerts[k].id in [a.id] <==> t.alerts[k].id == a.id);
      Ok(t')
    else Err("Failed to send alert email")
  }

  /** The outcome of an evaluation: the tables, the alert ids notified in
      order, and whether a delivery failed (which aborts the evaluation). */
  datatype Evaluation = Evaluation(tables: Tables, notified: seq<Id>, failed: bool)

  function Ids(alerts: seq<PriceAlert>): (r: seq<Id>)
    ensures |r| == |alerts| && forall i :: 0 <= i < |alerts| ==> r[i] == alerts[i].id
  {
    seq(|alerts|, i requires 0 <= i < |alerts| => alerts[i].id)
  }

  /** `shouldNotify` with the input fixed. */
  function Triggers(input: AlertInput): PriceAlert -> bool
  {
    (a: PriceAlert) => ShouldNotify(a, input)
  }

  /** The alerts of `alerts` that the input triggers, in order. */
  function Due(alerts: seq<PriceAlert>, input: AlertInput): seq<PriceAlert>
  {
    Seqs.Filter(alerts, Triggers(input))
  }

  /** The tables after recording a notification for each alert id in
      `notified`: those rows are recorded, all others are untouched. */
  ghost predicate RecordedExactly(t: Tables, t': Tables, notified: seq<Id>, p: Product, now: Time)
  {
    && |t'.alerts| == |t.alerts|
    && (forall k :: 0 <= k < |t.alerts| ==>
          t'.alerts[k] == if t.alerts[k].id in notified then Recorded(t.alerts[k], p, now) else t.alerts[k])
    && t'.products == t.products && t'.stores == t.stores && t'.snapshots == t.snapshots
    && t'.users == t.users && t'.nextId == t.nextId
  }

  lemma IdsCons(a: PriceAlert, s: seq<PriceAlert>)
    ensures Ids([a] + s) == [a.id] + Ids(s)
  {
  }

  /** Recording `id` and then the ids of `rest` records `[id] + rest`. */
  lemma RecordedCons(t: Tables, t1: Tables, t2: Tables, id: Id, rest: seq<Id>, p: Product, now: Time)
    requires RecordedExactly(t, t1, [id], p, now)
    requires RecordedExactly(t1, t2, rest, p, now)
    ensures RecordedExactly(t, t2, [id] + rest, p, now)
  {
    forall k | 0 <= k < |t.alerts|
      ensures t2.alerts[k] == if t.alerts[k].id in [id] + rest then Recorded(t.alerts[k], p, now) else t.alerts[k]
    {
      assert t1.alerts[k].id == t.alerts[k].id;
    }
  }

  /** The loop of `evaluateAlertsForProduct` over `alerts`, for the
      decision `due`: each due alert is sent and recorded with the state
      of product `p`; the first failed delivery ends the evaluation. The
      notified ids are the due ones in order, all of them when nothing
      failed; on a failure they stop just before the due alert whose
      delivery failed. */
  function NotifyEach(t: Tables, alerts: seq<PriceAlert>, p: Product, due: PriceAlert -> bool,
                      send: (PriceAlert, Product) -> bool, now: Time): (e: Evaluation)
    ensures !e.failed ==> e.notified == Ids(Seqs.Filter(alerts, due))
    ensures e.failed ==>
      && |e.notified| < |Seqs.Filter(alerts, due)|
      && e.notified == Ids(Seqs.Filter(alerts, due))[..|e.notified|]
      && !send(Seqs.Filter(alerts, due)[|e.notified|], p)
    ensures RecordedExactly(t, e.tables, e.notified, p, now)
    decreases |alerts|
  {
    if |alerts| == 0 then Evaluation(t, [], false)
    else
      var a := alerts[0];
      if !due(a) then
        NotifyEach(t, alerts[1..], p, due, send, now)
      else
        IdsCons(a, Seqs.Filter(alerts[1..], due));
        match SendNotification(t, a, p, send, now)
        case Err(_) => Evaluation(t, [], true)
        case Ok(t1) =>
          var rest := NotifyEach(t1, alerts[1..], p, due, send, now);
          RecordedCons(t, t1, rest.tables, a.id, rest.notified, p, now);
          Evaluation(rest.tables, [a.id] + rest.notified, rest.failed)
  }

  /** `evaluateAlertsForProduct`: evaluates the product's active alerts in
      table order. */
  function EvaluateForProduct(t: Tables, input: AlertInput, send: (PriceAlert, Product) -> bool, now: Time)
    : (e: Evaluation)
    ensures !e.failed ==> e.notified == Ids(Due(AlertRepo.ListActiveAlerts(t, input.product.id), input))
    ensures e.failed ==>
      var due := Due(AlertRepo.ListActiveAlerts(t, input.product.id), input);
      && |e.notified| < |due| && e.notified == Ids(due)[..|e.notified|]
      && !send(due[|e.notified|], input.product)
    ensures RecordedExactly(t, e.tables, e.notified, input.product, now)
    ensures Valid(t) ==> Valid(e.tables)
  {
    var e := NotifyEach(t, AlertRepo.ListActiveAlerts(t, input.product.id), input.product, Triggers(input), send, now);
    if Valid(t) then RecordedKeepsValid(t, e.tables, e.notified, input.product, now); e else e
  }

  /** Recording notifications keeps the tables well-formed. */
  lemma RecordedKeepsValid(t: Tables, t': Tables, notified: seq<Id>, p: Product, now: Time)
    requires Valid(t) && RecordedExactly(t, t', notified, p, now)
    ensures Valid(t')
  {
    forall k | 0 <= k < |t'.alerts| ensures ValidAlertRow(t'.alerts[k], t'.nextId) && t'.alerts[k].id == t.alerts[k].id {
      assert ValidAlertRow(t.alerts[k], t.nextId);
    }
  }

  /** Every notified id is an active alert of the product whose rules fired,
      and on well-formed tables no alert is notified twice in one
      evaluation. */
  lemma EvaluationNotifiesOnce(t: Tables, input: AlertInput, send: (PriceAlert, Product) -> bool, now: Time)
    requires Valid(t)
    ensures var e := EvaluateForProduct(t, input, send, now);
      && (forall i, j :: 0 <= i < j < |e.notified| ==> e.notified[i] != e.notified[j])
      && (forall i :: 0 <= i < |e.notified| ==> Fired(t, input, e.notified[i]))
  {
    NotifiedDistinct(t, input, send, now);
    NotifiedSound(t, input, send, now);
  }

  /** The notified ids are a prefix of the due ids. */
  lemma NotifiedPrefix(t: Tables, input: AlertInput, send: (PriceAlert, Product) -> bool, now: Time)
    ensures var e := EvaluateForProduct(t, input, send, now);
      var ids := Ids(Due(AlertRepo.ListActiveAlerts(t, input.product.id), input));
      |e.notified| <= |ids| && e.notified == ids[..|e.notified|]
  {
  }

  /** On well-formed tables no alert is notified twice in one evaluation. */
  lemma NotifiedDistinct(t: Tables, input: AlertInput, send: (PriceAlert, Product) -> bool, now: Time)
    requires Valid(t)
    ensures var e := EvaluateForProduct(t, input, send, now);
      forall i, j :: 0 <= i < j < |e.notified| ==> e.notified[i] != e.notified[j]
  {
    var listed := AlertRepo.ListActiveAlerts(t, input.product.id);
    AlertRepo.ListActiveAlertsDistinct(t, input.product.id);
    Seqs.FilterDistinct(listed, Triggers(input), AlertRepo.AlertKey);
    NotifiedPrefix(t, input, send, now);
  }

  /** Every notified id is an active alert of the product whose rules
      fired. */
  lemma NotifiedSound(t: Tables, input: AlertInput, send: (PriceAlert, Product) -> bool, now: Time)
    requires Valid(t)
    ensures var e := EvaluateForProduct(t, input, send, now);
      forall i :: 0 <= i < |e.notified| ==> Fired(t, input, e.notified[i])
  {
    var e := EvaluateForProduct(t, input, send, now);
    var due := Due(AlertRepo.ListActiveAlerts(t, input.product.id), input);
    NotifiedPrefix(t, input, send, now);
    forall i | 0 <= i < |e.notified|
      ensures Fired(t, input, e.notified[i])
    {
      assert e.notified[i] == due[i].id;
      DueRow(t, input, due, i);
    }
  }

  /** A due alert is read from an active row of the product that the input
      triggers. */
  lemma DueRow(t: Tables, input: AlertInput, due: seq<PriceAlert>, i: nat)
    requires Valid(t) && due == Due(AlertRepo.ListActiveAlerts(t, input.product.id), input) && i < |due|
    ensures Fired(t, input, due[i].id)
  {
    var listed := AlertRepo.ListActiveAlerts(t, input.product.id);
    Seqs.FilterMembers(listed, Triggers(input));
    assert due[i] in listed && ShouldNotify(due[i], input);
    var k := AlertRepo.ListedRow(t, input.product.id, due[i]);
    assert t.alerts[k].id == due[i].id;
  }

  /** Alert `id` is an active row of the input's product whose rules the
      input triggers. */
  ghost predicate Fired(t: Tables, input: AlertInput, id: Id)
  {
    exists k :: 0 <= k < |t.alerts| && t.alerts[k].id == id
                && AlertRepo.ActiveFor(input.product.id, t.alerts[k])
                && ShouldNotify(AlertRepo.MapAlert(t.alerts[k]), input)
  }

  /** The alert `evaluateAlertsBulk` assembles from a joined row: active,
      never notified at, keeping the row's dedup price and stock. The
      creation and update stamps are blank strings there; they play no
      part in the decision. */
  function BulkAlert(j: ProductRepo.AlertJoin): PriceAlert
  {
    PriceAlert(j.alert.id, j.product.id, j.alert.email, j.alert.targetPriceHuf,
               j.alert.notifyOnInStock, j.alert.notifyOnRestock, true, None,
               j.alert.lastNotifiedPriceHuf, j.alert.lastNotifiedInStock, 0, 0)
  }

  /** The bulk path's input: no previous state, both changes assumed. */
  function BulkInput(p: Product): AlertInput
  {
    AlertInput(p, None, true, true)
  }

  predicate BulkDue(j: ProductRepo.AlertJoin)
  {
    ShouldNotify(BulkAlert(j), BulkInput(j.product))
  }

  /** In the bulk path the decision reduces to: the price is at or under the
      target, or the alert wants in-stock mail, the product is in stock and
      the alert did not last record it in stock. The restock rule never
      fires there, and a price under target fires whatever was recorded. */
  lemma BulkDecision(j: ProductRepo.AlertJoin)
    ensures BulkDue(j) <==>
      || (j.alert.targetPriceHuf.Some? && j.product.currentPriceHuf.Some?
          && j.product.currentPriceHuf.value <= j.alert.targetPriceHuf.value)
      || (j.alert.notifyOnInStock && j.product.inStock && j.alert.lastNotifiedInStock != Some(true))
    ensures !RestockRule(BulkAlert(j), BulkInput(j.product))
  {
  }

  function JoinIds(joins: seq<ProductRepo.AlertJoin>): (r: seq<Id>)
    ensures |r| == |joins| && forall i :: 0 <= i < |joins| ==> r[i] == joins[i].alert.id
  {
    seq(|joins|, i requires 0 <= i < |joins| => joins[i].alert.id)
  }

  function DueJoins(joins: seq<ProductRepo.AlertJoin>): seq<ProductRepo.AlertJoin>
  {
    Seqs.Filter(joins, BulkDue)
  }

  lemma JoinIdsCons(j: ProductRepo.AlertJoin, s: seq<ProductRepo.AlertJoin>)
    ensures JoinIds([j] + s) == [j.alert.id] + JoinIds(s)
  {
  }

  /** The alert row after the notified joins, in order, each record their
      own product's state on the row with their alert's id. */
  function ApplyJoins(row: AlertRow, js: seq<ProductRepo.AlertJoin>, now: Time): AlertRow
    decreases |js|
  {
    if |js| == 0 then row
    else ApplyJoins(if js[0].alert.id == row.id then Recorded(row, js[0].product, now) else row, js[1..], now)
  }

  /** A row no notified join names is left as it was. */
  lemma {:induction false} ApplyJoinsUntouched(row: AlertRow, js: seq<ProductRepo.AlertJoin>, now: Time)
    requires row.id !in JoinIds(js)
    ensures ApplyJoins(row, js, now) == row
    decreases |js|
  {
    if |js| > 0 {
      assert js[0].alert.id == JoinIds(js)[0];
      assert JoinIds(js[1..]) == JoinIds(js)[1..];
      ApplyJoinsUntouched(row, js[1..], now);
    }
  }

  /** A row named by a notified join, and by no later one, ends up holding
      that join's product state. */
  lemma {:induction false} ApplyJoinsLast(row: AlertRow, js: seq<ProductRepo.AlertJoin>, m: nat, now: Time)
    requires m < |js| && js[m].alert.id == row.id
    requires forall m' :: m < m' < |js| ==> js[m'].alert.id != row.id
    ensures ApplyJoins(row, js, now) == Recorded(row, js[m].product, now)
    decreases |js|
  {
    var row1 := if js[0].alert.id == row.id then Recorded(row, js[0].product, now) else row;
    if m == 0 {
      var rest := js[1..];
      assert row1.id == row.id;
      assert forall i :: 0 <= i < |JoinIds(rest)| ==> JoinIds(rest)[i] == js[i + 1].alert.id;
      ApplyJoinsUntouched(row1, rest, now);
    } else {
      ApplyJoinsLast(row1, js[1..], m - 1, now);
    }
  }

  /** Recording keeps a row's id and its well-formedness. */
  lemma {:induction false} ApplyJoinsKeeps(row: AlertRow, js: seq<ProductRepo.AlertJoin>, now: Time, nextId: nat)
    ensures ApplyJoins(row, js, now).id == row.id
    ensures ValidAlertRow(row, nextId) ==> ValidAlertRow(ApplyJoins(row, js, now), nextId)
    decreases |js|
  {
    if |js| > 0 {
      var row1 := if js[0].alert.id == row.id then Recorded(row, js[0].product, now) else row;
      ApplyJoinsKeeps(row1, js[1..], now, nextId);
    }
  }

  /** Only the alert rows named by the joins in `notified` changed: each
      alert row holds what the notified joins, in order, recorded on it,
      and no other table moved. */
  ghost predicate TouchedOnly(t: Tables, t': Tables, notified: seq<ProductRepo.AlertJoin>, now: Time)
  {
    && |t'.alerts| == |t.alerts|
    && (forall k :: 0 <= k < |t.alerts| ==> t'.alerts[k] == ApplyJoins(t.alerts[k], notified, now))
    && t'.products == t.products && t'.stores == t.stores && t'.snapshots == t.snapshots
    && t'.users == t.users && t'.nextId == t.nextId
  }

  lemma TouchedCons(t: Tables, t1: Tables, t2: Tables, j: ProductRepo.AlertJoin,
                    rest: seq<ProductRepo.AlertJoin>, now: Time)
    requires RecordedExactly(t, t1, [j.alert.id], j.product, now)
    requires TouchedOnly(t1, t2, rest, now)
    ensures TouchedOnly(t, t2, [j] + rest, now)
  {
    assert ([j] + rest)[1..] == rest;
  }

  /** The loop of `evaluateAlertsBulk`, for the decision `due`: every
      joined alert due is sent and recorded with its own product's state;
      the first failed delivery ends the sweep. */
  function NotifyJoins(t: Tables, joins: seq<ProductRepo.AlertJoin>, due: ProductRepo.AlertJoin -> bool,
                       send: (PriceAlert, Product) -> bool, now: Time): (e: Evaluation)
    ensures |e.notified| <= |Seqs.Filter(joins, due)|
    ensures !e.failed ==> e.notified == JoinIds(Seqs.Filter(joins, due))
    ensures e.failed ==>
      && |e.notified| < |Seqs.Filter(joins, due)|
      && e.notified == JoinIds(Seqs.Filter(joins, due))[..|e.notified|]
      && var j := Seqs.Filter(joins, due)[|e.notified|]; !send(BulkAlert(j), j.product)
    decreases |joins|
  {
    if |joins| == 0 then Evaluation(t, [], false)
    else
      var j := joins[0];
      if !due(j) then
        NotifyJoins(t, joins[1..], due, send, now)
      else
        JoinIdsCons(j, Seqs.Filter(joins[1..], due));
        match SendNotification(t, BulkAlert(j), j.product, send, now)
        case Err(_) => Evaluation(t, [], true)
        case Ok(t1) =>
          var rest := NotifyJoins(t1, joins[1..], due, send, now);
          Evaluation(rest.tables, [j.alert.id] + rest.notified, rest.failed)
  }

  /** The sweep records each notified join with its own product's state,
      in order, and changes nothing else. */
  lemma {:induction false} NotifyJoinsTouched(t: Tables, joins: seq<ProductRepo.AlertJoin>,
                                              due: ProductRepo.AlertJoin -> bool,
                                              send: (PriceAlert, Product) -> bool, now: Time)
    ensures var e := NotifyJoins(t, joins, due, send, now);
      TouchedOnly(t, e.tables, Seqs.Filter(joins, due)[..|e.notified|], now)
    decreases |joins|
  {
    if |joins| > 0 {
      var j := joins[0];
      if !due(j) {
        NotifyJoinsTouched(t, joins[1..], due, send, now);
      } else {
        match SendNotification(t, BulkAlert(j), j.product, send, now)
        case Err(_) =>
        case Ok(t1) =>
          NotifyJoinsTouched(t1, joins[1..], due, send, now);
          var rest := NotifyJoins(t1, joins[1..], due, send, now);
          TouchedStep(t, t1, j, Seqs.Filter(joins[1..], due), rest, now);
      }
    }
  }

  lemma TouchedStep(t: Tables, t1: Tables, j: ProductRepo.AlertJoin, due1: seq<ProductRepo.AlertJoin>,
                    rest: Evaluation, now: Time)
    requires RecordedExactly(t, t1, [j.alert.id], j.product, now)
    requires |rest.notified| <= |due1|
    requires TouchedOnly(t1, rest.tables, due1[..|rest.notified|], now)
    ensures TouchedOnly(t, rest.tables, ([j] + due1)[..1 + |rest.notified|], now)
  {
    TouchedCons(t, t1, rest.tables, j, due1[..|rest.notified|], now);
    assert ([j] + due1)[..1 + |rest.notified|] == [j] + due1[..|rest.notified|];
  }

  /** `evaluateAlertsBulk` over the sweep `listProductsNeedingAlerts`. */
  function EvaluateBulk(t: Tables, send: (PriceAlert, Product) -> bool, now: Time): (e: Evaluation)
    ensures |e.notified| <= |DueJoins(ProductRepo.ListProductsNeedingAlerts(t))|
    ensures !e.failed ==> e.notified == JoinIds(DueJoins(ProductRepo.ListProductsNeedingAlerts(t)))
    ensures TouchedOnly(t, e.tables, DueJoins(ProductRepo.ListProductsNeedingAlerts(t))[..|e.notified|], now)
    ensures Valid(t) ==> Valid(e.tables)
  {
    var e := NotifyJoins(t, ProductRepo.ListProductsNeedingAlerts(t), BulkDue, send, now);
    NotifyJoinsTouched(t, ProductRepo.ListProductsNeedingAlerts(t), BulkDue, send, now);
    if Valid(t) then
      TouchedKeepsValid(t, e.tables, DueJoins(ProductRepo.ListProductsNeedingAlerts(t))[..|e.notified|], now);
      e
    else e
  }

  /** On well-formed tables the bulk sweep notifies no alert twice: the
      join lists each active alert once, and the notified ids are a prefix
      of the due ones. */
  lemma BulkNotifiedDistinct(t: Tables, send: (PriceAlert, Product) -> bool, now: Time)
    requires Valid(t)
    ensures var e := EvaluateBulk(t, send, now);
      forall i, j :: 0 <= i < j < |e.notified| ==> e.notified[i] != e.notified[j]
  {
    var joins := ProductRepo.ListProductsNeedingAlerts(t);
    ProductRepo.ListProductsNeedingAlertsDistinct(t);
    assert Seqs.DistinctBy(joins, ProductRepo.JoinKey);
    Seqs.FilterDistinct(joins, BulkDue, ProductRepo.JoinKey);
    var due := DueJoins(joins);
    var e := NotifyJoins(t, joins, BulkDue, send, now);
    assert e == EvaluateBulk(t, send, now);
    forall i, j | 0 <= i < j < |e.notified| ensures e.notified[i] != e.notified[j] {
      assert e.notified[i] == JoinIds(due)[i] == ProductRepo.JoinKey(due[i]);
      assert e.notified[j] == JoinIds(due)[j] == ProductRepo.JoinKey(due[j]);
    }
  }

  /** After a sweep, each notified alert holds the price and stock of the
      product its own join carried (the last such join when an alert is
      joined twice), and an alert the sweep did not notify is unchanged. */
  lemma NotifyJoinsRecordsOwnProduct(t: Tables, joins: seq<ProductRepo.AlertJoin>,
                                     due: ProductRepo.AlertJoin -> bool,
                                     send: (PriceAlert, Product) -> bool, now: Time, k: nat)
    requires k < |t.alerts|
    ensures var e := NotifyJoins(t, joins, due, send, now);
      var done := Seqs.Filter(joins, due)[..|e.notified|];
      && |e.tables.alerts| == |t.alerts|
      && (t.alerts[k].id !in e.notified ==> e.tables.alerts[k] == t.alerts[k])
      && forall m :: 0 <= m < |done| && done[m].alert.id == t.alerts[k].id
                      && (forall m' :: m < m' < |done| ==> done[m'].alert.id != t.alerts[k].id) ==>
           e.tables.alerts[k].lastNotifiedPriceHuf == done[m].product.currentPriceHuf
           && e.tables.alerts[k].lastNotifiedInStock == Some(BoolToInt(done[m].product.inStock))
           && e.tables.alerts[k].lastNotifiedAt == Some(now)
  {
    var e := NotifyJoins(t, joins, due, send, now);
    var done := Seqs.Filter(joins, due)[..|e.notified|];
    NotifyJoinsTouched(t, joins, due, send, now);
    assert JoinIds(done) == e.notified;
    if t.alerts[k].id !in e.notified {
      ApplyJoinsUntouched(t.alerts[k], done, now);
    }
    forall m | 0 <= m < |done| && done[m].alert.id == t.alerts[k].id
               && (forall m' :: m < m' < |done| ==> done[m'].alert.id != t.alerts[k].id)
      ensures e.tables.alerts[k] == Recorded(t.alerts[k], done[m].product, now)
    {
      ApplyJoinsLast(t.alerts[k], done, m, now);
    }
  }

  /** Recording notifications, whatever product state each records, keeps
      the tables well-formed. */
  lemma TouchedKeepsValid(t: Tables, t': Tables, notified: seq<ProductRepo.AlertJoin>, now: Time)
    requires Valid(t) && TouchedOnly(t, t', notified, now)
    ensures Valid(t')
  {
    forall k | 0 <= k < |t'.alerts| ensures ValidAlertRow(t'.alerts[k], t'.nextId) && t'.alerts[k].id == t.alerts[k].id {
      assert ValidAlertRow(t.alerts[k], t.nextId);
      ApplyJoinsKeeps(t.alerts[k], notified, now, t.nextId);
    }
  }

  /** An alert that stayed quiet stays quiet on a repeat that changes
      nothing: same price and stock, the previous state in stock exactly
      when the product is, and neither change reported. */
  lemma QuietStaysQuiet(a: PriceAlert, input1: AlertInput, input2: AlertInput)
    requires !ShouldNotify(a, input1)
    requires input2.product.currentPriceHuf == input1.product.currentPriceHuf
    requires input2.product.inStock == input1.product.inStock
    requires !input2.priceChanged && !input2.stockChanged
    requires input2.previous.Some? && input2.previous.value.inStock == input2.product.inStock
    ensures !ShouldNotify(a, input2)
  {
  }

  /** In the second round every active alert row of the product stays
      silent: a row recorded in the first round sits on the plateau, any
      other row was already silent then. */
  lemma RepeatRowQuiet(t1: Tables, e1: Evaluation, input1: AlertInput, input2: AlertInput, now1: Time, k: nat)
    requires Valid(t1) && !e1.failed
    requires e1.notified == Ids(Due(AlertRepo.ListActiveAlerts(t1, input1.product.id), input1))
    requires RecordedExactly(t1, e1.tables, e1.notified, input1.product, now1)
    requires input2.product.currentPriceHuf == input1.product.currentPriceHuf
    requires input2.product.inStock == input1.product.inStock
    requires !input2.priceChanged && !input2.stockChanged
    requires input2.previous.Some? && input2.previous.value.inStock == input2.product.inStock
    requires k < |e1.tables.alerts|
    requires AlertRepo.MapAlert(e1.tables.alerts[k]).productId == input1.product.id
    requires AlertRepo.MapAlert(e1.tables.alerts[k]).active
    ensures !ShouldNotify(AlertRepo.MapAlert(e1.tables.alerts[k]), input2)
  {
    var row0 := t1.alerts[k];
    var a := AlertRepo.MapAlert(e1.tables.alerts[k]);
    if row0.id in e1.notified {
      assert e1.tables.alerts[k] == Recorded(row0, input1.product, now1);
      PlateauIsQuiet(a, input2);
    } else {
      assert e1.tables.alerts[k] == row0;
      assert ValidAlertRow(row0, t1.nextId);
      assert AlertRepo.ActiveFor(input1.product.id, row0);
      var listed := AlertRepo.ListActiveAlerts(t1, input1.product.id);
      assert a in listed;
      NotNotifiedIsQuiet(listed, input1, a);
      QuietStaysQuiet(a, input1, input2);
    }
  }

  /** A listed alert whose id was not notified was not due. */
  lemma NotNotifiedIsQuiet(listed: seq<PriceAlert>, input: AlertInput, a: PriceAlert)
    requires a in listed && a.id !in Ids(Due(listed, input))
    ensures !ShouldNotify(a, input)
  {
    var due := Due(listed, input);
    Seqs.FilterMembers(listed, Triggers(input));
    forall j | 0 <= j < |due| ensures due[j] != a {
      assert Ids(due)[j] == due[j].id;
    }
    var m :| 0 <= m < |listed| && listed[m] == a;
    assert !Triggers(input)(listed[m]);
  }

  /** The second evaluation sends nothing when every listed alert sits on
      a row covered by `RepeatRowQuiet`. */
  lemma SecondRoundQuiet(t1: Tables, e1: Evaluation, input1: AlertInput, t2: Tables, input2: AlertInput,
                         send2: (PriceAlert, Product) -> bool, now1: Time, now2: Time)
    requires Valid(t1) && !e1.failed
    requires e1.notified == Ids(Due(AlertRepo.ListActiveAlerts(t1, input1.product.id), input1))
    requires RecordedExactly(t1, e1.tables, e1.notified, input1.product, now1)
    requires t2.alerts == e1.tables.alerts && input2.product.id == input1.product.id
    requires input2.product.currentPriceHuf == input1.product.currentPriceHuf
    requires input2.product.inStock == input1.product.inStock
    requires !input2.priceChanged && !input2.stockChanged
    requires input2.previous.Some? && input2.previous.value.inStock == input2.product.inStock
    ensures var e2 := EvaluateForProduct(t2, input2, send2, now2);
      e2.notified == [] && !e2.failed && e2.tables == t2
  {
    var listed := AlertRepo.ListActiveAlerts(t2, input2.product.id);
    ListedQuiet(t1, e1, input1, t2, input2, now1);
    Seqs.FilterNone(listed, Triggers(input2));
    var e2 := EvaluateForProduct(t2, input2, send2, now2);
    assert e2.notified == [];
    assert e2.tables.alerts == t2.alerts;
  }

  /** No alert listed for the second evaluation triggers. */
  lemma ListedQuiet(t1: Tables, e1: Evaluation, input1: AlertInput, t2: Tables, input2: AlertInput, now1: Time)
    requires Valid(t1) && !e1.failed
    requires e1.notified == Ids(Due(AlertRepo.ListActiveAlerts(t1, input1.product.id), input1))
    requires RecordedExactly(t1, e1.tables, e1.notified, input1.product, now1)
    requires t2.alerts == e1.tables.alerts && input2.product.id == input1.product.id
    requires input2.product.currentPriceHuf == input1.product.currentPriceHuf
    requires input2.product.inStock == input1.product.inStock
    requires !input2.priceChanged && !input2.stockChanged
    requires input2.previous.Some? && input2.previous.value.inStock == input2.product.inStock
    ensures var listed := AlertRepo.ListActiveAlerts(t2, input2.product.id);
      forall i :: 0 <= i < |listed| ==> !Triggers(input2)(listed[i])
  {
    var listed := AlertRepo.ListActiveAlerts(t2, input2.product.id);
    forall i | 0 <= i < |listed| ensures !Triggers(input2)(listed[i]) {
      var m :| 0 <= m < |t2.alerts| && AlertRepo.MapAlerts(t2.alerts)[m] == listed[i];
      RepeatRowQuiet(t1, e1, input1, input2, now1, m);
    }
  }

  /** End to end: reconcile a listing and evaluate its alerts, then
      reconcile the identical listing again and evaluate again. When the
      first evaluation delivered everything it owed, the second round
      reports no change, appends no snapshot, sends nothing whatever the
      mailer does, and leaves the tables as the reconciliation left them. */
  lemma ReconcileTwiceNotifiesOnce(t: Tables, storeId: Id, s: ScrapedProduct,
                                   send1: (PriceAlert, Product) -> bool, send2: (PriceAlert, Product) -> bool,
                                   now1: Time, now2: Time)
    requires Valid(t)
    ensures var u1 := ProductRepo.Upsert(t, storeId, s, now1).value;
      var e1 := EvaluateForProduct(u1.tables, InputOf(u1.result), send1, now1);
      var u2 := ProductRepo.Upsert(e1.tables, storeId, s, now2).value;
      var e2 := EvaluateForProduct(u2.tables, InputOf(u2.result), send2, now2);
      !e1.failed ==>
        && !ProductRepo.Changed(u2.result)
        && u2.tables.snapshots == u1.tables.snapshots
        && e2.notified == [] && !e2.failed && e2.tables == u2.tables
  {
    var u1 := ProductRepo.Upsert(t, storeId, s, now1).value;
    var input1 := InputOf(u1.result);
    var e1 := EvaluateForProduct(u1.tables, input1, send1, now1);
    if !e1.failed {
      ProductRepo.UpsertTwiceIsQuiet(t, storeId, s, now1, now2);
      ProductRepo.UpsertIgnoresOtherTables(u1.tables, e1.tables, storeId, s, now2);
      var u2 := ProductRepo.Upsert(e1.tables, storeId, s, now2).value;
      SecondRoundQuiet(u1.tables, e1, input1, u2.tables, InputOf(u2.result), send2, now1, now2);
    }
  }

  /** One round of a price watch: the product as observed at `price`,
      compared with the previous observation, the stock unchanged. */
  function RoundInput(previous: Product, price: nat): AlertInput
  {
    AlertInput(previous.(currentPriceHuf := Some(price)), Some(previous),
               Some(price) != previous.currentPriceHuf, false)
  }

  /** The alert after a round: recorded with the product's state when it
      fired, unchanged otherwise. */
  function AfterRound(a: PriceAlert, input: AlertInput, now: Time): PriceAlert
  {
    if ShouldNotify(a, input) then AlertRepo.MapAlert(Recorded(AlertRepo.AlertToRow(a), input.product, now)) else a
  }

  /** One alert watched over a run of observed prices with the stock
      unchanged, as consecutive reconciliations present them: each round
      compares with the previous observation, and a fired alert records the
      price it was sent for. The result says in which rounds it fired. */
  function Replay(a: PriceAlert, previous: Product, prices: seq<nat>, now: Time): (fired: seq<bool>)
    ensures |fired| == |prices|
    decreases |prices|
  {
    if |prices| == 0 then []
    else
      var input := RoundInput(previous, prices[0]);
      [ShouldNotify(a, input)] + Replay(AfterRound(a, input, now), input.product, prices[1..], now)
  }

  /** While the product stays in stock, a price alert fires in a round
      exactly when the price is at or under its target and the price moved
      or fell below the one last notified; firing records that price. */
  lemma PriceRound(a: PriceAlert, previous: Product, price: nat, now: Time)
    requires previous.inStock && a.targetPriceHuf.Some?
    ensures var input := RoundInput(previous, price);
      && (ShouldNotify(a, input) <==>
            && price <= a.targetPriceHuf.value
            && (Some(price) != previous.currentPriceHuf || a.lastNotifiedPriceHuf.None?
                || price < a.lastNotifiedPriceHuf.value))
      && AfterRound(a, input, now).targetPriceHuf == a.targetPriceHuf
      && (ShouldNotify(a, input) ==> AfterRound(a, input, now).lastNotifiedPriceHuf == Some(price))
      && (!ShouldNotify(a, input) ==> AfterRound(a, input, now) == a)
      && input.product.inStock && input.product.currentPriceHuf == Some(price)
  {
  }

  /** Replaying a run is replaying its first round, then the rest. */
  lemma ReplayRound(a: PriceAlert, previous: Product, price: nat, rest: seq<nat>, now: Time)
    ensures var input := RoundInput(previous, price);
      Replay(a, previous, [price] + rest, now)
        == [ShouldNotify(a, input)] + Replay(AfterRound(a, input, now), input.product, rest, now)
  {
    assert ([price] + rest)[1..] == rest;
  }

  /** The plateau scenario: a target of 9000 over observations 10000, 8000,
      8000, 7000, 7000 of an in-stock product notifies at the first 8000
      and at the first 7000 only. */
  lemma PlateauScenario(a: PriceAlert, start: Product, now: Time)
    requires a.targetPriceHuf == Some(9000) && a.lastNotifiedPriceHuf.None?
    requires start.currentPriceHuf == Some(10000) && start.inStock
    ensures Replay(a, start, [10000, 8000, 8000, 7000, 7000], now) == [false, true, false, true, false]
  {
    var i1 := RoundInput(start, 10000);
    PriceRound(a, start, 10000, now);
    var a1 := AfterRound(a, i1, now);
    PriceRound(a1, i1.product, 8000, now);
    var i2 := RoundInput(i1.product, 8000);
    PlateauAfterFirstDrop(AfterRound(a1, i2, now), i2.product, now);
    ReplayRound(a1, i1.product, 8000, [8000, 7000, 7000], now);
    ReplayRound(a, start, 10000, [8000, 8000, 7000, 7000], now);
  }

  /** The rest of the plateau scenario, once 8000 has been notified. */
  lemma PlateauAfterFirstDrop(a2: PriceAlert, p2: Product, now: Time)
    requires a2.targetPriceHuf == Some(9000) && a2.lastNotifiedPriceHuf == Some(8000)
    requires p2.currentPriceHuf == Some(8000) && p2.inStock
    ensures Replay(a2, p2, [8000, 7000, 7000], now) == [false, true, false]
  {
    PriceRound(a2, p2, 8000, now);
    var i3 := RoundInput(p2, 8000);
    var a3 := AfterRound(a2, i3, now);
    PriceRound(a3, i3.product, 7000, now);
    var i4 := RoundInput(i3.product, 7000);
    var a4 := AfterRound(a3, i4, now);
    PriceRound(a4, i4.product, 7000, now);
    ReplayRound(a4, i4.product, 7000, [], now);
    ReplayRound(a3, i3.product, 7000, [7000], now);
    ReplayRound(a2, p2, 8000, [7000, 7000], now);
  }
}

=== FILE: auth.dfy ===
/** The authentication middleware (backend/utils/authMiddleware.js): where
    a request's token is taken from, and what `requireAuth`, `requireAdmin`
    and `optionalAuth` decide. Checking a token's signature and expiry
    (`jwt.verify`) is the oracle `verify`, which gives the token's payload
    or nothing (its exception caught as `null`). */
module Auth {
  import opened Wrappers
  import opened Types
  import opened Schema
  import UserRepo

  /** The scheme prefix of the `Authorization` header; it is matched with
      its letter case. */
  const BearerPrefix: string := "Bearer "

  /** What the middleware reads from a request: the `Authorization`
      header and the `token` cookie, each when present. */
  datatype Request = Request(authorization: Option<string>, cookieToken: Option<string>)

  /** The claims signed into a token. */
  datatype Payload = Payload(id: Id, email: string, isAdmin: bool)

  /** What a middleware does: answer with a status and an error body, or
      pass the request on, with the user attached when there is one. */
  datatype Outcome = Reject(status: nat, error: string) | Proceed(user: Option<User>)

  /** The token after "Bearer " in the header, possibly empty; nothing when
      the header is missing or has another scheme. */
  function HeaderToken(authorization: Option<string>): (r: Option<string>)
    ensures r.Some? <==> && authorization.Some? && |authorization.value| >= |BearerPrefix|
                         && authorization.value[..|BearerPrefix|] == BearerPrefix
    ensures r.Some? ==> authorization.value == BearerPrefix + r.value
  {
    match authorization
    case None => None
    case Some(h) =>
      if |h| >= |BearerPrefix| && h[..|BearerPrefix|] == BearerPrefix then
        assert h == h[..|BearerPrefix|] + h[|BearerPrefix|..];
        Some(h[|BearerPrefix|..])
      else None
  }

  /** The token a request carries: the header's when it is a non-empty
      bearer token, else the cookie's when that is non-empty, else none (an
      empty string counts as no token). */
  function ExtractToken(req: Request): (r: Option<string>)
    ensures r.Some? ==> |r.value| > 0
    ensures var h := HeaderToken(req.authorization);
      h.Some? && |h.value| > 0 ==> r == h
    ensures var h := HeaderToken(req.authorization);
      !(h.Some? && |h.value| > 0) ==>
        r == if req.cookieToken.Some? && |req.cookieToken.value| > 0 then req.cookieToken else None
  {
    var h := HeaderToken(req.authorization);
    if h.Some? && |h.value| > 0 then h
    else if req.cookieToken.Some? && |req.cookieToken.value| > 0 then req.cookieToken
    else None
  }

  /** A bearer header gives back exactly the token written after the
      scheme, whatever the cookie says. */
  lemma BearerRoundTrip(token: string, cookie: Option<string>)
    requires |token| > 0
    ensures ExtractToken(Request(Some(BearerPrefix + token), cookie)) == Some(token)
  {
    var h := BearerPrefix + token;
    assert h[..|BearerPrefix|] == BearerPrefix;
    assert h[|BearerPrefix|..] == token;
  }

  /** A header of the bearer scheme with nothing after it is as good as
      no header: the cookie decides. */
  lemma BareBearerFallsBack(header: string, cookie: Option<string>)
    requires header == BearerPrefix
    ensures ExtractToken(Request(Some(header), cookie)) == ExtractToken(Request(None, cookie))
  {
    assert header[..|BearerPrefix|] == BearerPrefix;
  }

  /** The scheme is matched with its case: "bearer " is not recognised,
      so the cookie decides. */
  lemma LowercaseSchemeIgnored(token: string, cookie: Option<string>)
    ensures ExtractToken(Request(Some("bearer " + token), cookie)) == ExtractToken(Request(None, cookie))
  {
    var h := "bearer " + token;
    assert h[0] == 'b' != BearerPrefix[0];
  }

  /** `requireAuth`: 401 "Authentication required" without a token, 401
      "Invalid or expired token" when the token does not verify, 401 "User
      not found" when its user no longer exists; otherwise the request
      proceeds with that user as the database has it now. */
  function RequireAuth(req: Request, verify: string -> Option<Payload>, t: Tables): (r: Outcome)
    ensures r.Reject? ==> r.status == 401
    ensures ExtractToken(req).None? ==> r == Reject(401, "Authentication required")
    ensures ExtractToken(req).Some? && verify(ExtractToken(req).value).None? ==>
      r == Reject(401, "Invalid or expired token")
    ensures r.Proceed? <==>
      && ExtractToken(req).Some? && verify(ExtractToken(req).value).Some?
      && exists i :: 0 <= i < |t.users| && t.users[i].id == verify(ExtractToken(req).value).value.id
    ensures r.Proceed? ==>
      && r.user.Some? && r.user.value.id == verify(ExtractToken(req).value).value.id
      && exists i :: 0 <= i < |t.users| && r.user.value == UserRepo.MapUser(t.users[i])
    ensures r.Reject? && r.error == "User not found" ==>
      forall i :: 0 <= i < |t.users| ==> t.users[i].id != verify(ExtractToken(req).value).value.id
  {
    match ExtractToken(req)
    case None => Reject(401, "Authentication required")
    case Some(token) =>
      match verify(token)
      case None => Reject(401, "Invalid or expired token")
      case Some(decoded) =>
        match UserRepo.GetUserById(t, decoded.id)
        case None => Reject(401, "User not found")
        case Some(user) => Proceed(Some(user))
  }

  /** `requireAdmin`: 401 without an attached user, 403 for a user who is
      not an administrator, otherwise the request proceeds unchanged. */
  function RequireAdmin(user: Option<User>): (r: Outcome)
    ensures r.Proceed? <==> user.Some? && user.value.isAdmin
    ensures r.Proceed? ==> r.user == user
    ensures user.None? ==> r == Reject(401, "Authentication required")
    ensures user.Some? && !user.value.isAdmin ==> r == Reject(403, "Admin privileges required")
  {
    match user
    case None => Reject(401, "Authentication required")
    case Some(u) =>
      if !u.isAdmin then Reject(403, "Admin privileges required")
      else Proceed(user)
  }

  /** `optionalAuth`: the request always proceeds; the user is attached
      only when a token is present, verifies and names an existing user. */
  function OptionalAuth(req: Request, verify: string -> Option<Payload>, t: Tables): (r: Outcome)
    ensures r.Proceed?
    ensures r.user.Some? ==>
      && ExtractToken(req).Some? && verify(ExtractToken(req).value).Some?
      && r.user.value.id == verify(ExtractToken(req).value).value.id
  {
    match ExtractToken(req)
    case None => Proceed(None)
    case Some(token) =>
      match verify(token)
      case None => Proceed(None)
      case Some(decoded) => Proceed(UserRepo.GetUserById(t, decoded.id))
  }

  /** The optional middleware attaches a user exactly when the required
      one would let the request through, and then the same user. */
  lemma OptionalAgreesWithRequired(req: Request, verify: string -> Option<Payload>, t: Tables)
    ensures var required := RequireAuth(req, verify, t);
      OptionalAuth(req, verify, t).user == if required.Proceed? then required.user else None
  {
  }

  /** `requireAuth` followed by `requireAdmin` lets a request through
      exactly when its token verifies and the user it names exists and is
      an administrator in the database. */
  lemma AdminChain(req: Request, verify: string -> Option<Payload>, t: Tables)
    ensures var auth := RequireAuth(req, verify, t);
      (auth.Proceed? && RequireAdmin(auth.user).Proceed?) <==>
        && ExtractToken(req).Some? && verify(ExtractToken(req).value).Some?
        && var u := UserRepo.GetUserById(t, verify(ExtractToken(req).value).value.id);
           u.Some? && u.value.isAdmin
  {
  }

  /** Rights follow the database, not the token: two verifiers that agree
      on the user id a token names, whatever they say about its email or
      admin claim, lead to the same decisions. */
  lemma ClaimsBeyondIdIgnored(req: Request, verify: string -> Option<Payload>,
                              verify': string -> Option<Payload>, t: Tables)
    requires forall token :: verify(token).Some? <==> verify'(token).Some?
    requires forall token :: verify(token).Some? ==> verify(token).value.id == verify'(token).value.id
    ensures RequireAuth(req, verify, t) == RequireAuth(req, verify', t)
    ensures OptionalAuth(req, verify, t) == OptionalAuth(req, verify', t)
  {
  }

  /** A token whose admin claim is false still passes the admin check when
      the database says the user is an administrator, and a true claim does
      not pass it when the database says otherwise. */
  lemma AdminFlagFromDatabase(req: Request, verify: string -> Option<Payload>, t: Tables)
    requires ExtractToken(req).Some? && verify(ExtractToken(req).value).Some?
    requires UserRepo.GetUserById(t, verify(ExtractToken(req).value).value.id).Some?
    ensures var auth := RequireAuth(req, verify, t);
      RequireAdmin(auth.user).Proceed? ==
        UserRepo.GetUserById(t, verify(ExtractToken(req).value).value.id).value.isAdmin
  {
  }
}

=== FILE: config.dfy ===
/** The base-path normalisation of the application configuration
    (backend/config.js): the prefix the site is mounted under, written as
    "" for the root or as "/segment…" with one leading slash and no
    trailing one. */
module Config {
  import opened Wrappers
  import Text

  /** `replace(/^\/+/, "")`. */
  function StripLeadingSlashes(s: string): (r: string)
    ensures |r| <= |s| && r == s[|s| - |r|..]
    ensures |r| > 0 ==> r[0] != '/'
  {
    if |s| > 0 && s[0] == '/' then StripLeadingSlashes(s[1..]) else s
  }

  /** Only slashes are stripped from the front. */
  lemma {:induction false} StripLeadingOnlySlashes(s: string)
    ensures forall i :: 0 <= i < |s| - |StripLeadingSlashes(s)| ==> s[i] == '/'
  {
    if |s| > 0 && s[0] == '/' {
      StripLeadingOnlySlashes(s[1..]);
      assert forall i :: 1 <= i < |s| ==> s[i] == s[1..][i - 1];
    }
  }

  /** `replace(/\/+$/, "")`. */
  function StripTrailingSlashes(s: string): (r: string)
    ensures |r| <= |s| && r == s[..|r|]
    ensures |r| > 0 ==> r[|r| - 1] != '/'
  {
    if |s| > 0 && s[|s| - 1] == '/' then StripTrailingSlashes(s[..|s| - 1]) else s
  }

  /** Only slashes are stripped from the back. */
  lemma {:induction false} StripTrailingOnlySlashes(s: string)
    ensures forall i :: |StripTrailingSlashes(s)| <= i < |s| ==> s[i] == '/'
  {
    if |s| > 0 && s[|s| - 1] == '/' {
      StripTrailingOnlySlashes(s[..|s| - 1]);
    }
  }

  /** The part of the trimmed input between its leading and its trailing
      run of slashes. */
  function Core(raw: Option<string>): string
  {
    StripTrailingSlashes(StripLeadingSlashes(Text.Trim(raw.GetOr(""))))
  }

  /** `normalizeBasePath`: nothing, the empty string, and anything that
      trims to "" or "/" give ""; otherwise the trimmed input with its
      leading and trailing slashes removed, behind one slash, or "" when
      nothing but slashes was left. */
  function NormalizeBasePath(raw: Option<string>): string
  {
    if raw.None? || |raw.value| == 0 then ""
    else
      var trimmed := Text.Trim(raw.value);
      if |trimmed| == 0 || (|trimmed| == 1 && trimmed[0] == '/') then ""
      else
        var core := StripTrailingSlashes(StripLeadingSlashes(trimmed));
        if |core| == 0 then "" else ['/'] + core
  }

  /** The result is the core behind one slash, or "" when the core is
      empty: the early returns for "" and "/" agree with that. */
  lemma NormalizeBasePathIsCore(raw: Option<string>)
    ensures NormalizeBasePath(raw) == if Core(raw) == "" then "" else "/" + Core(raw)
  {
    var t := Text.Trim(raw.GetOr(""));
    if t == "/" {
      assert StripLeadingSlashes(t) == "";
    }
  }

  /** Nothing, the empty string and what trims to "" or "/" give "";
      anything else is one leading slash, not followed by another, and no
      trailing slash. */
  lemma NormalizeBasePathShape(raw: Option<string>)
    ensures raw.None? || raw == Some("") ==> NormalizeBasePath(raw) == ""
    ensures var t := Text.Trim(raw.GetOr("")); t == "" || t == "/" ==> NormalizeBasePath(raw) == ""
    ensures var r := NormalizeBasePath(raw);
      |r| == 0 || (|r| >= 2 && r[0] == '/' && r[1] != '/' && r[|r| - 1] != '/')
  {
    NormalizeBasePathIsCore(raw);
  }

  /** The result is empty exactly when the trimmed input is nothing but
      slashes. */
  lemma NormalizeBasePathEmpty(raw: Option<string>)
    ensures var t := Text.Trim(raw.GetOr(""));
      NormalizeBasePath(raw) == "" <==> forall i :: 0 <= i < |t| ==> t[i] == '/'
  {
    NormalizeBasePathIsCore(raw);
    var t := Text.Trim(raw.GetOr(""));
    var lead := StripLeadingSlashes(t);
    var core := StripTrailingSlashes(lead);
    StripLeadingOnlySlashes(t);
    StripTrailingOnlySlashes(lead);
    if core == "" {
      assert |lead| == 0;
    } else {
      var a := |t| - |lead|;
      assert t[a] == lead[0] == core[0] != '/';
    }
  }

  /** Stripping the slashes at both ends keeps a stretch of the string,
      starting at `a`, with only slashes around it. */
  lemma StripBothIsSlice(t: string) returns (a: nat)
    ensures var core := StripTrailingSlashes(StripLeadingSlashes(t));
      && a + |core| <= |t| && t[a..a + |core|] == core
      && (forall i :: 0 <= i < a ==> t[i] == '/')
      && (forall i :: a + |core| <= i < |t| ==> t[i] == '/')
  {
    var lead := StripLeadingSlashes(t);
    StripLeadingOnlySlashes(t);
    a := |t| - |lead|;
    TrailingSlashesOfSuffix(t, a, lead);
    var core := StripTrailingSlashes(lead);
    assert a + |core| <= |t| && t[a..a + |core|] == core;
  }

  /** What the trailing strip removes from a suffix of `t` are slashes of
      `t`. */
  lemma TrailingSlashesOfSuffix(t: string, a: nat, lead: string)
    requires a <= |t| && lead == t[a..]
    ensures var core := StripTrailingSlashes(lead);
      && a + |core| <= |t| && t[a..a + |core|] == core
      && forall i :: a + |core| <= i < |t| ==> t[i] == '/'
  {
    var core := StripTrailingSlashes(lead);
    StripTrailingOnlySlashes(lead);
    forall i | a + |core| <= i < |t| ensures t[i] == '/' {
      assert t[i] == lead[i - a];
    }
  }

  /** A string that neither starts nor ends with a slash is its own core. */
  lemma StripUnslashed(s: string)
    requires |s| > 0 && s[0] != '/' && s[|s| - 1] != '/'
    ensures StripLeadingSlashes(s) == s && StripTrailingSlashes(s) == s
  {
  }

  /** A path of normal shape (one leading slash, no trailing slash, no
      whitespace at its end) normalises to itself. */
  lemma NormalShapeIsFixpoint(x: string)
    requires |x| >= 2 && x[0] == '/' && x[1] != '/' && x[|x| - 1] != '/' && !Text.IsSpace(x[|x| - 1])
    ensures NormalizeBasePath(Some(x)) == x
  {
    CoreOfNormalShape(x);
    NormalizeBasePathIsCore(Some(x));
    SlashThenRest(x);
  }

  lemma SlashThenRest(x: string)
    requires |x| > 0 && x[0] == '/'
    ensures "/" + x[1..] == x
  {
  }

  lemma CoreOfNormalShape(x: string)
    requires |x| >= 2 && x[0] == '/' && x[1] != '/' && x[|x| - 1] != '/' && !Text.IsSpace(x[|x| - 1])
    ensures Core(Some(x)) == x[1..]
  {
    Text.TrimUnpadded(x);
    StripOneLeadingSlash(x);
  }

  /** A normalised path normalises to itself, provided it does not end in
      whitespace (which the second pass would trim away). */
  lemma NormalizeBasePathIdempotent(raw: Option<string>)
    requires var r := NormalizeBasePath(raw); |r| == 0 || !Text.IsSpace(r[|r| - 1])
    ensures NormalizeBasePath(Some(NormalizeBasePath(raw))) == NormalizeBasePath(raw)
  {
    NormalizeBasePathShape(raw);
    var r := NormalizeBasePath(raw);
    if |r| > 0 {
      NormalShapeIsFixpoint(r);
    }
  }

  /** Whitespace just inside a trailing slash survives a pass: "/a /"
      gives "/a ". */
  lemma InnerSpaceSurvives(raw: string)
    requires raw == "/a /"
    ensures NormalizeBasePath(Some(raw)) == raw[..3]
  {
    Text.TrimUnpadded(raw);
    assert StripLeadingSlashes(raw) == StripLeadingSlashes(raw[1..]) == raw[1..];
    assert StripTrailingSlashes(raw[1..]) == raw[1..3];
    NormalizeBasePathIsCore(Some(raw));
    assert "/" + raw[1..3] == raw[..3];
  }

  /** One trailing whitespace character after unpadded text is all that
      trimming removes. */
  lemma TrimOneTrailingSpace(s: string)
    requires |s| >= 2 && Text.IsSpace(s[|s| - 1])
    requires !Text.IsSpace(s[0]) && !Text.IsSpace(s[|s| - 2])
    ensures Text.Trim(s) == s[..|s| - 1]
  {
    assert Text.SpaceRunEnd(s, 0) == 0;
    assert Text.SpaceRunStart(s, |s| - 1) == |s| - 1;
    assert Text.SpaceRunStart(s, |s|) == |s| - 1;
  }

  /** One leading slash before unslashed text is all that the slash
      stripping removes. */
  lemma StripOneLeadingSlash(s: string)
    requires |s| >= 2 && s[0] == '/' && s[1] != '/' && s[|s| - 1] != '/'
    ensures StripTrailingSlashes(StripLeadingSlashes(s)) == s[1..]
  {
    StripUnslashed(s[1..]);
  }

  /** … and the next pass trims it: "/a " gives "/a", so normalisation is
      not idempotent on such input. */
  lemma InnerSpaceTrimmedLater(once: string)
    requires once == "/a "
    ensures NormalizeBasePath(Some(once)) == once[..2] != once
  {
    TrimOneTrailingSpace(once);
    StripOneLeadingSlash(once[..2]);
    NormalizeBasePathIsCore(Some(once));
  }

  /** `normalizeBasePath(path) || path`: the normalised path, or the path
      itself should that come out empty. */
  function BasePathOr(path: string): (r: string)
    ensures |r| > 0 || path == ""
  {
    var normalized := NormalizeBasePath(Some(path));
    if |normalized| > 0 then normalized else path
  }

  /** `HARDCODED_BASE_PATH`. */
  const HardcodedBasePath: string := BasePathOr("/pokemonscout")

  /** "/pokemonscout" is already normal, so it is its own base path. */
  lemma PokemonscoutIsNormal(path: string)
    requires path == "/pokemonscout"
    ensures NormalizeBasePath(Some(path)) == path
    ensures BasePathOr(path) == path
  {
    NormalShapeIsFixpoint(path);
  }
}

=== FILE: db.dfy ===
/** The database wrapper (backend/db.js): how statement parameters are
    normalised before binding, the debounced write-back of the in-memory
    database to its file, and the start-up migration. The SQL engine is
    left abstract: the database content is a type parameter `D` and a
    statement is a change of that content, which may fail. Writing the
    file (`persistNow`) is counted as a durable write and remembered as the
    content last written; the 50 ms timer is an explicit event. */
module Db {
  import opened Wrappers

  // ---------------------------------------------------------------------
  // Parameter normalisation
  // ---------------------------------------------------------------------

  /** A value handed to `run`, `get` or `all`: an array, a plain object
      (prototype `Object.prototype` or `null`) with its entries in the
      order `Object.entries` lists them, or anything else, an atom of type
      `V` (a string, number, `null`, a `Date`, a buffer …). */
  datatype Param<V> =
    | Atom(value: V)
    | ArrayParam(items: seq<Param<V>>)
    | PlainObject(entries: seq<(string, Param<V>)>)

  /** What is bound to the statement: nothing, values by position, or
      values by name. */
  datatype Binding<V> =
    | Unbound
    | Positional(values: seq<Param<V>>)
    | Named(named: map<string, Param<V>>)

  /** A key gets the `:`, `@` and `$` aliases when it is non-empty and
      carries none of those prefixes already. */
  predicate Aliased(key: string)
  {
    |key| > 0 && key[0] != ':' && key[0] != '@' && key[0] != '$'
  }

  /** The names one entry writes: its key, and the three aliases when the
      key gets them. */
  function Names(key: string): set<string>
  {
    if Aliased(key) then {key, [':'] + key, ['@'] + key, ['$'] + key} else {key}
  }

  /** One iteration of the entry loop: the key, and its aliases, all get
      the entry's value; every other name keeps its value. */
  function WriteEntry<P>(m: map<string, P>, key: string, value: P): (r: map<string, P>)
    ensures forall x :: x in r <==> x in m || x in Names(key)
    ensures forall x :: x in Names(key) ==> r[x] == value
    ensures forall x :: x in m && x !in Names(key) ==> r[x] == m[x]
  {
    var m1 := m[key := value];
    if Aliased(key) then m1[[':'] + key := value][['@'] + key := value][['$'] + key := value]
    else m1
  }

  /** The named parameters built from a plain object's entries, in order:
      a later entry overwrites what an earlier one wrote. */
  function NamedParams<P>(entries: seq<(string, P)>): map<string, P>
  {
    if |entries| == 0 then map[]
    else
      var last := entries[|entries| - 1];
      WriteEntry(NamedParams(entries[..|entries| - 1]), last.0, last.1)
  }

  /** `normalizeParams`: no parameters bind nothing; a single array binds
      its items; a single plain object binds its entries by name, with
      aliases; a single other value binds as a one-element list; several
      parameters bind by position. */
  function NormalizeParams<V>(params: seq<Param<V>>): (r: Binding<V>)
    ensures r.Unbound? <==> |params| == 0
    ensures |params| >= 2 ==> r == Positional(params)
    ensures |params| == 1 && !params[0].ArrayParam? && !params[0].PlainObject? ==> r == Positional(params)
    ensures |params| == 1 && params[0].ArrayParam? ==> r == Positional(params[0].items)
    ensures r.Named? <==> |params| == 1 && params[0].PlainObject?
  {
    if |params| == 0 then Unbound
    else if |params| == 1 then
      match params[0]
      case ArrayParam(items) => Positional(items)
      case PlainObject(entries) => Named(NamedParams(entries))
      case Atom(_) => Positional(params)
    else Positional(params)
  }

  /** Passing values spread or as one array binds the same, except for a
      single array or plain object, which the array form would wrap. */
  lemma SpreadEqualsArray<V>(params: seq<Param<V>>)
    requires |params| >= 2 || (|params| == 1 && params[0].Atom?)
    ensures NormalizeParams(params) == NormalizeParams([ArrayParam(params)])
  {
  }

  /** A name is bound exactly when some entry writes it. */
  lemma {:induction false} NamedParamsDomain<P>(entries: seq<(string, P)>, x: string)
    ensures x in NamedParams(entries) <==> exists i :: 0 <= i < |entries| && x in Names(entries[i].0)
  {
    if |entries| > 0 {
      var init := entries[..|entries| - 1];
      NamedParamsDomain(init, x);
      if x in NamedParams(init) {
        var i :| 0 <= i < |init| && x in Names(init[i].0);
        assert entries[i] == init[i];
      }
      if exists i :: 0 <= i < |entries| && x in Names(entries[i].0) {
        var i :| 0 <= i < |entries| && x in Names(entries[i].0);
        if i < |init| {
          assert init[i] == entries[i];
        }
      }
    }
  }

  /** Every key of the object is bound. */
  lemma NamedParamsKeepsKeys<P>(entries: seq<(string, P)>, i: nat)
    requires i < |entries|
    ensures entries[i].0 in NamedParams(entries)
  {
    NamedParamsDomain(entries, entries[i].0);
  }

  /** A name is bound to the value of the last entry that writes it. */
  lemma {:induction false} NamedParamsLastWriter<P>(entries: seq<(string, P)>, x: string, i: nat)
    requires i < |entries| && x in Names(entries[i].0)
    requires forall j :: i < j < |entries| ==> x !in Names(entries[j].0)
    ensures x in NamedParams(entries) && NamedParams(entries)[x] == entries[i].1
  {
    var init := entries[..|entries| - 1];
    if i < |entries| - 1 {
      assert init[i] == entries[i];
      forall j | i < j < |init| ensures x !in Names(init[j].0) {
        assert init[j] == entries[j];
      }
      NamedParamsLastWriter(init, x, i);
    }
  }

  /** Keys of distinct names that carry no prefix keep their own value,
      and so do their three aliases. */
  lemma UnprefixedKeysKeepValues<P>(entries: seq<(string, P)>, i: nat)
    requires forall j :: 0 <= j < |entries| ==> Aliased(entries[j].0)
    requires forall j, k :: 0 <= j < k < |entries| ==> entries[j].0 != entries[k].0
    requires i < |entries|
    ensures var key, r := entries[i].0, NamedParams(entries);
      && key in r && r[key] == entries[i].1
      && [':'] + key in r && r[[':'] + key] == entries[i].1
      && ['@'] + key in r && r[['@'] + key] == entries[i].1
      && ['$'] + key in r && r[['$'] + key] == entries[i].1
  {
    var key := entries[i].0;
    forall x | x in Names(key)
      ensures x in NamedParams(entries) && NamedParams(entries)[x] == entries[i].1
    {
      forall j | i < j < |entries| ensures x !in Names(entries[j].0) {
        NamesDisjoint(key, entries[j].0, x);
      }
      NamedParamsLastWriter(entries, x, i);
    }
  }

  /** Two different unprefixed keys write no name in common. */
  lemma NamesDisjoint(a: string, b: string, x: string)
    requires Aliased(a) && Aliased(b) && a != b
    requires x in Names(a)
    ensures x !in Names(b)
  {
    forall y | y in Names(b) ensures y != x {
      NameShape(a, x);
      NameShape(b, y);
      if x == a && y != b {
        assert x[0] != y[0];
      } else if x != a && y == b {
        assert x[0] != y[0];
      } else if x != a && y != b {
        assert x[1..] != y[1..];
      }
    }
  }

  /** A name an unprefixed key writes is the key itself or the key behind
      one of the three prefixes. */
  lemma NameShape(key: string, x: string)
    requires Aliased(key) && x in Names(key)
    ensures |x| > 0
    ensures x == key || (x[1..] == key && (x[0] == ':' || x[0] == '@' || x[0] == '$'))
  {
  }

  // ---------------------------------------------------------------------
  // Debounced write-back
  // ---------------------------------------------------------------------

  /** The connection's state: the in-memory content, whether a write-back
      timer is armed (`persistScheduled`, with `persistTimer` set exactly
      then), whether the database is closed, how many durable writes
      have happened and what the file last received. */
  datatype State<D> = State(content: D, scheduled: bool, closed: bool, writes: nat, disk: Option<D>)

  /** Why a statement did not run. */
  datatype DbError = DatabaseClosed | StatementFailed

  /** The timer is never armed on a closed database. */
  predicate Inv<D>(s: State<D>)
  {
    s.closed ==> !s.scheduled
  }

  /** Opening: the file's content when the file exists, else an empty
      database; nothing armed, nothing written. */
  function Open<D>(file: Option<D>, empty: D): (s: State<D>)
    ensures Inv(s) && !s.closed && !s.scheduled && s.writes == 0 && s.disk == file
    ensures file.Some? ==> s.content == file.value
  {
    State(file.GetOr(empty), false, false, 0, file)
  }

  /** `schedulePersist`: arms the timer unless the database is closed or a
      timer is already armed; the content is untouched. */
  function SchedulePersist<D>(s: State<D>): (r: State<D>)
    ensures r.content == s.content && r.closed == s.closed && r.writes == s.writes && r.disk == s.disk
    ensures r.scheduled <==> s.scheduled || !s.closed
  {
    if s.closed || s.scheduled then s else s.(scheduled := true)
  }

  /** `persistNow`: the content goes to the file. */
  function PersistNow<D>(s: State<D>): (r: State<D>)
    ensures r.writes == s.writes + 1 && r.disk == Some(s.content)
    ensures r.content == s.content && r.scheduled == s.scheduled && r.closed == s.closed
  {
    s.(writes := s.writes + 1, disk := Some(s.content))
  }

  /** `run` and `exec`: on a closed database the statement fails; a
      statement the engine rejects changes nothing and arms nothing; one it
      accepts changes the content and arms the timer. */
  function Write<D>(s: State<D>, change: D -> Option<D>): (r: Result<State<D>, DbError>)
    ensures s.closed ==> r == Err(DatabaseClosed)
    ensures !s.closed && change(s.content).None? ==> r == Err(StatementFailed)
    ensures r.Ok? <==> !s.closed && change(s.content).Some?
    ensures r.Ok? ==> && r.value.content == change(s.content).value && r.value.scheduled
                      && !r.value.closed && r.value.writes == s.writes && r.value.disk == s.disk
  {
    if s.closed then Err(DatabaseClosed)
    else match change(s.content)
      case None => Err(StatementFailed)
      case Some(c) => Ok(SchedulePersist(s.(content := c)))
  }

  /** `get` and `all`: the query reads the content and changes nothing. */
  function Read<D, R>(s: State<D>, query: D -> R): (r: Result<(R, State<D>), DbError>)
    ensures r.Err? <==> s.closed
    ensures r.Ok? ==> r.value.0 == query(s.content) && r.value.1 == s
  {
    if s.closed then Err(DatabaseClosed) else Ok((query(s.content), s))
  }

  /** The timer fires: it disarms itself and the content is written. */
  function Fire<D>(s: State<D>): (r: State<D>)
    ensures !r.scheduled && r.content == s.content && r.closed == s.closed
    ensures s.scheduled ==> r.writes == s.writes + 1 && r.disk == Some(s.content)
    ensures !s.scheduled ==> r == s
  {
    if s.scheduled then PersistNow(s.(scheduled := false)) else s
  }

  /** `flushDatabase`: nothing on a closed database; otherwise an armed
      timer is cancelled and the content is written now. */
  function Flush<D>(s: State<D>): (r: State<D>)
    ensures s.closed ==> r == s
    ensures !s.closed ==> && !r.scheduled && r.writes == s.writes + 1 && r.disk == Some(s.content)
                          && r.content == s.content && !r.closed
  {
    if s.closed then s else PersistNow(s.(scheduled := false))
  }

  /** `closeDatabase`: nothing on a closed database; otherwise a flush,
      then the database is closed. */
  function Close<D>(s: State<D>): (r: State<D>)
    ensures r.closed
    ensures !r.scheduled <==> (s.closed ==> !s.scheduled)
    ensures s.closed ==> r == s
    ensures !s.closed ==> r.writes == s.writes + 1 && r.disk == Some(s.content) && r.content == s.content
  {
    if s.closed then s else Flush(s).(closed := true)
  }

  /** A caller's action on the connection. A failed statement raises to
      its caller and leaves the connection as it was. */
  datatype Event<!D> =
    | Mutation(change: D -> Option<D>)
    | Query
    | TimerFires
    | FlushNow
    | CloseNow

  function Step<D>(s: State<D>, e: Event<D>): State<D>
  {
    match e
    case Mutation(change) => (match Write(s, change) case Ok(s') => s' case Err(_) => s)
    case Query => s
    case TimerFires => Fire(s)
    case FlushNow => Flush(s)
    case CloseNow => Close(s)
  }

  function Run<D>(s: State<D>, events: seq<Event<D>>): State<D>
    decreases |events|
  {
    if |events| == 0 then s else Run(Step(s, events[0]), events[1..])
  }

  /** Every action keeps the timer disarmed on a closed database, and
      nothing ever reopens it. */
  lemma StepKeepsInv<D>(s: State<D>, e: Event<D>)
    requires Inv(s)
    ensures Inv(Step(s, e))
    ensures s.closed ==> Step(s, e).closed
  {
  }

  lemma {:induction false} RunKeepsInv<D>(s: State<D>, events: seq<Event<D>>)
    requires Inv(s)
    ensures Inv(Run(s, events))
    ensures s.closed ==> Run(s, events).closed
    decreases |events|
  {
    if |events| > 0 {
      StepKeepsInv(s, events[0]);
      RunKeepsInv(Step(s, events[0]), events[1..]);
    }
  }

  /** Once closed, nothing changes any more: statements fail, flushes and
      closes do nothing, and no timer is left to fire. */
  lemma {:induction false} ClosedIsFinal<D>(s: State<D>, events: seq<Event<D>>)
    requires Inv(s) && s.closed
    ensures Run(s, events) == s
    decreases |events|
  {
    if |events| > 0 {
      assert Step(s, events[0]) == s;
      ClosedIsFinal(s, events[1..]);
    }
  }

  /** Closing is idempotent and writes once. */
  lemma CloseTwice<D>(s: State<D>)
    ensures Close(Close(s)) == Close(s)
    ensures !s.closed ==> Close(Close(s)).writes == s.writes + 1
  {
  }

  /** Statements and queries between two firings. */
  predicate Quiet<D>(e: Event<D>)
  {
    e.Mutation? || e.Query?
  }

  /** Statements and queries on an open database write nothing, keep the
      database open, and leave the timer armed once it is. */
  lemma {:induction false} QuietWritesNothing<D>(s: State<D>, events: seq<Event<D>>)
    requires !s.closed && forall i :: 0 <= i < |events| ==> Quiet(events[i])
    ensures var r := Run(s, events);
      && r.writes == s.writes && r.disk == s.disk && !r.closed
      && (s.scheduled ==> r.scheduled)
    decreases |events|
  {
    if |events| > 0 {
      QuietWritesNothing(Step(s, events[0]), events[1..]);
    }
  }

  /** A statement that succeeds among them leaves the timer armed. */
  lemma {:induction false} SuccessArms<D>(s: State<D>, events: seq<Event<D>>, i: nat)
    requires !s.closed && forall j :: 0 <= j < |events| ==> Quiet(events[j])
    requires i < |events| && events[i].Mutation?
    requires Write(Run(s, events[..i]), events[i].change).Ok?
    ensures Run(s, events).scheduled
    decreases |events|
  {
    if i == 0 {
      QuietWritesNothing(Step(s, events[0]), events[1..]);
    } else {
      assert events[..i][0] == events[0];
      assert events[..i][1..] == events[1..][..i - 1];
      QuietWritesNothing(s, events[..1]);
      SuccessArms(Step(s, events[0]), events[1..], i - 1);
    }
  }

  /** Coalescing: however many statements run before the timer fires,
      the firing makes at most one durable write, exactly one when the
      timer was armed, and it writes the latest content. */
  lemma CoalescedWrite<D>(s: State<D>, events: seq<Event<D>>)
    requires !s.closed && forall i :: 0 <= i < |events| ==> Quiet(events[i])
    ensures var before := Run(s, events); var r := Fire(before);
      && !r.scheduled
      && r.writes == s.writes + (if before.scheduled then 1 else 0)
      && (before.scheduled ==> r.disk == Some(before.content))
  {
    QuietWritesNothing(s, events);
  }

  /** After a flush the timer is no longer armed, so a firing that was
      due writes nothing more. */
  lemma FlushThenFire<D>(s: State<D>)
    requires Inv(s)
    ensures Fire(Flush(s)) == Flush(s)
  {
  }

  // ---------------------------------------------------------------------
  // Migration
  // ---------------------------------------------------------------------

  /** The schema as the migration sees it: each table's column names, and
      each index with the table it belongs to. */
  datatype Catalog = Catalog(tables: map<string, seq<string>>, indexes: map<string, string>)

  /** `CREATE TABLE IF NOT EXISTS` and `CREATE [UNIQUE] INDEX IF NOT
      EXISTS`. */
  datatype Ddl = CreateTable(name: string, columns: seq<string>) | CreateIndex(index: string, on: string)

  function DdlName(d: Ddl): string
  {
    if d.CreateTable? then d.name else d.index
  }

  /** One statement: a no-op when the table or index already exists. */
  function ApplyOne(c: Catalog, d: Ddl): (r: Catalog)
    ensures d.CreateTable? ==> r.indexes == c.indexes && r.tables.Keys == c.tables.Keys + {d.name}
    ensures d.CreateTable? ==> forall n :: n in c.tables ==> r.tables[n] == c.tables[n]
    ensures d.CreateIndex? ==> r.tables == c.tables && r.indexes.Keys == c.indexes.Keys + {d.index}
    ensures d.CreateIndex? ==> forall n :: n in c.indexes ==> r.indexes[n] == c.indexes[n]
  {
    match d
    case CreateTable(name, columns) =>
      if name in c.tables then c else c.(tables := c.tables[name := columns])
    case CreateIndex(index, on) =>
      if index in c.indexes then c else c.(indexes := c.indexes[index := on])
  }

  /** The statements in order. */
  function ApplyAll(c: Catalog, ds: seq<Ddl>): Catalog
    decreases |ds|
  {
    if |ds| == 0 then c else ApplyAll(ApplyOne(c, ds[0]), ds[1..])
  }

  /** Whether the catalog already has the object a statement creates. */
  predicate Has(c: Catalog, d: Ddl)
  {
    if d.CreateTable? then d.name in c.tables else d.index in c.indexes
  }

  /** Creating only adds: what existed stays as it was, and afterwards
      every object of the statements exists. */
  lemma {:induction false} ApplyAllOnlyAdds(c: Catalog, ds: seq<Ddl>)
    ensures var r := ApplyAll(c, ds);
      && r.tables.Keys >= c.tables.Keys && r.indexes.Keys >= c.indexes.Keys
      && (forall n :: n in c.tables ==> r.tables[n] == c.tables[n])
      && (forall n :: n in c.indexes ==> r.indexes[n] == c.indexes[n])
      && (forall i :: 0 <= i < |ds| ==> Has(r, ds[i]))
    decreases |ds|
  {
    if |ds| > 0 {
      var c1 := ApplyOne(c, ds[0]);
      ApplyAllOnlyAdds(c1, ds[1..]);
      var r := ApplyAll(c, ds);
      forall i | 0 <= i < |ds| ensures Has(r, ds[i]) {
        if i > 0 {
          assert ds[i] == ds[1..][i - 1];
        }
      }
    }
  }

  /** Statements whose objects all exist change nothing. */
  lemma {:induction false} ApplyAllPresent(c: Catalog, ds: seq<Ddl>)
    requires forall i :: 0 <= i < |ds| ==> Has(c, ds[i])
    ensures ApplyAll(c, ds) == c
    decreases |ds|
  {
    if |ds| > 0 {
      assert ApplyOne(c, ds[0]) == c;
      ApplyAllPresent(c, ds[1..]);
    }
  }

  /** Creating the same objects twice is creating them once. */
  lemma ApplyAllIdempotent(c: Catalog, ds: seq<Ddl>)
    ensures ApplyAll(ApplyAll(c, ds), ds) == ApplyAll(c, ds)
  {
    ApplyAllOnlyAdds(c, ds);
    ApplyAllPresent(ApplyAll(c, ds), ds);
  }

  const AlertsTable: string := "price_alerts"
  const UserIdColumn: string := "user_id"

  const UsersColumns: seq<string> := ["id", "email", "password_hash", "is_admin", "created_at", "updated_at"]
  const StoresColumns: seq<string> := ["id", "slug", "name", "base_url", "created_at", "updated_at"]
  const ProductsColumns: seq<string> :=
    ["id", "store_id", "remote_id", "slug", "name", "product_url", "image_url", "category",
     "current_price_huf", "current_currency", "status", "in_stock", "last_seen_at",
     "last_change_at", "created_at", "updated_at"]
  const SnapshotsColumns: seq<string> :=
    ["id", "product_id", "price_huf", "currency", "in_stock", "status", "raw_price", "collected_at"]
  const AlertsColumns: seq<string> :=
    ["id", "product_id", UserIdColumn, "target_price_huf", "notify_on_in_stock", "notify_on_restock",
     "active", "last_notified_at", "last_notified_price_huf", "last_notified_in_stock",
     "created_at", "updated_at"]

  /** The schema script, in the order it is executed. */
  const SchemaScript: seq<Ddl> := [
    CreateTable("users", UsersColumns),
    CreateIndex("users_email_idx", "users"),
    CreateTable("stores", StoresColumns),
    CreateTable("products", ProductsColumns),
    CreateIndex("products_store_url_idx", "products"),
    CreateIndex("products_store_slug_idx", "products"),
    CreateTable("price_snapshots", SnapshotsColumns),
    CreateIndex("price_snapshots_product_idx", "price_snapshots"),
    CreateTable(AlertsTable, AlertsColumns),
    CreateIndex("price_alerts_user_idx", AlertsTable),
    CreateIndex("price_alerts_product_idx", AlertsTable)
  ]

  /** `PRAGMA table_info`: the table's columns, none when it is missing. */
  function TableInfo(c: Catalog, table: string): seq<string>
  {
    if table in c.tables then c.tables[table] else []
  }

  /** The alerts table is recreated when it exists but has no `user_id`
      column. */
  predicate NeedsRecreate(c: Catalog)
  {
    var columns := TableInfo(c, AlertsTable);
    |columns| > 0 && UserIdColumn !in columns
  }

  /** `DROP TABLE IF EXISTS`: the table goes, and its indexes with it. */
  function DropTable(c: Catalog, table: string): (r: Catalog)
    ensures r.tables.Keys == c.tables.Keys - {table}
    ensures forall n :: n in r.tables ==> r.tables[n] == c.tables[n]
    ensures forall n :: n in r.indexes <==> n in c.indexes && c.indexes[n] != table
    ensures forall n :: n in r.indexes ==> r.indexes[n] == c.indexes[n]
  {
    Catalog(c.tables - {table}, map n | n in c.indexes && c.indexes[n] != table :: c.indexes[n])
  }

  /** `migrate` on the schema: the outdated alerts table is dropped, then
      the schema script runs. */
  function MigrateCatalog(c: Catalog): Catalog
  {
    ApplyAll(if NeedsRecreate(c) then DropTable(c, AlertsTable) else c, SchemaScript)
  }

  /** The alerts table is dropped exactly when it exists without
      `user_id`; every other table, and its indexes, stays as it was. */
  lemma MigrateDropDecision(c: Catalog)
    ensures var r := MigrateCatalog(c);
      && (forall n :: n in c.tables && n != AlertsTable ==> n in r.tables && r.tables[n] == c.tables[n])
      && (forall n :: n in c.indexes && c.indexes[n] != AlertsTable ==> n in r.indexes && r.indexes[n] == c.indexes[n])
      && AlertsTable in r.tables
      && (!NeedsRecreate(c) && AlertsTable in c.tables ==> r.tables[AlertsTable] == c.tables[AlertsTable])
      && (NeedsRecreate(c) ==> r.tables[AlertsTable] == AlertsColumns)
  {
    var d := if NeedsRecreate(c) then DropTable(c, AlertsTable) else c;
    ApplyAllOnlyAdds(d, SchemaScript);
    assert Has(MigrateCatalog(c), SchemaScript[8]);
    if NeedsRecreate(c) {
      AlertsCreatedFresh(d);
    }
  }

  /** With no alerts table, the script creates it with its full columns. */
  lemma AlertsCreatedFresh(d: Catalog)
    requires AlertsTable !in d.tables
    ensures AlertsTable in ApplyAll(d, SchemaScript).tables
    ensures ApplyAll(d, SchemaScript).tables[AlertsTable] == AlertsColumns
  {
    var prefix := SchemaScript[..8];
    var rest := SchemaScript[8..];
    ApplyAllSplit(d, SchemaScript, 8);
    var mid := ApplyAll(d, prefix);
    PrefixKeepsAlertsAbsent(d, prefix);
    ApplyAllOnlyAdds(ApplyOne(mid, rest[0]), rest[1..]);
  }

  lemma {:induction false} ApplyAllSplit(c: Catalog, ds: seq<Ddl>, k: nat)
    requires k <= |ds|
    ensures ApplyAll(c, ds) == ApplyAll(ApplyAll(c, ds[..k]), ds[k..])
    decreases |ds|
  {
    if k > 0 {
      assert ds[..k][0] == ds[0];
      assert ds[..k][1..] == ds[1..][..k - 1];
      assert ds[k..] == ds[1..][k - 1..];
      ApplyAllSplit(ApplyOne(c, ds[0]), ds[1..], k - 1);
    }
  }

  /** The statements before the alerts table create other tables only. */
  lemma {:induction false} PrefixKeepsAlertsAbsent(d: Catalog, ds: seq<Ddl>)
    requires AlertsTable !in d.tables
    requires forall i :: 0 <= i < |ds| ==> ds[i].CreateTable? ==> ds[i].name != AlertsTable
    ensures AlertsTable !in ApplyAll(d, ds).tables
    decreases |ds|
  {
    if |ds| > 0 {
      PrefixKeepsAlertsAbsent(ApplyOne(d, ds[0]), ds[1..]);
    }
  }

  /** After migrating, every table of the schema exists and the alerts
      table has a `user_id` column (tables in SQLite always have at least
      one column). */
  lemma MigrateHasUserId(c: Catalog)
    requires forall n :: n in c.tables ==> |c.tables[n]| > 0
    ensures var r := MigrateCatalog(c);
      && AlertsTable in r.tables && UserIdColumn in r.tables[AlertsTable]
      && forall i :: 0 <= i < |SchemaScript| ==> Has(r, SchemaScript[i])
  {
    var d := if NeedsRecreate(c) then DropTable(c, AlertsTable) else c;
    ApplyAllOnlyAdds(d, SchemaScript);
    MigrateDropDecision(c);
    if !NeedsRecreate(c) && AlertsTable !in c.tables {
      AlertsCreatedFresh(d);
    }
    if NeedsRecreate(c) || AlertsTable !in c.tables {
      assert AlertsColumns[2] == UserIdColumn;
    }
  }

  /** Migrating twice is migrating once: the second run drops nothing and
      creates nothing. */
  lemma MigrateIdempotent(c: Catalog)
    ensures MigrateCatalog(MigrateCatalog(c)) == MigrateCatalog(c)
  {
    var r := MigrateCatalog(c);
    var d := if NeedsRecreate(c) then DropTable(c, AlertsTable) else c;
    ApplyAllOnlyAdds(d, SchemaScript);
    assert !NeedsRecreate(r) by {
      MigrateDropDecision(c);
      if !NeedsRecreate(c) && AlertsTable !in c.tables {
        AlertsCreatedFresh(d);
        assert AlertsColumns[2] == UserIdColumn;
      }
      if NeedsRecreate(c) {
        assert AlertsColumns[2] == UserIdColumn;
      }
    }
    ApplyAllPresent(r, SchemaScript);
  }

  /** `migrate` on the connection: the table check reads, the drop and the
      script run as statements, so an open database ends up migrated with
      the write-back armed and nothing yet written. */
  function Migrate(s: State<Catalog>): (r: Result<State<Catalog>, DbError>)
    ensures r.Err? <==> s.closed
    ensures r.Ok? ==> && r.value.content == MigrateCatalog(s.content) && r.value.scheduled
                      && r.value.writes == s.writes && r.value.disk == s.disk
  {
    if s.closed then Err(DatabaseClosed)
    else
      var dropped := if NeedsRecreate(s.content)
        then Step(s, Mutation(c => Some(DropTable(c, AlertsTable))))
        else s;
      Write(dropped, c => Some(ApplyAll(c, SchemaScript)))
  }
}

=== FILE: listing.dfy ===
/** Text handling the store scrapers share: the price parser of
    backend/stores/varazslatos.js and backend/stores/tcgbolt.js (the two are
    written identically), the first non-empty status text, the currency
    a parsed price implies, and the name and link of a listing card. */
module Listing {
  import opened Wrappers
  import Text
  import Seqs

  /** "nincs készleten" ("out of stock"), the phrase the shops' stock
      labels use. */
  const NotInStock := "nincs k\U{00E9}szleten"

  /** A category page a scraper sweeps: its path under the shop's base and
      the category name its products get. */
  datatype Category = Category(path: string, name: string)

  /** A price as the two shops' parsers return it: the number and the
      cleaned text it was read from. */
  datatype BarePrice = BarePrice(priceHuf: Option<nat>, raw: Option<string>)

  /** `parsePrice` of the Varázslatos Játékok and TCGBolt scrapers: empty
      text gives nothing; otherwise the text is cleaned (whitespace runs
      collapsed, ends trimmed), its decimal digits concatenated are the
      price, and the cleaned text is kept unless it is empty. */
  function ParseBarePrice(text: string): (r: BarePrice)
    ensures |text| == 0 ==> r == BarePrice(None, None)
    ensures |text| > 0 ==> (r.raw.None? <==> |Text.Clean(text)| == 0)
    ensures r.raw.Some? ==> r.raw.value == Text.Clean(text)
    ensures r.priceHuf.Some? <==> exists i :: 0 <= i < |Text.Clean(text)| && Text.IsDigit(Text.Clean(text)[i])
    ensures r.priceHuf.Some? ==> r.priceHuf.value == Text.DigitsValue(Text.Digits(Text.Clean(text)))
  {
    if |text| == 0 then BarePrice(None, None)
    else
      var cleaned := Text.Clean(text);
      var digits := Text.Digits(cleaned);
      if |digits| == 0 then
        BarePrice(None, if |cleaned| == 0 then None else Some(cleaned))
      else
        BarePrice(Some(Text.DigitsValue(digits)), Some(cleaned))
  }

  /** A whole number of forints written as "<digits> Ft" parses back to
      itself, with the text kept as written. */
  lemma ParseBarePriceRoundTrip(n: nat)
    ensures ParseBarePrice(Text.NatToString(n) + " Ft") == BarePrice(Some(n), Some(Text.NatToString(n) + " Ft"))
  {
    PriceTextFacts(n);
  }

  /** The facts the price parsers need about "<digits> Ft". */
  lemma PriceTextFacts(n: nat)
    ensures var s := Text.NatToString(n) + " Ft";
      && Text.Clean(s) == s
      && Text.Digits(s) == Text.NatToString(n)
      && Text.DigitsValue(Text.Digits(s)) == n
      && Text.Contains(s, "Ft")
  {
    var d := Text.NatToString(n);
    PriceTextClean(d, d + " Ft");
    PriceTextDigits(d, d + " Ft");
    Text.NatToStringValue(n);
    PriceTextUnit(d, d + " Ft");
  }

  /** Digits, a space and the unit are already clean. */
  lemma PriceTextClean(d: string, s: string)
    requires |d| > 0 && Text.AllDigits(d) && s == d + " Ft"
    ensures Text.Clean(s) == s
  {
    assert Text.NoSpace(d) by {
      forall i | 0 <= i < |d| ensures !Text.IsSpace(d[i]) {
        assert Text.IsDigit(d[i]);
      }
    }
    assert d + " " + "Ft" == s;
    Text.CleanTwoWords(d, "Ft");
  }

  /** The digits of "<digits> Ft" are those digits. */
  lemma PriceTextDigits(d: string, s: string)
    requires Text.AllDigits(d) && s == d + " Ft"
    ensures Text.Digits(s) == d
  {
    Text.DigitsAppend(d, " Ft");
    assert Text.Digits(" Ft") == "";
  }

  /** "<digits> Ft" names the unit. */
  lemma PriceTextUnit(d: string, s: string)
    requires s == d + " Ft"
    ensures Text.Contains(s, "Ft")
  {
    assert s[|d| + 1..|d| + 3] == "Ft";
    Text.ContainsAt(s, "Ft", |d| + 1);
  }

  /** `.map(text => text.trim()).find(Boolean) ?? null`: the first status
      text that is not blank, trimmed. */
  function FirstNonEmpty(texts: seq<string>): (r: Option<string>)
    ensures r.Some? ==> |r.value| > 0 && exists i :: 0 <= i < |texts| && r.value == Text.Trim(texts[i])
    ensures r.None? <==> forall i :: 0 <= i < |texts| ==> |Text.Trim(texts[i])| == 0
  {
    if |texts| == 0 then None
    else if |Text.Trim(texts[0])| > 0 then Some(Text.Trim(texts[0]))
    else
      var rest := FirstNonEmpty(texts[1..]);
      assert forall i :: 1 <= i < |texts| ==> texts[i] == texts[1..][i - 1];
      rest
  }

  /** `priceHuf ? "HUF" : null`: a zero price is falsy and implies no
      currency. */
  function HufIfPriced(price: Option<nat>): (r: Option<string>)
    ensures r.Some? <==> price.Some? && price.value != 0
    ensures r.Some? ==> r.value == "HUF"
  {
    if price.Some? && price.value != 0 then Some("HUF") else None
  }

  /** A link inside a card: its text and its `href`, if any. */
  datatype Anchor = Anchor(text: string, href: Option<string>)

  predicate HasText(a: Anchor)
  {
    |Text.Trim(a.text)| > 0
  }

  /** The card's name and link: the first anchor with visible text names
      the product, and its `href` is used, or else the first anchor's
      (`nameAnchor.attr("href") ?? fallback.attr("href")` in both the
      Varázslatos Játékok and the TCGBolt scraper). */
  function NameAndLink(anchors: seq<Anchor>): (r: (string, Option<string>))
    ensures |r.0| > 0 <==> exists i :: 0 <= i < |anchors| && HasText(anchors[i])
    ensures |r.0| > 0 ==>
      exists i :: && 0 <= i < |anchors| && HasText(anchors[i]) && r.0 == Text.Trim(anchors[i].text)
                  && (forall j :: 0 <= j < i ==> !HasText(anchors[j]))
    ensures r.1.Some? ==> exists i :: 0 <= i < |anchors| && anchors[i].href == r.1
  {
    match Seqs.FindFirst(anchors, HasText)
    case Some(i) =>
      (Text.Trim(anchors[i].text), if anchors[i].href.Some? then anchors[i].href else anchors[0].href)
    case None =>
      ("", if |anchors| > 0 then anchors[0].href else None)
  }
}

=== FILE: logger.dfy ===
/** The in-memory log ring buffer (backend/logger.js): the most recent
    messages, at most `MaxLogs` of them, oldest first. Intercepting the
    console and formatting a message with its level and timestamp happen
    before a message reaches the buffer and are not part of this value. */
module Logger {
  const MaxLogs: nat := 1000

  /** `addLog`: the message goes at the end; when that makes the buffer
      longer than `MaxLogs`, its first (oldest) entry goes. */
  function AddLog(logs: seq<string>, message: string): (r: seq<string>)
    ensures |logs| <= MaxLogs ==> |r| <= MaxLogs
    ensures |r| > 0 && r[|r| - 1] == message
    ensures |logs| < MaxLogs ==> r == logs + [message]
    ensures |logs| >= MaxLogs ==> r == logs[1..] + [message]
  {
    var pushed := logs + [message];
    if |pushed| > MaxLogs then pushed[1..] else pushed
  }

  /** The buffer after logging `messages`, one by one, into `logs`. */
  function AddAll(logs: seq<string>, messages: seq<string>): seq<string>
    decreases |messages|
  {
    if |messages| == 0 then logs
    else AddAll(AddLog(logs, messages[0]), messages[1..])
  }

  /** The most recent `MaxLogs` entries of a history. */
  function Recent(history: seq<string>): (r: seq<string>)
  {
    if |history| <= MaxLogs then history else history[|history| - MaxLogs..]
  }

  /** A buffer that holds the recent part of some history keeps holding the
      recent part of that history with the new messages after it: whatever
      is logged, the buffer is exactly the last `MaxLogs` messages, in order. */
  lemma {:induction false} AddAllKeepsRecent(history: seq<string>, messages: seq<string>)
    ensures AddAll(Recent(history), messages) == Recent(history + messages)
    decreases |messages|
  {
    if |messages| == 0 {
      assert history + messages == history;
    } else {
      var h := history + [messages[0]];
      AddLogKeepsRecent(history, messages[0]);
      AddAllKeepsRecent(h, messages[1..]);
      MoveFirst(history, messages);
    }
  }

  lemma MoveFirst(history: seq<string>, messages: seq<string>)
    requires |messages| > 0
    ensures history + [messages[0]] + messages[1..] == history + messages
  {
    assert [messages[0]] + messages[1..] == messages;
  }

  /** One message: the buffer of the recent part, with the message logged,
      is the recent part of the longer history. */
  lemma AddLogKeepsRecent(history: seq<string>, message: string)
    ensures AddLog(Recent(history), message) == Recent(history + [message])
  {
    var h := history + [message];
    if |history| >= MaxLogs {
      assert Recent(history)[1..] + [message] == h[|h| - MaxLogs..];
    }
  }

  /** Starting from the empty buffer, the buffer is the last `MaxLogs`
      messages logged; so it never holds more than `MaxLogs`. */
  lemma BufferIsLastMessages(messages: seq<string>)
    ensures AddAll([], messages) == Recent(messages)
    ensures |AddAll([], messages)| <= MaxLogs
  {
    AddAllKeepsRecent([], messages);
    assert [] + messages == messages;
  }

  /** `getLogs`: a copy of the buffer, oldest first. */
  function GetLogs(logs: seq<string>): (r: seq<string>)
    ensures |r| == |logs| && forall i :: 0 <= i < |r| ==> r[i] == logs[i]
  {
    logs[..]
  }

  /** `clearLogs`: the buffer is emptied. */
  function ClearLogs(logs: seq<string>): (r: seq<string>)
    ensures |r| == 0
  {
    []
  }

  /** After a clear, the buffer holds only what is logged after it. */
  lemma ClearThenLog(logs: seq<string>, messages: seq<string>)
    ensures AddAll(ClearLogs(logs), messages) == Recent(messages)
  {
    BufferIsLastMessages(messages);
  }
}

=== FILE: metagames.dfy ===
/** The pure helpers of the Metagames scraper (backend/stores/metagames.js):
    page URLs, price text, the product id and slug in a link, and the
    stock decision. URL resolution against the shop's base (`new URL`) is
    the oracle `resolve`. */
module Metagames {
  import opened Wrappers
  import opened Types
  import Text
  import Listing

  const BaseUrl := "https://www.metagames.hu"

  /** The listing root used when the configuration gives none. */
  const DefaultListingRoot := "https://www.metagames.hu/gyujtogetos-kartyajatekok/pokemon-tcg/termekek"

  /** `APP_CONFIG.metagames.baseUrl || <default>`: an empty configured root
      is falsy. */
  function ListingRoot(configured: Option<string>): (r: string)
    ensures configured.Some? && |configured.value| > 0 ==> r == configured.value
    ensures configured.None? || |configured.value| == 0 ==> r == DefaultListingRoot
  {
    if configured.Some? && |configured.value| > 0 then configured.value else DefaultListingRoot
  }

  /** `buildListingUrl`: page 0 (or less) is the root itself; a later page
      appends `page=<n>` as a new query string, or as a further parameter
      when the root already has one. */
  function BuildListingUrl(root: string, page: int): (r: string)
    ensures page <= 0 ==> r == root
    ensures page > 0 ==> |r| > |root| + 6 && r[..|root|] == root
  {
    if page <= 0 then root
    else
      var separator := if Text.Contains(root, "?") then "&" else "?";
      root + separator + "page=" + Text.NatToString(page)
  }

  lemma ListingUrlShape(root: string, page: int)
    requires page > 0
    ensures var r := BuildListingUrl(root, page);
      && r[|root|] == (if Text.Contains(root, "?") then '&' else '?')
      && r[|root| + 1..|root| + 6] == "page="
      && r[|root| + 6..] == Text.NatToString(page)
  {
    var sep := if Text.Contains(root, "?") then "&" else "?";
    var d := Text.NatToString(page);
    var r := BuildListingUrl(root, page);
    assert r == root + sep + "page=" + d;
    Text.ConcatSlices(root + sep, "page=", d);
  }

  /** The page number is recoverable from a page URL: after the root come
      `?page=` (or `&page=` when the root has a query) and the page in
      decimal. */
  lemma ListingUrlCarriesPage(root: string, page: int)
    requires page > 0
    ensures var r := BuildListingUrl(root, page);
      && r[|root|] == (if Text.Contains(root, "?") then '&' else '?')
      && r[|root| + 1..|root| + 6] == "page="
      && Text.AllDigits(r[|root| + 6..])
      && Text.DigitsValue(r[|root| + 6..]) == page
  {
    ListingUrlShape(root, page);
    Text.NatToStringValue(page);
  }

  /** `normalizeUrl`: a missing or empty link is the shop's base; a link
      starting with "http" is kept; anything else is resolved against the
      base. */
  function NormalizeUrl(href: Option<string>, resolve: (string, string) -> string): (r: string)
    ensures href.None? || |href.value| == 0 ==> r == BaseUrl
    ensures href.Some? && "http" <= href.value ==> r == href.value
    ensures href.Some? && |href.value| > 0 && !("http" <= href.value) ==> r == resolve(href.value, BaseUrl)
  {
    if href.None? || |href.value| == 0 then BaseUrl
    else if "http" <= href.value then href.value
    else resolve(href.value, BaseUrl)
  }

  /** The Metagames price: number, currency and cleaned text. */
  datatype PriceInfo = PriceInfo(priceHuf: Option<nat>, currency: Option<string>, raw: Option<string>)

  /** `parsePrice`: empty text gives nothing; text without digits keeps only
      its cleaned form; otherwise the digits concatenated are the price and
      the currency is HUF exactly when the cleaned text mentions "Ft". */
  function ParsePrice(text: string): (r: PriceInfo)
    ensures |text| == 0 ==> r == PriceInfo(None, None, None)
    ensures |text| > 0 ==> r.raw == Some(Text.Clean(text))
    ensures r.priceHuf.Some? <==> |text| > 0 && |Text.Digits(Text.Clean(text))| > 0
    ensures r.priceHuf.Some? ==> r.priceHuf.value == Text.DigitsValue(Text.Digits(Text.Clean(text)))
    ensures r.currency.Some? <==> r.priceHuf.Some? && Text.Contains(Text.Clean(text), "Ft")
    ensures r.currency.Some? ==> r.currency.value == "HUF"
  {
    if |text| == 0 then PriceInfo(None, None, None)
    else
      var cleaned := Text.Clean(text);
      var digits := Text.Digits(cleaned);
      if |digits| == 0 then PriceInfo(None, None, Some(cleaned))
      else PriceInfo(Some(Text.DigitsValue(digits)), if Text.Contains(cleaned, "Ft") then Some("HUF") else None, Some(cleaned))
  }

  /** A whole number of forints written "<digits> Ft" parses back to
      itself, in HUF. */
  lemma ParsePriceRoundTrip(n: nat)
    ensures ParsePrice(Text.NatToString(n) + " Ft") ==
            PriceInfo(Some(n), Some("HUF"), Some(Text.NatToString(n) + " Ft"))
  {
    Listing.PriceTextFacts(n);
  }

  /** A case-insensitive "pid" at position `i`, followed by a digit. */
  predicate PidAt(s: string, i: nat)
  {
    && i + 4 <= |s|
    && (s[i] == 'p' || s[i] == 'P') && (s[i + 1] == 'i' || s[i + 1] == 'I')
    && (s[i + 2] == 'd' || s[i + 2] == 'D') && Text.IsDigit(s[i + 3])
  }

  /** The longest run of digits `s` starts with. */
  function DigitRun(s: string): (r: string)
    ensures r <= s && Text.AllDigits(r)
    ensures |r| < |s| ==> !Text.IsDigit(s[|r|])
  {
    if |s| > 0 && Text.IsDigit(s[0]) then [s[0]] + DigitRun(s[1..]) else []
  }

  /** The leftmost match of `/pid(\d+)/i` in `s`: its digit group. */
  function PidMatch(s: string): (r: Option<string>)
    ensures r.Some? ==> |r.value| > 0 && Text.AllDigits(r.value)
    decreases |s|
  {
    if |s| < 4 then None
    else if PidAt(s, 0) then Some(DigitRun(s[3..]))
    else PidMatch(s[1..])
  }

  /** `extractRemoteId`: the digits of the first "pid" (any case) that is
      followed by a digit. */
  function ExtractRemoteId(href: Option<string>): (r: Option<string>)
    ensures href.None? || |href.value| == 0 ==> r.None?
    ensures r.Some? ==> |r.value| > 0 && Text.AllDigits(r.value)
  {
    if href.None? || |href.value| == 0 then None else PidMatch(href.value)
  }

  /** The match is the leftmost one: at the first position holding "pid"
      and a digit, the whole digit run there is taken; with no such
      position there is no id. */
  lemma {:induction false} PidMatchIsLeftmost(s: string, i: nat)
    requires PidAt(s, i) && forall j :: 0 <= j < i ==> !PidAt(s, j)
    ensures PidMatch(s) == Some(DigitRun(s[i + 3..]))
    decreases i
  {
    if i > 0 {
      assert !PidAt(s, 0);
      forall j | 0 <= j < i - 1 ensures !PidAt(s[1..], j) {
        assert !PidAt(s, j + 1);
      }
      assert PidAt(s[1..], i - 1);
      PidMatchIsLeftmost(s[1..], i - 1);
      assert s[1..][i - 1 + 3..] == s[i + 3..];
    }
  }

  lemma {:induction false} PidMatchNone(s: string)
    ensures PidMatch(s).None? <==> forall j :: 0 <= j < |s| ==> !PidAt(s, j)
    decreases |s|
  {
    if |s| >= 4 && !PidAt(s, 0) {
      PidMatchNone(s[1..]);
      forall j | 0 <= j < |s| - 1 ensures PidAt(s[1..], j) <==> PidAt(s, j + 1) { }
      if PidMatch(s).None? {
        forall j | 0 <= j < |s| ensures !PidAt(s, j) {
          if j > 0 { assert !PidAt(s[1..], j - 1); }
        }
      }
    }
  }

  /** `extractSlug`: the last non-empty "/" segment of the link. */
  function ExtractSlug(href: Option<string>): (r: Option<string>)
    ensures href.None? || |href.value| == 0 ==> r.None?
    ensures r.Some? ==> |r.value| > 0 && '/' !in r.value
    ensures href.Some? ==> r == Text.LastSegmentFromEnd(href.value, '/')
  {
    if href.None? || |href.value| == 0 then None
    else
      Text.LastSegmentMatchesScanFromEnd(href.value, '/');
      Text.LastSegment(href.value, '/')
  }

  /** NFD decomposition followed by removing the combining marks
      U+0300..U+036F, on the characters the shop's status texts use: the
      accented Latin-1 and Hungarian lower-case letters lose their accent
      and stray combining marks disappear. */
  function PlainChar(c: char): char
  {
    if c < '\U{00E0}' then c
    else if c <= '\U{00E5}' then 'a'
    else if c == '\U{00E7}' then 'c'
    else if '\U{00E8}' <= c <= '\U{00EB}' then 'e'
    else if '\U{00EC}' <= c <= '\U{00EF}' then 'i'
    else if c == '\U{00F1}' then 'n'
    else if '\U{00F2}' <= c <= '\U{00F6}' || c == '\U{0151}' then 'o'
    else if '\U{00F9}' <= c <= '\U{00FC}' || c == '\U{0171}' then 'u'
    else if c == '\U{00FD}' || c == '\U{00FF}' then 'y'
    else c
  }

  predicate IsCombiningMark(c: char)
  {
    '\U{0300}' <= c <= '\U{036F}'
  }

  function StripAccents(s: string): (r: string)
    ensures |r| <= |s|
    ensures forall i :: 0 <= i < |r| ==> !IsCombiningMark(r[i])
  {
    if |s| == 0 then []
    else if IsCombiningMark(s[0]) then StripAccents(s[1..])
    else [PlainChar(s[0])] + StripAccents(s[1..])
  }

  /** The stock decision of a listing card: out of stock when the card has
      a restock-subscription button, or its lower-cased status says "nincs
      készleten" (with or without accents), "hamarosan" (coming soon, with
      or without accents) or "elfogyott" (sold out). */
  predicate InStock(hasRestockButton: bool, status: Option<string>)
  {
    var normalized := if status.Some? && |status.value| > 0 then Text.Lower(status.value) else "";
    var plain := StripAccents(normalized);
    var explicitOut :=
      || Text.Contains(normalized, Listing.NotInStock)
      || Text.Contains(plain, "nincs keszleten")
      || Text.Contains(normalized, "hamarosan")
      || Text.Contains(plain, "hamarosan")
      || Text.Contains(normalized, "elfogyott");
    !(hasRestockButton || explicitOut)
  }

  lemma {:induction false} StripAccentsAppend(a: string, b: string)
    ensures StripAccents(a + b) == StripAccents(a) + StripAccents(b)
  {
    if |a| == 0 {
      assert a + b == b;
    } else {
      assert (a + b)[1..] == a[1..] + b;
      StripAccentsAppend(a[1..], b);
    }
  }

  lemma {:induction false} StripAccentsAscii(s: string)
    requires forall i :: 0 <= i < |s| ==> s[i] < '\U{0080}'
    ensures StripAccents(s) == s
  {
    if |s| > 0 {
      assert !IsCombiningMark(s[0]) && PlainChar(s[0]) == s[0];
      StripAccentsAscii(s[1..]);
      assert s == [s[0]] + s[1..];
    }
  }

  /** Removing accents keeps an occurrence an occurrence. */
  lemma StripAccentsKeepsContains(s: string, t: string)
    requires Text.Contains(s, t)
    ensures Text.Contains(StripAccents(s), StripAccents(t))
  {
    var i := Text.ContainsWitness(s, t);
    assert s == s[..i] + t + s[i + |t|..];
    StripAccentsAppend(s[..i] + t, s[i + |t|..]);
    StripAccentsAppend(s[..i], t);
    var pre := StripAccents(s[..i]);
    Text.ConcatSlices(pre, StripAccents(t), StripAccents(s[i + |t|..]));
    Text.ContainsAt(StripAccents(s), StripAccents(t), |pre|);
  }

  /** One accented letter between two plain ASCII runs loses its accent
      and nothing else changes. */
  lemma StripOneAccent(a: string, c: char, b: string)
    requires forall i :: 0 <= i < |a| ==> a[i] < '\U{0080}'
    requires forall i :: 0 <= i < |b| ==> b[i] < '\U{0080}'
    requires !IsCombiningMark(c)
    ensures StripAccents(a + [c] + b) == a + [PlainChar(c)] + b
  {
    StripAccentsAppend(a + [c], b);
    StripAccentsAppend(a, [c]);
    StripAccentsAscii(a);
    StripAccentsAscii(b);
    assert StripAccents([c]) == [PlainChar(c)] by {
      assert [c][1..] == [];
    }
  }

  /** "nincs készleten" without its accent; stated for any string equal to
      the phrase so that the solver does not evaluate it character by
      character. */
  lemma PlainNotInStock(x: string)
    requires x == Listing.NotInStock
    ensures StripAccents(x) == "nincs keszleten"
  {
    NotInStockSplit(x);
    AsciiRun("nincs k");
    AsciiRun("szleten");
    StripOneAccent("nincs k", '\U{00E9}', "szleten");
    PlainPhraseJoin();
  }

  /** The phrase is two plain runs around its accented letter. */
  lemma NotInStockSplit(x: string)
    requires x == Listing.NotInStock
    ensures x == "nincs k" + ['\U{00E9}'] + "szleten"
  {
  }

  /** The two runs around the accent are plain ASCII. */
  lemma AsciiRun(a: string)
    requires a == "nincs k" || a == "szleten"
    ensures forall i :: 0 <= i < |a| ==> a[i] < '\U{0080}'
  {
  }

  lemma PlainPhraseJoin()
    ensures "nincs k" + [PlainChar('\U{00E9}')] + "szleten" == "nincs keszleten"
  {
  }

  lemma PlainComingSoon()
    ensures StripAccents("hamarosan") == "hamarosan"
  {
    StripAccentsAscii("hamarosan");
  }

  /** The accented checks are subsumed by the accent-free ones: the stock
      decision needs only the accent-free "nincs keszleten" and "hamarosan"
      and the lower-cased "elfogyott". */
  lemma InStockReduced(hasRestockButton: bool, status: Option<string>)
    ensures var normalized := if status.Some? && |status.value| > 0 then Text.Lower(status.value) else "";
      var plain := StripAccents(normalized);
      InStock(hasRestockButton, status) <==>
        !(|| hasRestockButton
          || Text.Contains(plain, "nincs keszleten")
          || Text.Contains(plain, "hamarosan")
          || Text.Contains(normalized, "elfogyott"))
  {
    var normalized := if status.Some? && |status.value| > 0 then Text.Lower(status.value) else "";
    var phrase := Listing.NotInStock;
    PlainNotInStock(phrase);
    PlainComingSoon();
    if Text.Contains(normalized, phrase) {
      StripAccentsKeepsContains(normalized, phrase);
    }
    if Text.Contains(normalized, "hamarosan") {
      StripAccentsKeepsContains(normalized, "hamarosan");
    }
  }

  /** One listing card as the page scraper reads it: the link's text and
      href, the image source, the price heading, the status texts and
      whether a restock button is present. */
  datatype Card = Card(
    linkText: string,
    href: Option<string>,
    imageSrc: Option<string>,
    priceText: string,
    statusTexts: seq<string>,
    hasRestockButton: bool)

  /** The product a card yields: none without a name or a link; otherwise
      the absolute link, the id and slug taken from the link, the parsed
      price with HUF assumed for a nonzero price of unknown currency, the
      first status text, and the stock decision. */
  function CardProduct(card: Card, resolve: (string, string) -> string): (r: Option<ScrapedProduct>)
    ensures r.None? <==> |Text.Trim(card.linkText)| == 0 || card.href.None? || |card.href.value| == 0
                         || |NormalizeUrl(card.href, resolve)| == 0
    ensures r.Some? ==>
      && r.value.name == Text.Trim(card.linkText)
      && r.value.remoteId == ExtractRemoteId(card.href)
      && r.value.slug == ExtractSlug(card.href)
      && r.value.priceHuf == ParsePrice(Text.Trim(card.priceText)).priceHuf
      && (ParsePrice(Text.Trim(card.priceText)).currency.None? ==>
            r.value.currency == Listing.HufIfPriced(r.value.priceHuf))
      && r.value.statusText == Listing.FirstNonEmpty(card.statusTexts)
      && r.value.inStock == InStock(card.hasRestockButton, r.value.statusText)
      && r.value.category.None?
      && r.value.url == NormalizeUrl(card.href, resolve)
      && r.value.imageUrl == (if card.imageSrc.Some? && |card.imageSrc.value| > 0
                              then Some(NormalizeUrl(card.imageSrc, resolve)) else None)
      && r.value.rawPrice == ParsePrice(Text.Trim(card.priceText)).raw
      && (ParsePrice(Text.Trim(card.priceText)).currency.Some? ==>
            r.value.currency == ParsePrice(Text.Trim(card.priceText)).currency)
  {
    var name := Text.Trim(card.linkText);
    if |name| == 0 || card.href.None? || |card.href.value| == 0 then None
    else
      var price := ParsePrice(Text.Trim(card.priceText));
      var status := Listing.FirstNonEmpty(card.statusTexts);
      var absoluteUrl := NormalizeUrl(card.href, resolve);
      if |absoluteUrl| == 0 then None
      else
        var image := if card.imageSrc.Some? && |card.imageSrc.value| > 0
                     then Some(NormalizeUrl(card.imageSrc, resolve)) else None;
        var currency := if price.currency.Some? then price.currency else Listing.HufIfPriced(price.priceHuf);
        Some(ScrapedProduct(ExtractRemoteId(card.href), ExtractSlug(card.href), name, absoluteUrl, image,
                            None, price.priceHuf, currency, status, InStock(card.hasRestockButton, status),
                            price.raw))
  }

  /** The scraper's entry in the store list. */
  const Slug := "metagames"
  const DisplayName := "Metagames"
}

=== FILE: product_repo.dfy ===
/** The catalog's product repository (backend/repositories/productRepo.js):
    reconciling one scraped listing into the product table and the
    append-only snapshot history, and the product queries. */
module ProductRepo {
  import opened Wrappers
  import opened Types
  import opened Schema
  import Seqs
  import Text

  /** A stored row as the repository returns it (`mapDbProduct`). */
  function MapDbProduct(row: ProductRow): Product
  {
    Product(row.id, row.storeId, row.remoteId, row.slug, row.name, row.productUrl,
            row.imageUrl, row.category, row.currentPriceHuf, row.currentCurrency,
            row.status, IntToBool(row.inStock), row.lastSeenAt, row.lastChangeAt,
            row.createdAt, row.updatedAt)
  }

  /** The row a product is stored as. */
  function ProductToRow(p: Product): ProductRow
  {
    ProductRow(p.id, p.storeId, p.remoteId, p.slug, p.name, p.productUrl,
               p.imageUrl, p.category, p.currentPriceHuf, p.currentCurrency,
               p.status, BoolToInt(p.inStock), p.lastSeenAt, p.lastChangeAt,
               p.createdAt, p.updatedAt)
  }

  /** Mapping loses nothing: rows and products correspond one to one when
      the stock column holds 0 or 1. */
  lemma MapDbProductRoundTrip(p: Product, row: ProductRow)
    ensures MapDbProduct(ProductToRow(p)) == p
    ensures IsBit(row.inStock) ==> ProductToRow(MapDbProduct(row)) == row
  {
  }

  /** The scraped values after the repository's null normalisation. */
  datatype Normalized = Normalized(
    price: Option<nat>,
    currency: Option<string>,
    status: Option<string>,
    slug: Option<string>,
    remoteId: Option<string>,
    image: Option<string>,
    category: Option<string>,
    rawPrice: Option<string>)

  /** `scraped.currency ?? (price ? "HUF" : null)`: a truthy price is a
      nonzero one. */
  function Normalize(s: ScrapedProduct): (n: Normalized)
    ensures s.currency.Some? ==> n.currency == s.currency
    ensures s.currency.None? ==>
      (n.currency == Some("HUF") <==> s.priceHuf.Some? && s.priceHuf.value != 0)
    ensures n.currency.None? <==> s.currency.None? && (s.priceHuf.None? || s.priceHuf.value == 0)
    ensures n.price == s.priceHuf && n.status == s.statusText && n.rawPrice == s.rawPrice
    ensures n.slug == s.slug && n.remoteId == s.remoteId && n.image == s.imageUrl && n.category == s.category
  {
    var currency := match s.currency
      case Some(c) => Some(c)
      case None => if s.priceHuf.Some? && s.priceHuf.value != 0 then Some("HUF") else None;
    Normalized(s.priceHuf, currency, s.statusText, s.slug, s.remoteId, s.imageUrl, s.category, s.rawPrice)
  }

  /** `SELECT * FROM products WHERE store_id = ? AND product_url = ?`. */
  function FindByUrl(rows: seq<ProductRow>, storeId: Id, url: string): Option<nat>
  {
    Seqs.FindFirst(rows, (r: ProductRow) => r.storeId == storeId && r.productUrl == url)
  }

  /** `SELECT * FROM products WHERE id = ?`. */
  function FindById(rows: seq<ProductRow>, id: Id): Option<nat>
  {
    Seqs.FindFirst(rows, (r: ProductRow) => r.id == id)
  }

  datatype UpsertResult = UpsertResult(
    product: Product,
    priceChanged: bool,
    stockChanged: bool,
    previous: Option<Product>)

  datatype Upserted = Upserted(result: UpsertResult, tables: Tables)

  function SnapshotOf(id: Id, productId: Id, n: Normalized, inStock: bool, now: Time): SnapshotRow
  {
    SnapshotRow(id, productId, n.price, n.currency, BoolToInt(inStock), n.status, n.rawPrice, now)
  }

  /** The product row reread by id after the write; a miss is the
      integrity fault the repository throws. */
  function ReadBack(t: Tables, id: Id, message: string): Result<Product, string>
  {
    match FindById(t.products, id)
    case Some(k) => Ok(MapDbProduct(t.products[k]))
    case None => Err(message)
  }

  /** The row a listing not seen before is inserted as: `last_change_at`
      is not among the inserted columns, so it starts out null. */
  function NewRow(id: Id, storeId: Id, s: ScrapedProduct, now: Time): ProductRow
  {
    var n := Normalize(s);
    ProductRow(id, storeId, n.remoteId, n.slug, s.name, s.url, n.image, n.category,
               n.price, n.currency, n.status, BoolToInt(s.inStock), now, None, now, now)
  }

  function InsertTables(t: Tables, storeId: Id, s: ScrapedProduct, now: Time): Tables
  {
    var id := t.nextId;
    t.(products := t.products + [NewRow(id, storeId, s, now)],
       snapshots := t.snapshots + [SnapshotOf(id + 1, id, Normalize(s), s.inStock, now)],
       nextId := id + 2)
  }

  /** The stored row after an update: every scraped field is overwritten,
      `last_seen_at` and `updated_at` move to now, `last_change_at` only when
      something changed; id, store, url and creation time stay. */
  function UpdatedRow(stored: ProductRow, s: ScrapedProduct, changed: bool, now: Time): ProductRow
  {
    var n := Normalize(s);
    stored.(remoteId := n.remoteId, slug := n.slug, name := s.name,
         imageUrl := n.image, category := n.category,
         currentPriceHuf := n.price, currentCurrency := n.currency,
         status := n.status, inStock := BoolToInt(s.inStock),
         lastSeenAt := now, lastChangeAt := if changed then Some(now) else stored.lastChangeAt,
         updatedAt := now)
  }

  function UpdateTables(t: Tables, i: nat, s: ScrapedProduct, changed: bool, now: Time): Tables
    requires i < |t.products|
  {
    var row := UpdatedRow(t.products[i], s, changed, now);
    if changed
    then t.(products := t.products[i := row],
            snapshots := t.snapshots + [SnapshotOf(t.nextId, row.id, Normalize(s), s.inStock, now)],
            nextId := t.nextId + 1)
    else t.(products := t.products[i := row])
  }

  lemma ValidGrows(t: Tables, t': Tables)
    requires Valid(t)
    requires t'.stores == t.stores && t'.alerts == t.alerts && t'.users == t.users
    requires t'.nextId >= t.nextId
    ensures ValidStores(t') && ValidAlerts(t') && ValidUsers(t')
  {
    assert forall i :: 0 <= i < |t.alerts| ==> ValidAlertRow(t'.alerts[i], t'.nextId) by {
      forall i | 0 <= i < |t.alerts| ensures ValidAlertRow(t'.alerts[i], t'.nextId) {
        assert ValidAlertRow(t.alerts[i], t.nextId);
      }
    }
  }

  lemma InsertTablesValid(t: Tables, storeId: Id, s: ScrapedProduct, now: Time)
    requires Valid(t) && FindByUrl(t.products, storeId, s.url).None?
    ensures Valid(InsertTables(t, storeId, s, now))
    ensures FindById(InsertTables(t, storeId, s, now).products, t.nextId) == Some(|t.products|)
  {
    var t' := InsertTables(t, storeId, s, now);
    ValidGrows(t, t');
    assert ValidProducts(t');
    assert ValidSnapshots(t');
    Seqs.FindFirstAt(t'.products, (r: ProductRow) => r.id == t.nextId, |t.products|);
  }

  lemma UpdateTablesValid(t: Tables, i: nat, s: ScrapedProduct, changed: bool, now: Time)
    requires Valid(t) && i < |t.products|
    ensures Valid(UpdateTables(t, i, s, changed, now))
    ensures FindById(UpdateTables(t, i, s, changed, now).products, t.products[i].id) == Some(i)
  {
    var t' := UpdateTables(t, i, s, changed, now);
    ValidGrows(t, t');
    assert ValidProducts(t');
    assert ValidSnapshots(t');
    Seqs.FindFirstAt(t'.products, (r: ProductRow) => r.id == t.products[i].id, i);
  }

  /** `upsertProduct`: insert a listing not seen before for this store, or
      update the stored one, appending a snapshot when the price or the
      stock changed. A failed reread is the repository's integrity fault;
      it cannot happen on well-formed tables. */
  function Upsert(t: Tables, storeId: Id, s: ScrapedProduct, now: Time): (r: Result<Upserted, string>)
    ensures Valid(t) ==> r.Ok? && Valid(r.value.tables)
    ensures r.Ok? ==> r.value.tables.stores == t.stores && r.value.tables.alerts == t.alerts
                      && r.value.tables.users == t.users && r.value.tables.nextId >= t.nextId
  {
    var n := Normalize(s);
    match FindByUrl(t.products, storeId, s.url)
    case None =>
      var t' := InsertTables(t, storeId, s, now);
      assert Valid(t) ==> Valid(t') && FindById(t'.products, t.nextId).Some? by {
        if Valid(t) { InsertTablesValid(t, storeId, s, now); }
      }
      var back := ReadBack(t', t.nextId, "Failed to load product after insert");
      if back.Err? then Err(back.error)
      else Ok(Upserted(UpsertResult(back.value, true, true, None), t'))
    case Some(i) =>
      var existing := MapDbProduct(t.products[i]);
      var priceChanged := n.price != existing.currentPriceHuf;
      var stockChanged := s.inStock != existing.inStock;
      var t' := UpdateTables(t, i, s, priceChanged || stockChanged, now);
      assert Valid(t) ==> Valid(t') && FindById(t'.products, existing.id).Some? by {
        if Valid(t) { UpdateTablesValid(t, i, s, priceChanged || stockChanged, now); }
      }
      var back := ReadBack(t', existing.id, "Failed to load product after update");
      if back.Err? then Err(back.error)
      else Ok(Upserted(UpsertResult(back.value, priceChanged, stockChanged, Some(existing)), t'))
  }

  /** Whether a reconciliation counts as a change (and so appends a
      snapshot). */
  predicate Changed(r: UpsertResult)
  {
    r.priceChanged || r.stockChanged
  }

  /** A listing not seen before for this store is inserted: both flags set,
      no previous product, `lastChangeAt` left null, and exactly one
      snapshot appended carrying the normalised values. */
  lemma UpsertInserts(t: Tables, storeId: Id, s: ScrapedProduct, now: Time)
    requires Valid(t) && FindByUrl(t.products, storeId, s.url).None?
    ensures var u := Upsert(t, storeId, s, now).value;
      var n := Normalize(s);
      && u.result.priceChanged && u.result.stockChanged && u.result.previous.None?
      && u.result.product.lastChangeAt.None?
      && u.result.product.storeId == storeId && u.result.product.productUrl == s.url
      && u.result.product.currentPriceHuf == n.price && u.result.product.currentCurrency == n.currency
      && u.result.product.inStock == s.inStock
      && u.result.product.name == s.name && u.result.product.status == n.status
      && u.result.product.slug == n.slug && u.result.product.remoteId == n.remoteId
      && u.result.product.imageUrl == n.image && u.result.product.category == n.category
      && u.result.product.lastSeenAt == now && u.result.product.createdAt == now
      && u.result.product.updatedAt == now
      && (forall k :: 0 <= k < |t.products| ==> t.products[k].id != u.result.product.id)
      && u.tables.products == t.products + [ProductToRow(u.result.product)]
      && u.tables.snapshots == t.snapshots + [SnapshotRow(u.tables.snapshots[|t.snapshots|].id,
           u.result.product.id, n.price, n.currency, BoolToInt(s.inStock), n.status, n.rawPrice, now)]
  {
    InsertTablesValid(t, storeId, s, now);
  }

  /** An existing listing is updated: the flags compare the normalised price
      (null-aware) and the stock with the stored ones, `lastChangeAt` moves
      only on a change, a snapshot is appended exactly when a flag is set,
      identity fields are kept and `previous` is the stored product. */
  lemma UpsertUpdates(t: Tables, storeId: Id, s: ScrapedProduct, now: Time, i: nat)
    requires Valid(t) && FindByUrl(t.products, storeId, s.url) == Some(i)
    ensures var u := Upsert(t, storeId, s, now).value;
      var before := MapDbProduct(t.products[i]);
      var n := Normalize(s);
      var p := u.result.product;
      && u.result.previous == Some(before)
      && u.result.priceChanged == (n.price != before.currentPriceHuf)
      && u.result.stockChanged == (s.inStock != before.inStock)
      && (Changed(u.result) ==> p.lastChangeAt == Some(now))
      && (!Changed(u.result) ==> p.lastChangeAt == before.lastChangeAt)
      && p.id == before.id && p.storeId == before.storeId && p.productUrl == before.productUrl
      && p.createdAt == before.createdAt
      && p.currentPriceHuf == n.price && p.currentCurrency == n.currency && p.inStock == s.inStock
      && p.name == s.name && p.status == n.status && p.lastSeenAt == now && p.updatedAt == now
      && p.slug == n.slug && p.remoteId == n.remoteId && p.imageUrl == n.image && p.category == n.category
      && u.tables.products == t.products[i := ProductToRow(p)]
      && (!Changed(u.result) ==> u.tables.snapshots == t.snapshots)
      && (Changed(u.result) ==> u.tables.snapshots == t.snapshots + [SnapshotRow(t.nextId, p.id,
            n.price, n.currency, BoolToInt(s.inStock), n.status, n.rawPrice, now)])
  {
    assert DistinctIds(t.products);
    UpsertUpdatedForm(t, storeId, s, now, i);
  }

  /** The update path in closed form: the stored row rewritten, the flags,
      and the tables after the update. */
  lemma UpsertUpdatedForm(t: Tables, storeId: Id, s: ScrapedProduct, now: Time, i: nat)
    requires DistinctIds(t.products) && FindByUrl(t.products, storeId, s.url) == Some(i)
    ensures i < |t.products|
    ensures var before := MapDbProduct(t.products[i]);
      var changed := Normalize(s).price != before.currentPriceHuf || s.inStock != before.inStock;
      Upsert(t, storeId, s, now) == Ok(Upserted(
        UpsertResult(MapDbProduct(UpdatedRow(t.products[i], s, changed, now)),
                     Normalize(s).price != before.currentPriceHuf, s.inStock != before.inStock, Some(before)),
        UpdateTables(t, i, s, changed, now)))
  {
    var before := MapDbProduct(t.products[i]);
    var n := Normalize(s);
    UpdateTablesFinds(t, i, s, n.price != before.currentPriceHuf || s.inStock != before.inStock, now);
  }

  /** No two rows share an id. */
  predicate DistinctIds(rows: seq<ProductRow>)
  {
    forall i, j :: 0 <= i < j < |rows| ==> rows[i].id != rows[j].id
  }

  /** The updated row is still the one its id finds. */
  lemma UpdateTablesFinds(t: Tables, i: nat, s: ScrapedProduct, changed: bool, now: Time)
    requires DistinctIds(t.products) && i < |t.products|
    ensures FindById(UpdateTables(t, i, s, changed, now).products, t.products[i].id) == Some(i)
  {
    var t' := UpdateTables(t, i, s, changed, now);
    Seqs.FindFirstAt(t'.products, (r: ProductRow) => r.id == t.products[i].id, i);
  }

  /** Every reconciliation grows the history by one snapshot exactly when
      it reports a change. */
  lemma UpsertSnapshotGate(t: Tables, storeId: Id, s: ScrapedProduct, now: Time)
    requires Upsert(t, storeId, s, now).Ok?
    ensures var u := Upsert(t, storeId, s, now).value;
      && |u.tables.snapshots| == |t.snapshots| + (if Changed(u.result) then 1 else 0)
      && u.tables.snapshots[..|t.snapshots|] == t.snapshots
  {
  }

  /** After a reconciliation the listing is found at the row the result
      describes. */
  lemma UpsertLocates(t: Tables, storeId: Id, s: ScrapedProduct, now: Time)
    requires Valid(t)
    ensures var u := Upsert(t, storeId, s, now).value;
      exists k :: FindByUrl(u.tables.products, storeId, s.url) == Some(k)
        && k < |u.tables.products| && MapDbProduct(u.tables.products[k]) == u.result.product
  {
    assert DistinctIds(t.products);
    match FindByUrl(t.products, storeId, s.url)
    case None =>
      assert forall k :: 0 <= k < |t.products| ==> t.products[k].id < t.nextId;
      InsertLocates(t, storeId, s, now);
    case Some(i) =>
      UpdateLocates(t, storeId, s, now, i);
  }

  lemma InsertLocates(t: Tables, storeId: Id, s: ScrapedProduct, now: Time)
    requires FindByUrl(t.products, storeId, s.url).None?
    requires forall k :: 0 <= k < |t.products| ==> t.products[k].id < t.nextId
    ensures Upsert(t, storeId, s, now).Ok?
    ensures var u := Upsert(t, storeId, s, now).value;
      && FindByUrl(u.tables.products, storeId, s.url) == Some(|t.products|)
      && |t.products| < |u.tables.products| && MapDbProduct(u.tables.products[|t.products|]) == u.result.product
  {
    var t' := InsertTables(t, storeId, s, now);
    Seqs.FindFirstAt(t'.products, (r: ProductRow) => r.id == t.nextId, |t.products|);
    Seqs.FindFirstAt(t'.products, (r: ProductRow) => r.storeId == storeId && r.productUrl == s.url, |t.products|);
  }

  lemma UpdateLocates(t: Tables, storeId: Id, s: ScrapedProduct, now: Time, i: nat)
    requires DistinctIds(t.products) && FindByUrl(t.products, storeId, s.url) == Some(i)
    ensures Upsert(t, storeId, s, now).Ok?
    ensures var u := Upsert(t, storeId, s, now).value;
      && FindByUrl(u.tables.products, storeId, s.url) == Some(i)
      && i < |u.tables.products| && MapDbProduct(u.tables.products[i]) == u.result.product
  {
    UpsertUpdatedForm(t, storeId, s, now, i);
    var u := Upsert(t, storeId, s, now).value;
    Seqs.FindFirstAt(u.tables.products, (r: ProductRow) => r.storeId == storeId && r.productUrl == s.url, i);
  }

  /** Reconciling the identical listing twice in a row: the second call
      reports no change and appends no snapshot. */
  lemma UpsertTwiceIsQuiet(t: Tables, storeId: Id, s: ScrapedProduct, now1: Time, now2: Time)
    requires Valid(t)
    ensures var u1 := Upsert(t, storeId, s, now1).value;
      var u2 := Upsert(u1.tables, storeId, s, now2).value;
      && !u2.result.priceChanged && !u2.result.stockChanged
      && u2.result.previous == Some(u1.result.product)
      && u2.tables.snapshots == u1.tables.snapshots
      && u2.result.product.id == u1.result.product.id
      && u2.result.product.currentPriceHuf == u1.result.product.currentPriceHuf
      && u2.result.product.inStock == u1.result.product.inStock
  {
    var u1 := Upsert(t, storeId, s, now1).value;
    var n := Normalize(s);
    UpsertLocates(t, storeId, s, now1);
    var k :| FindByUrl(u1.tables.products, storeId, s.url) == Some(k)
      && k < |u1.tables.products| && MapDbProduct(u1.tables.products[k]) == u1.result.product;
    assert u1.result.product.currentPriceHuf == n.price && u1.result.product.inStock == s.inStock by {
      match FindByUrl(t.products, storeId, s.url)
      case None => UpsertInserts(t, storeId, s, now1);
      case Some(i) => UpsertUpdates(t, storeId, s, now1, i);
    }
    UpsertUpdates(u1.tables, storeId, s, now2, k);
  }

  /** A reconciliation reads and writes only the catalog: tables that agree
      on products, snapshots and the id counter reconcile alike, and the
      other tables pass through. */
  lemma UpsertIgnoresOtherTables(t: Tables, t2: Tables, storeId: Id, s: ScrapedProduct, now: Time)
    requires t2.products == t.products && t2.snapshots == t.snapshots && t2.nextId == t.nextId
    requires Upsert(t, storeId, s, now).Ok?
    ensures var u := Upsert(t, storeId, s, now).value;
      Upsert(t2, storeId, s, now) == Ok(Upserted(u.result, u.tables.(stores := t2.stores, alerts := t2.alerts, users := t2.users)))
  {
    if FindByUrl(t.products, storeId, s.url).None? {
      InsertIgnoresOtherTables(t, t2, storeId, s, now);
    } else {
      UpdateIgnoresOtherTables(t, t2, storeId, s, now);
    }
  }

  lemma InsertIgnoresOtherTables(t: Tables, t2: Tables, storeId: Id, s: ScrapedProduct, now: Time)
    requires t2.products == t.products && t2.snapshots == t.snapshots && t2.nextId == t.nextId
    requires Upsert(t, storeId, s, now).Ok? && FindByUrl(t.products, storeId, s.url).None?
    ensures var u := Upsert(t, storeId, s, now).value;
      Upsert(t2, storeId, s, now) == Ok(Upserted(u.result, u.tables.(stores := t2.stores, alerts := t2.alerts, users := t2.users)))
  {
  }

  lemma UpdateIgnoresOtherTables(t: Tables, t2: Tables, storeId: Id, s: ScrapedProduct, now: Time)
    requires t2.products == t.products && t2.snapshots == t.snapshots && t2.nextId == t.nextId
    requires Upsert(t, storeId, s, now).Ok? && FindByUrl(t.products, storeId, s.url).Some?
    ensures var u := Upsert(t, storeId, s, now).value;
      Upsert(t2, storeId, s, now) == Ok(Upserted(u.result, u.tables.(stores := t2.stores, alerts := t2.alerts, users := t2.users)))
  {
  }

  /** Reconciles a batch of listings one after another, passing over a
      listing whose reconciliation fails as the ingestion loop does. On
      well-formed tables none fails. */
  function UpsertAll(t: Tables, storeId: Id, items: seq<ScrapedProduct>, now: Time): (r: (Tables, seq<UpsertResult>))
    ensures |r.1| <= |items|
    ensures Valid(t) ==> Valid(r.0) && |r.1| == |items|
    decreases |items|
  {
    if |items| == 0 then (t, [])
    else
      match Upsert(t, storeId, items[0], now)
      case Err(_) => UpsertAll(t, storeId, items[1..], now)
      case Ok(u) =>
        var rest := UpsertAll(u.tables, storeId, items[1..], now);
        (rest.0, [u.result] + rest.1)
  }

  /** Change-gated history: over any batch, the snapshot table grows by
      exactly the number of reconciliations that reported a change, and
      earlier snapshots are never touched. */
  lemma {:induction false} UpsertAllHistory(t: Tables, storeId: Id, items: seq<ScrapedProduct>, now: Time)
    ensures var r := UpsertAll(t, storeId, items, now);
      && |r.0.snapshots| == |t.snapshots| + Seqs.Count(r.1, Changed)
      && r.0.snapshots[..|t.snapshots|] == t.snapshots
    decreases |items|
  {
    if |items| > 0 {
      if Upsert(t, storeId, items[0], now).Ok? {
        var u := Upsert(t, storeId, items[0], now).value;
        UpsertSnapshotGate(t, storeId, items[0], now);
        UpsertAllHistory(u.tables, storeId, items[1..], now);
        var rest := UpsertAll(u.tables, storeId, items[1..], now);
        assert ([u.result] + rest.1)[1..] == rest.1;
      } else {
        UpsertAllHistory(t, storeId, items[1..], now);
      }
    }
  }

  /** A batch reconciliation reads only the catalog: two states that agree
      on products, snapshots and the id counter reconcile a batch with the
      same results and the same resulting catalog. */
  lemma {:induction false} UpsertAllIgnoresOtherTables(t: Tables, t2: Tables, storeId: Id, items: seq<ScrapedProduct>, now: Time)
    requires t2.products == t.products && t2.snapshots == t.snapshots && t2.nextId == t.nextId
    ensures var (a, ra) := UpsertAll(t, storeId, items, now);
      var (b, rb) := UpsertAll(t2, storeId, items, now);
      rb == ra && b.products == a.products && b.snapshots == a.snapshots && b.nextId == a.nextId
    decreases |items|
  {
    if |items| > 0 {
      if Upsert(t, storeId, items[0], now).Ok? {
        var u := Upsert(t, storeId, items[0], now).value;
        UpsertIgnoresOtherTables(t, t2, storeId, items[0], now);
        var u2 := Upsert(t2, storeId, items[0], now).value;
        UpsertAllIgnoresOtherTables(u.tables, u2.tables, storeId, items[1..], now);
      } else {
        if Upsert(t2, storeId, items[0], now).Ok? {
          UpsertIgnoresOtherTables(t2, t, storeId, items[0], now);
        }
        UpsertAllIgnoresOtherTables(t, t2, storeId, items[1..], now);
      }
    }
  }

  /** The filters the product listing accepts; an absent `limit` is 100 and
      an absent `offset` is 0. */
  datatype ProductFilters = ProductFilters(
    storeId: Option<Id>,
    search: Option<string>,
    inStock: Option<bool>,
    limit: Option<nat>,
    offset: Option<nat>)

  /** The WHERE clause: the present filters joined by AND. An empty search
      string is falsy and adds no clause. The search term is lowercased as
      JavaScript does and compared with SQLite's ASCII-only `LOWER(name)`. */
  predicate MatchesFilters(f: ProductFilters, row: ProductRow)
  {
    && (f.storeId.Some? ==> row.storeId == f.storeId.value)
    && (f.search.Some? && |f.search.value| > 0 ==>
          Text.Contains(Text.AsciiLower(row.name), Text.Lower(f.search.value)))
    && (f.inStock.Some? ==> row.inStock == BoolToInt(f.inStock.value))
  }

  /** `ORDER BY in_stock DESC, updated_at DESC`. */
  predicate ListedBefore(a: ProductRow, b: ProductRow)
  {
    a.inStock > b.inStock || (a.inStock == b.inStock && a.updatedAt >= b.updatedAt)
  }

  lemma ListedBeforeIsTotalPreorder()
    ensures Seqs.TotalPreorder(ListedBefore)
  {
  }

  function MapRows(rows: seq<ProductRow>): (r: seq<Product>)
    ensures |r| == |rows|
    ensures forall i :: 0 <= i < |rows| ==> r[i] == MapDbProduct(rows[i])
  {
    seq(|rows|, i requires 0 <= i < |rows| => MapDbProduct(rows[i]))
  }

  /** The rows meeting the filters, in table order. */
  function Matches(t: Tables, f: ProductFilters): seq<ProductRow>
  {
    Seqs.Filter(t.products, MatchTest(f))
  }

  function MatchTest(f: ProductFilters): ProductRow -> bool
  {
    (r: ProductRow) => MatchesFilters(f, r)
  }

  /** The filters with the page settings cleared: what decides which rows
      match and in which order they are listed. */
  function Criteria(f: ProductFilters): ProductFilters
  {
    f.(limit := None, offset := None)
  }

  /** The page settings do not take part in matching. */
  lemma MatchesIgnoresPaging(t: Tables, f: ProductFilters)
    ensures Matches(t, Criteria(f)) == Matches(t, f)
  {
    Seqs.FilterSameTest(t.products, MatchTest(Criteria(f)), MatchTest(f));
  }

  /** The matching rows in listing order, before the LIMIT/OFFSET window. */
  function OrderedMatches(t: Tables, f: ProductFilters): (o: seq<ProductRow>)
    ensures multiset(o) == multiset(Matches(t, f))
  {
    MatchesIgnoresPaging(t, f);
    Seqs.SortBy(Matches(t, Criteria(f)), ListedBefore)
  }

  /** `listProducts`: the page of the ordered matches that starts at
      `offset` (0 when omitted) and holds up to `limit` (100 when omitted)
      products. */
  function ListProducts(t: Tables, f: ProductFilters): (r: seq<Product>)
    ensures |r| <= f.limit.GetOr(100)
    ensures var n, lim, off := |Matches(t, Criteria(f))|, f.limit.GetOr(100), f.offset.GetOr(0);
      |r| == (if off >= n then 0 else if n - off < lim then n - off else lim)
    ensures forall i :: 0 <= i < |r| ==>
      f.offset.GetOr(0) + i < |OrderedMatches(t, Criteria(f))|
      && r[i] == MapDbProduct(OrderedMatches(t, Criteria(f))[f.offset.GetOr(0) + i])
  {
    MapRows(Seqs.Window(OrderedMatches(t, Criteria(f)), f.limit.GetOr(100), f.offset.GetOr(0)))
  }

  /** The listing order is fixed by the filters alone: the page settings
      do not change which rows match or how they are ordered. */
  lemma OrderedMatchesIgnoresPaging(t: Tables, f: ProductFilters, limit: Option<nat>, offset: Option<nat>)
    ensures OrderedMatches(t, f.(limit := limit, offset := offset)) == OrderedMatches(t, f)
  {
    assert Criteria(f.(limit := limit, offset := offset)) == Criteria(f);
  }

  /** An omitted limit lists like a limit of 100, and an omitted offset like
      an offset of 0. */
  lemma ListProductsDefaults(t: Tables, f: ProductFilters)
    ensures ListProducts(t, f.(limit := None, offset := None))
         == ListProducts(t, f.(limit := Some(100), offset := Some(0)))
  {
    OrderedMatchesIgnoresPaging(t, f, None, None);
    OrderedMatchesIgnoresPaging(t, f, Some(100), Some(0));
  }

  lemma MapRowsAppend(a: seq<ProductRow>, b: seq<ProductRow>)
    ensures MapRows(a) + MapRows(b) == MapRows(a + b)
  {
  }

  /** Paging walks the ordered matches without gaps or overlaps: the page of
      `a` at `offset` followed by the page of `b` after it is the page of
      `a + b` at `offset`. */
  lemma ListProductsPagesTile(t: Tables, f: ProductFilters, a: nat, b: nat, offset: nat)
    ensures ListProducts(t, f.(limit := Some(a), offset := Some(offset)))
          + ListProducts(t, f.(limit := Some(b), offset := Some(offset + a)))
         == ListProducts(t, f.(limit := Some(a + b), offset := Some(offset)))
  {
    assert Criteria(f.(limit := Some(a), offset := Some(offset))) == Criteria(f);
    assert Criteria(f.(limit := Some(b), offset := Some(offset + a))) == Criteria(f);
    assert Criteria(f.(limit := Some(a + b), offset := Some(offset))) == Criteria(f);
    MapRowsTile(OrderedMatches(t, Criteria(f)), a, b, offset);
  }

  lemma MapRowsTile(o: seq<ProductRow>, a: nat, b: nat, offset: nat)
    ensures MapRows(Seqs.Window(o, a, offset)) + MapRows(Seqs.Window(o, b, offset + a))
         == MapRows(Seqs.Window(o, a + b, offset))
  {
    Seqs.WindowTile(o, a, b, offset);
    MapRowsAppend(Seqs.Window(o, a, offset), Seqs.Window(o, b, offset + a));
  }

  /** The ordered matches are matching rows of the table, in listing order. */
  lemma OrderedMatchesFacts(t: Tables, f: ProductFilters)
    ensures var o := OrderedMatches(t, f);
      && multiset(o) == multiset(Matches(t, f))
      && (forall i :: 0 <= i < |o| ==> MatchesFilters(f, o[i]) && o[i] in t.products)
      && Seqs.SortedBy(o, ListedBefore)
  {
    var matches := Matches(t, f);
    var o := OrderedMatches(t, f);
    Seqs.SortBySorted(Matches(t, Criteria(f)), ListedBefore);
    Seqs.FilterMembers(t.products, MatchTest(f));
    forall i | 0 <= i < |o|
      ensures MatchesFilters(f, o[i]) && o[i] in t.products
    {
      assert o[i] in multiset(matches);
      var m :| 0 <= m < |matches| && matches[m] == o[i];
      assert MatchTest(f)(matches[m]);
    }
  }

  /** Every listed product satisfies every filter that was given and comes
      from the table, and there are at most `limit` (default 100) of them. */
  lemma ListProductsFiltered(t: Tables, f: ProductFilters)
    ensures var r := ListProducts(t, f);
      && |r| <= f.limit.GetOr(100)
      && forall i :: 0 <= i < |r| ==>
            && (f.storeId.Some? ==> r[i].storeId == f.storeId.value)
            && (f.inStock.Some? ==> r[i].inStock == IntToBool(BoolToInt(f.inStock.value)))
            && (f.search.Some? && |f.search.value| > 0 ==>
                  Text.Contains(Text.AsciiLower(r[i].name), Text.Lower(f.search.value)))
            && r[i] in MapRows(t.products)
  {
    OrderedMatchesFacts(t, Criteria(f));
    var o := OrderedMatches(t, Criteria(f));
    var w := Seqs.Window(o, f.limit.GetOr(100), f.offset.GetOr(0));
    forall i | 0 <= i < |w|
      ensures MapDbProduct(w[i]) in MapRows(t.products)
    {
      assert w[i] in t.products;
      var k :| 0 <= k < |t.products| && t.products[k] == w[i];
      assert MapRows(t.products)[k] == MapDbProduct(w[i]);
    }
  }

  /** The listing is in-stock first, then most recently updated first. */
  lemma ListProductsOrdered(t: Tables, f: ProductFilters)
    requires Valid(t)
    ensures var r := ListProducts(t, f);
      forall i, j :: 0 <= i < j < |r| ==>
        (r[i].inStock && !r[j].inStock)
        || (r[i].inStock == r[j].inStock && r[i].updatedAt >= r[j].updatedAt)
  {
    ListedStockBits(t, f);
  }

  lemma ListedStockBits(t: Tables, f: ProductFilters)
    requires forall k :: 0 <= k < |t.products| ==> IsBit(t.products[k].inStock)
    ensures var r := ListProducts(t, f);
      forall i, j :: 0 <= i < j < |r| ==>
        (r[i].inStock && !r[j].inStock)
        || (r[i].inStock == r[j].inStock && r[i].updatedAt >= r[j].updatedAt)
  {
    OrderedMatchesFacts(t, Criteria(f));
    var o := OrderedMatches(t, Criteria(f));
    var w := Seqs.Window(o, f.limit.GetOr(100), f.offset.GetOr(0));
    var r := ListProducts(t, f);
    forall i, j | 0 <= i < j < |r|
      ensures (r[i].inStock && !r[j].inStock)
              || (r[i].inStock == r[j].inStock && r[i].updatedAt >= r[j].updatedAt)
    {
      var off := f.offset.GetOr(0);
      assert ListedBefore(o[off + i], o[off + j]);
      assert o[off + i] in t.products && o[off + j] in t.products;
      assert IsBit(o[off + i].inStock) && IsBit(o[off + j].inStock);
    }
  }

  /** Nothing matching is lost: with room for every match, the listing holds
      each matching product. */
  lemma ListProductsComplete(t: Tables, f: ProductFilters, k: nat)
    requires k < |t.products| && MatchesFilters(f, t.products[k])
    requires f.offset.GetOr(0) == 0 && |t.products| <= f.limit.GetOr(100)
    ensures MapDbProduct(t.products[k]) in ListProducts(t, f)
  {
    var matches := Matches(t, Criteria(f));
    var ordered := OrderedMatches(t, Criteria(f));
    Seqs.FilterMembers(t.products, MatchTest(Criteria(f)));
    assert t.products[k] in matches;
    assert t.products[k] in multiset(ordered);
    var m :| 0 <= m < |ordered| && ordered[m] == t.products[k];
    var w := Seqs.Window(ordered, f.limit.GetOr(100), 0);
    assert w[m] == ordered[m];
  }

  /** `getProduct`: the product with this id, if any. */
  function GetProduct(t: Tables, id: Id): (r: Option<Product>)
    ensures r.Some? ==> r.value.id == id && exists k :: 0 <= k < |t.products| && r.value == MapDbProduct(t.products[k])
    ensures r.None? <==> forall k :: 0 <= k < |t.products| ==> t.products[k].id != id
  {
    match FindById(t.products, id)
    case Some(k) => Some(MapDbProduct(t.products[k]))
    case None => None
  }

  /** The alert columns the bulk sweep selects next to each product. */
  datatype AlertView = AlertView(
    id: Id,
    email: string,
    targetPriceHuf: Option<nat>,
    notifyOnInStock: bool,
    notifyOnRestock: bool,
    lastNotifiedInStock: Option<bool>,
    lastNotifiedPriceHuf: Option<nat>)

  datatype AlertJoin = AlertJoin(product: Product, alert: AlertView)

  function ViewOf(a: AlertRow): AlertView
  {
    AlertView(a.id, a.email, a.targetPriceHuf, IntToBool(a.notifyOnInStock), IntToBool(a.notifyOnRestock),
              match a.lastNotifiedInStock case None => None case Some(b) => Some(IntToBool(b)),
              a.lastNotifiedPriceHuf)
  }

  /** The join condition: the alert belongs to the product and `active = 1`. */
  predicate Joins(p: ProductRow, a: AlertRow)
  {
    a.productId == p.id && a.active == 1
  }

  /** Pair `a` comes strictly before pair `b` in (product, alert) order. */
  predicate PairBefore(a: (int, int), b: (int, int))
  {
    a.0 < b.0 || (a.0 == b.0 && a.1 < b.1)
  }

  predicate PairsIncreasing(r: seq<(int, int)>)
  {
    forall i, j :: 0 <= i < j < |r| ==> PairBefore(r[i], r[j])
  }

  lemma PairsIncreasingCons(x: (int, int), rest: seq<(int, int)>)
    requires PairsIncreasing(rest)
    requires forall i :: 0 <= i < |rest| ==> PairBefore(x, rest[i])
    ensures PairsIncreasing([x] + rest)
  {
    var r := [x] + rest;
    forall i, j | 0 <= i < j < |r| ensures PairBefore(r[i], r[j]) {
      assert r[j] == rest[j - 1];
      if i > 0 {
        assert r[i] == rest[i - 1];
      }
    }
  }

  /** Index pairs (product, alert) of the join, product by product, alerts
      in table order. */
  function JoinIndices(products: seq<ProductRow>, alerts: seq<AlertRow>, p: nat, k: nat): (r: seq<(int, int)>)
    requires p <= |products| && k <= |alerts|
    ensures forall i :: 0 <= i < |r| ==>
      p <= r[i].0 < |products| && 0 <= r[i].1 < |alerts| && Joins(products[r[i].0], alerts[r[i].1])
    ensures forall i :: 0 <= i < |r| ==> p < r[i].0 || k <= r[i].1
    ensures PairsIncreasing(r)
    decreases |products| - p, |alerts| - k
  {
    if p == |products| then []
    else if k == |alerts| then JoinIndices(products, alerts, p + 1, 0)
    else
      var rest := JoinIndices(products, alerts, p, k + 1);
      if Joins(products[p], alerts[k]) then
        assert forall i :: 0 <= i < |rest| ==> PairBefore((p, k), rest[i]);
        PairsIncreasingCons((p, k), rest);
        [(p, k)] + rest
      else rest
  }

  /** Every joining pair at or after the starting pair is produced. */
  lemma JoinIndicesComplete(products: seq<ProductRow>, alerts: seq<AlertRow>, p: nat, k: nat)
    requires p <= |products| && k <= |alerts|
    ensures forall q, m ::
              (p < q < |products| || (q == p < |products| && k <= m)) && 0 <= m < |alerts| && Joins(products[q], alerts[m])
              ==> (q, m) in JoinIndices(products, alerts, p, k)
  {
    forall q, m | (p < q < |products| || (q == p < |products| && k <= m)) && 0 <= m < |alerts| && Joins(products[q], alerts[m])
      ensures (q, m) in JoinIndices(products, alerts, p, k)
    {
      JoinIndicesHas(products, alerts, p, k, q, m);
    }
  }

  /** One joining pair at or after the starting pair is produced. */
  lemma {:induction false} JoinIndicesHas(products: seq<ProductRow>, alerts: seq<AlertRow>, p: nat, k: nat, q: nat, m: nat)
    requires p <= |products| && k <= |alerts|
    requires (p < q < |products| || (q == p < |products| && k <= m)) && m < |alerts| && Joins(products[q], alerts[m])
    ensures (q, m) in JoinIndices(products, alerts, p, k)
    decreases |products| - p, |alerts| - k
  {
    if k == |alerts| {
      JoinIndicesHas(products, alerts, p + 1, 0, q, m);
      JoinIndicesNextProduct(products, alerts, p, (q, m));
    } else if q == p && m == k {
      JoinIndicesHead(products, alerts, p, k);
    } else {
      JoinIndicesHas(products, alerts, p, k + 1, q, m);
      JoinIndicesNextAlert(products, alerts, p, k, (q, m));
    }
  }

  lemma JoinIndicesNextProduct(products: seq<ProductRow>, alerts: seq<AlertRow>, p: nat, x: (int, int))
    requires p < |products| && x in JoinIndices(products, alerts, p + 1, 0)
    ensures x in JoinIndices(products, alerts, p, |alerts|)
  {
  }

  lemma JoinIndicesHead(products: seq<ProductRow>, alerts: seq<AlertRow>, p: nat, k: nat)
    requires p < |products| && k < |alerts| && Joins(products[p], alerts[k])
    ensures (p, k) in JoinIndices(products, alerts, p, k)
  {
    assert JoinIndices(products, alerts, p, k)[0] == (p, k);
  }

  lemma JoinIndicesNextAlert(products: seq<ProductRow>, alerts: seq<AlertRow>, p: nat, k: nat, x: (int, int))
    requires p < |products| && k < |alerts| && x in JoinIndices(products, alerts, p, k + 1)
    ensures x in JoinIndices(products, alerts, p, k)
  {
    var rest := JoinIndices(products, alerts, p, k + 1);
    var i :| 0 <= i < |rest| && rest[i] == x;
    if Joins(products[p], alerts[k]) {
      assert JoinIndices(products, alerts, p, k)[i + 1] == x;
    }
  }

  /** With distinct product ids an alert joins at most one product, so each
      alert index occurs at most once in the join. */
  lemma JoinIndicesAlertOnce(products: seq<ProductRow>, alerts: seq<AlertRow>)
    requires forall i, j :: 0 <= i < j < |products| ==> products[i].id != products[j].id
    ensures var r := JoinIndices(products, alerts, 0, 0);
      forall i, j :: 0 <= i < j < |r| ==> r[i].1 != r[j].1
  {
    var r := JoinIndices(products, alerts, 0, 0);
    forall i, j | 0 <= i < j < |r| ensures r[i].1 != r[j].1 {
      assert PairBefore(r[i], r[j]);
      if r[i].0 < r[j].0 {
        assert alerts[r[i].1].productId == products[r[i].0].id;
        assert alerts[r[j].1].productId == products[r[j].0].id;
        assert products[r[i].0].id != products[r[j].0].id;
      }
    }
  }

  /** The key the bulk sweep notifies by: the joined alert's id. */
  function JoinKey(j: AlertJoin): Id
  {
    j.alert.id
  }

  /** On well-formed tables each active alert appears in the sweep once:
      alert ids are unique and an alert belongs to one product. */
  lemma ListProductsNeedingAlertsDistinct(t: Tables)
    requires Valid(t)
    ensures var r := ListProductsNeedingAlerts(t);
      forall i, j :: 0 <= i < j < |r| ==> r[i].alert.id != r[j].alert.id
  {
    var idx := JoinIndices(t.products, t.alerts, 0, 0);
    JoinIndicesAlertOnce(t.products, t.alerts);
    var r := ListProductsNeedingAlerts(t);
    assert r == JoinRows(t, idx);
    forall i, j | 0 <= i < j < |r| ensures r[i].alert.id != r[j].alert.id {
      assert r[i].alert.id == t.alerts[idx[i].1].id && r[j].alert.id == t.alerts[idx[j].1].id;
      assert idx[i].1 != idx[j].1;
      if idx[i].1 < idx[j].1 {
        assert t.alerts[idx[i].1].id != t.alerts[idx[j].1].id;
      } else {
        assert t.alerts[idx[j].1].id != t.alerts[idx[i].1].id;
      }
    }
  }

  /** `j` is the joined row of some product and one of its active alerts. */
  predicate FromJoin(t: Tables, j: AlertJoin)
  {
    exists p, k :: 0 <= p < |t.products| && 0 <= k < |t.alerts| && Joins(t.products[p], t.alerts[k])
                   && j == AlertJoin(MapDbProduct(t.products[p]), ViewOf(t.alerts[k]))
  }

  /** `listProductsNeedingAlerts`: every (product, active alert of that
      product) pair, each exactly as the join selects it. */
  function ListProductsNeedingAlerts(t: Tables): (r: seq<AlertJoin>)
    ensures forall i :: 0 <= i < |r| ==> FromJoin(t, r[i])
    ensures forall p, k :: 0 <= p < |t.products| && 0 <= k < |t.alerts| && Joins(t.products[p], t.alerts[k]) ==>
      AlertJoin(MapDbProduct(t.products[p]), ViewOf(t.alerts[k])) in r
  {
    var idx := JoinIndices(t.products, t.alerts, 0, 0);
    var r := JoinRows(t, idx);
    JoinIndicesComplete(t.products, t.alerts, 0, 0);
    JoinRowsSound(t, idx, r);
    JoinRowsComplete(t, idx, r);
    r
  }

  /** The joined rows at the index pairs. */
  function JoinRows(t: Tables, idx: seq<(int, int)>): (r: seq<AlertJoin>)
    requires forall i :: 0 <= i < |idx| ==> 0 <= idx[i].0 < |t.products| && 0 <= idx[i].1 < |t.alerts|
    ensures |r| == |idx|
    ensures forall i :: 0 <= i < |idx| ==> r[i] == AlertJoin(MapDbProduct(t.products[idx[i].0]), ViewOf(t.alerts[idx[i].1]))
  {
    seq(|idx|, i requires 0 <= i < |idx| => AlertJoin(MapDbProduct(t.products[idx[i].0]), ViewOf(t.alerts[idx[i].1])))
  }

  /** Every joined row comes from a product and one of its active alerts. */
  lemma JoinRowsSound(t: Tables, idx: seq<(int, int)>, r: seq<AlertJoin>)
    requires forall i :: 0 <= i < |idx| ==>
      0 <= idx[i].0 < |t.products| && 0 <= idx[i].1 < |t.alerts| && Joins(t.products[idx[i].0], t.alerts[idx[i].1])
    requires r == JoinRows(t, idx)
    ensures forall i :: 0 <= i < |r| ==> FromJoin(t, r[i])
  {
    forall i | 0 <= i < |r|
      ensures FromJoin(t, r[i])
    {
      var p, k := idx[i].0, idx[i].1;
      assert r[i] == AlertJoin(MapDbProduct(t.products[p]), ViewOf(t.alerts[k]));
    }
  }

  /** Every joining pair among the indices gives a joined row. */
  lemma JoinRowsComplete(t: Tables, idx: seq<(int, int)>, r: seq<AlertJoin>)
    requires forall i :: 0 <= i < |idx| ==> 0 <= idx[i].0 < |t.products| && 0 <= idx[i].1 < |t.alerts|
    requires forall p, k :: 0 <= p < |t.products| && 0 <= k < |t.alerts| && Joins(t.products[p], t.alerts[k])
               ==> (p, k) in idx
    requires r == JoinRows(t, idx)
    ensures forall p, k :: 0 <= p < |t.products| && 0 <= k < |t.alerts| && Joins(t.products[p], t.alerts[k]) ==>
        AlertJoin(MapDbProduct(t.products[p]), ViewOf(t.alerts[k])) in r
  {
    forall p, k | 0 <= p < |t.products| && 0 <= k < |t.alerts| && Joins(t.products[p], t.alerts[k])
      ensures AlertJoin(MapDbProduct(t.products[p]), ViewOf(t.alerts[k])) in r
    {
      var i :| 0 <= i < |idx| && idx[i] == (p, k);
      assert r[i] == AlertJoin(MapDbProduct(t.products[p]), ViewOf(t.alerts[k]));
    }
  }
}

=== FILE: schema.dfy ===
/** The stored rows of the five tables, in insertion (rowid) order, and the
    well-formedness the table keys guarantee: primary keys are unique and
    below the id counter, `(store_id, product_url)` and store `slug` are
    unique, and boolean columns hold 0 or 1. */
module Schema {
  import opened Wrappers
  import opened Types

  /** A SQLite INTEGER standing for a boolean, as JavaScript's `b ? 1 : 0`. */
  function BoolToInt(b: bool): int
  {
    if b then 1 else 0
  }

  /** JavaScript's `Boolean(n)` on an INTEGER column. */
  function IntToBool(n: int): bool
  {
    n != 0
  }

  predicate IsBit(n: int)
  {
    n == 0 || n == 1
  }

  lemma BoolRoundTrip(b: bool, n: int)
    ensures IntToBool(BoolToInt(b)) == b
    ensures IsBit(n) ==> BoolToInt(IntToBool(n)) == n
  {
  }

  datatype ProductRow = ProductRow(
    id: Id,
    storeId: Id,
    remoteId: Option<string>,
    slug: Option<string>,
    name: string,
    productUrl: string,
    imageUrl: Option<string>,
    category: Option<string>,
    currentPriceHuf: Option<nat>,
    currentCurrency: Option<string>,
    status: Option<string>,
    inStock: int,
    lastSeenAt: Time,
    lastChangeAt: Option<Time>,
    createdAt: Time,
    updatedAt: Time)

  datatype SnapshotRow = SnapshotRow(
    id: Id,
    productId: Id,
    priceHuf: Option<nat>,
    currency: Option<string>,
    inStock: int,
    status: Option<string>,
    rawPrice: Option<string>,
    collectedAt: Time)

  datatype AlertRow = AlertRow(
    id: Id,
    productId: Id,
    email: string,
    targetPriceHuf: Option<nat>,
    notifyOnInStock: int,
    notifyOnRestock: int,
    active: int,
    lastNotifiedAt: Option<Time>,
    lastNotifiedPriceHuf: Option<nat>,
    lastNotifiedInStock: Option<int>,
    createdAt: Time,
    updatedAt: Time)

  datatype UserRow = UserRow(
    id: Id,
    email: string,
    passwordHash: string,
    isAdmin: int,
    createdAt: Time,
    updatedAt: Time)

  /** The in-memory database. `nextId` stands for the id generator: every
      id it hands out is fresh. */
  datatype Tables = Tables(
    stores: seq<Store>,
    products: seq<ProductRow>,
    snapshots: seq<SnapshotRow>,
    alerts: seq<AlertRow>,
    users: seq<UserRow>,
    nextId: nat)

  const EmptyTables := Tables([], [], [], [], [], 0)

  predicate ValidStores(t: Tables)
  {
    && (forall i :: 0 <= i < |t.stores| ==> t.stores[i].id < t.nextId)
    && (forall i, j :: 0 <= i < j < |t.stores| ==> t.stores[i].id != t.stores[j].id)
    && (forall i, j :: 0 <= i < j < |t.stores| ==> t.stores[i].slug != t.stores[j].slug)
  }

  predicate ValidProducts(t: Tables)
  {
    && (forall i :: 0 <= i < |t.products| ==> t.products[i].id < t.nextId && IsBit(t.products[i].inStock))
    && (forall i, j :: 0 <= i < j < |t.products| ==> t.products[i].id != t.products[j].id)
    && (forall i, j :: 0 <= i < j < |t.products| ==>
          !(t.products[i].storeId == t.products[j].storeId && t.products[i].productUrl == t.products[j].productUrl))
  }

  predicate ValidSnapshots(t: Tables)
  {
    && (forall i :: 0 <= i < |t.snapshots| ==> t.snapshots[i].id < t.nextId && IsBit(t.snapshots[i].inStock))
    && (forall i, j :: 0 <= i < j < |t.snapshots| ==> t.snapshots[i].id != t.snapshots[j].id)
  }

  predicate ValidAlertRow(a: AlertRow, nextId: nat)
  {
    && a.id < nextId
    && IsBit(a.notifyOnInStock) && IsBit(a.notifyOnRestock) && IsBit(a.active)
    && (a.lastNotifiedInStock.Some? ==> IsBit(a.lastNotifiedInStock.value))
  }

  predicate ValidAlerts(t: Tables)
  {
    && (forall i :: 0 <= i < |t.alerts| ==> ValidAlertRow(t.alerts[i], t.nextId))
    && (forall i, j :: 0 <= i < j < |t.alerts| ==> t.alerts[i].id != t.alerts[j].id)
  }

  predicate ValidUsers(t: Tables)
  {
    && (forall i :: 0 <= i < |t.users| ==> t.users[i].id < t.nextId && IsBit(t.users[i].isAdmin))
    && (forall i, j :: 0 <= i < j < |t.users| ==> t.users[i].id != t.users[j].id)
    && (forall i, j :: 0 <= i < j < |t.users| ==> t.users[i].email != t.users[j].email)
  }

  predicate Valid(t: Tables)
  {
    ValidStores(t) && ValidProducts(t) && ValidSnapshots(t) && ValidAlerts(t) && ValidUsers(t)
  }

  lemma EmptyTablesValid()
    ensures Valid(EmptyTables)
  {
  }
}

=== FILE: scraper_service.dfy ===
/** The ingestion loop (backend/services/scraperService.js): for each
    target store, ensure its record, fetch its inventory, reconcile every
    listing and evaluate its alerts, and flush the database once the store
    is done. A failure on one listing does not stop the others, and a
    failed store does not stop the next one. Fetching a store's inventory
    (`scraper.scrapeAll()`) is the oracle `scrapeAll`, indexed by slug; an
    `Err` stands for the fetch throwing. Mail delivery is the oracle
    `send`; the clock is the single instant `now`. */
module ScraperService {
  import opened Wrappers
  import opened Types
  import opened Schema
  import Seqs
  import ProductRepo
  import AlertService
  import StoreRepo
  import StoreIndex

  /** The counters `processStore` returns. */
  datatype Summary = Summary(total: nat, created: nat, priceChanges: nat, stockChanges: nat)

  /** The state of the item loop: the tables, the three counters, the
      positions of the items whose processing threw, and the products
      handed to the alert engine, in order. */
  datatype Progress = Progress(
    tables: Tables,
    created: nat,
    priceChanges: nat,
    stockChanges: nat,
    failed: seq<nat>,
    evaluated: seq<Id>)

  predicate IsNew(r: ProductRepo.UpsertResult)
  {
    r.previous.None?
  }

  predicate PriceChanged(r: ProductRepo.UpsertResult)
  {
    r.priceChanged
  }

  predicate StockChanged(r: ProductRepo.UpsertResult)
  {
    r.stockChanged
  }

  function Bump(n: nat, b: bool): nat
  {
    if b then n + 1 else n
  }

  /** The products of a sequence of reconciliations, by id. */
  function ProductIds(rs: seq<ProductRepo.UpsertResult>): (r: seq<Id>)
    ensures |r| == |rs| && forall i :: 0 <= i < |rs| ==> r[i] == rs[i].product.id
  {
    seq(|rs|, i requires 0 <= i < |rs| => rs[i].product.id)
  }

  /** One pass of the loop body for the item at position `index`: the
      listing is reconciled; if that throws, the item is noted as failed
      and nothing else happens. Otherwise the counters are bumped first and
      the product's alerts evaluated after, so an item whose delivery fails
      is still counted, and the alerts recorded before the failure stay
      recorded. */
  function Step(p: Progress, storeId: Id, item: ScrapedProduct, index: nat,
                send: (PriceAlert, Product) -> bool, now: Time): (q: Progress)
    ensures q.created <= p.created + 1 && q.priceChanges <= p.priceChanges + 1 && q.stockChanges <= p.stockChanges + 1
    ensures q.created >= p.created && q.priceChanges >= p.priceChanges && q.stockChanges >= p.stockChanges
    ensures q.failed == p.failed || q.failed == p.failed + [index]
    ensures p.evaluated <= q.evaluated && |q.evaluated| <= |p.evaluated| + 1
    ensures q.created - p.created <= |q.evaluated| - |p.evaluated|
    ensures q.priceChanges - p.priceChanges <= |q.evaluated| - |p.evaluated|
    ensures q.stockChanges - p.stockChanges <= |q.evaluated| - |p.evaluated|
    ensures |q.evaluated| == |p.evaluated| + 1 || q.failed == p.failed + [index]
  {
    match ProductRepo.Upsert(p.tables, storeId, item, now)
    case Err(_) => p.(failed := p.failed + [index])
    case Ok(u) =>
      var r := u.result;
      var e := AlertService.EvaluateForProduct(u.tables, AlertService.InputOf(r), send, now);
      Progress(e.tables, Bump(p.created, IsNew(r)), Bump(p.priceChanges, r.priceChanged),
               Bump(p.stockChanges, r.stockChanged),
               if e.failed then p.failed + [index] else p.failed,
               p.evaluated + [r.product.id])
  }

  /** The loop over `items`, the first of which sits at position `index`.
      Every item is visited: each is either handed to the alert engine or
      noted as failed (or both), the failures are noted in order, and each
      counter grows by at most the number of items evaluated. */
  function ProcessFrom(p: Progress, storeId: Id, items: seq<ScrapedProduct>, index: nat,
                       send: (PriceAlert, Product) -> bool, now: Time): (q: Progress)
    ensures p.failed <= q.failed
    ensures p.evaluated <= q.evaluated
    ensures |q.evaluated| - |p.evaluated| <= |items|
    ensures (|q.evaluated| - |p.evaluated|) + (|q.failed| - |p.failed|) >= |items|
    ensures p.created <= q.created && q.created - p.created <= |q.evaluated| - |p.evaluated|
    ensures p.priceChanges <= q.priceChanges && q.priceChanges - p.priceChanges <= |q.evaluated| - |p.evaluated|
    ensures p.stockChanges <= q.stockChanges && q.stockChanges - p.stockChanges <= |q.evaluated| - |p.evaluated|
    decreases |items|
  {
    if |items| == 0 then p
    else
      var p1 := Step(p, storeId, items[0], index, send, now);
      var q := ProcessFrom(p1, storeId, items[1..], index + 1, send, now);
      assert |p1.failed| > |p.failed| ==> q.failed[|p.failed|] == index;
      q
  }

  function Start(t: Tables): Progress
  {
    Progress(t, 0, 0, 0, [], [])
  }

  /** The item loop of `processStore` over a store's whole inventory: the
      counters never exceed the number of items, and every item is either
      evaluated or failed. */
  function ProcessItems(t: Tables, storeId: Id, items: seq<ScrapedProduct>,
                        send: (PriceAlert, Product) -> bool, now: Time): (q: Progress)
    ensures q.created <= |q.evaluated| <= |items|
    ensures q.priceChanges <= |q.evaluated| && q.stockChanges <= |q.evaluated|
    ensures |q.evaluated| + |q.failed| >= |items|
  {
    ProcessFrom(Start(t), storeId, items, 0, send, now)
  }

  /** The loop itself, item by item, with the counters kept in place. */
  method ProcessItemsLoop(t: Tables, storeId: Id, items: seq<ScrapedProduct>,
                          send: (PriceAlert, Product) -> bool, now: Time) returns (q: Progress)
    ensures q == ProcessItems(t, storeId, items, send, now)
  {
    q := Start(t);
    var i := 0;
    while i < |items|
      invariant 0 <= i <= |items|
      invariant ProcessFrom(q, storeId, items[i..], i, send, now) == ProcessItems(t, storeId, items, send, now)
    {
      assert items[i..][1..] == items[i + 1..];
      q := Step(q, storeId, items[i], i, send, now);
      i := i + 1;
    }
  }

  /** One step whose reconciliation succeeds leaves the catalog as that
      reconciliation left it, bumps each counter by its flag and appends
      the product to the evaluated ones; one whose reconciliation fails
      leaves the catalog, the counters and the evaluated products alone. */
  lemma StepMatchesUpsert(p: Progress, storeId: Id, item: ScrapedProduct, index: nat,
                          send: (PriceAlert, Product) -> bool, now: Time)
    ensures var u := ProductRepo.Upsert(p.tables, storeId, item, now);
      var p1 := Step(p, storeId, item, index, send, now);
      && (u.Ok? ==>
            && p1.tables.products == u.value.tables.products && p1.tables.snapshots == u.value.tables.snapshots
            && p1.tables.nextId == u.value.tables.nextId
            && p1.created == p.created + (if IsNew(u.value.result) then 1 else 0)
            && p1.priceChanges == p.priceChanges + (if PriceChanged(u.value.result) then 1 else 0)
            && p1.stockChanges == p.stockChanges + (if StockChanged(u.value.result) then 1 else 0)
            && p1.evaluated == p.evaluated + [u.value.result.product.id])
      && (u.Err? ==> p1 == p.(failed := p.failed + [index]))
  {
  }

  /** The evaluated products after the first result, followed by the
      rest's products, are all the results' products. */
  lemma EvaluatedShift(before: seq<Id>, after: seq<Id>, r: ProductRepo.UpsertResult, rs: seq<ProductRepo.UpsertResult>)
    requires after == before + [r.product.id]
    ensures after + ProductIds(rs) == before + ProductIds([r] + rs)
  {
    assert ProductIds([r] + rs) == [r.product.id] + ProductIds(rs);
  }

  /** The first step of the loop and the first reconciliation of the batch
      agree: the step followed by the batch of the remaining items leaves
      the catalog, the counters and the evaluated products where the batch
      of the whole inventory puts them. */
  predicate StepAgrees(p: Progress, storeId: Id, items: seq<ScrapedProduct>, index: nat,
                       send: (PriceAlert, Product) -> bool, now: Time)
    requires |items| > 0
  {
    var p1 := Step(p, storeId, items[0], index, send, now);
    var (b, rs) := ProductRepo.UpsertAll(p.tables, storeId, items, now);
    var (b1, rs1) := ProductRepo.UpsertAll(p1.tables, storeId, items[1..], now);
    && b1.products == b.products && b1.snapshots == b.snapshots && b1.nextId == b.nextId
    && p1.created + Seqs.Count(rs1, IsNew) == p.created + Seqs.Count(rs, IsNew)
    && p1.priceChanges + Seqs.Count(rs1, PriceChanged) == p.priceChanges + Seqs.Count(rs, PriceChanged)
    && p1.stockChanges + Seqs.Count(rs1, StockChanged) == p.stockChanges + Seqs.Count(rs, StockChanged)
    && p1.evaluated + ProductIds(rs1) == p.evaluated + ProductIds(rs)
  }

  /** A first item whose reconciliation fails is passed over by both. */
  lemma StepThenBatchFailed(p: Progress, storeId: Id, items: seq<ScrapedProduct>, index: nat,
                            send: (PriceAlert, Product) -> bool, now: Time)
    requires |items| > 0 && ProductRepo.Upsert(p.tables, storeId, items[0], now).Err?
    ensures StepAgrees(p, storeId, items, index, send, now)
  {
    StepMatchesUpsert(p, storeId, items[0], index, send, now);
  }

  /** After a step whose reconciliation succeeds, the batch of the
      remaining items sees the catalog that reconciliation left, so it
      gives what the whole batch gives behind the first result. */
  lemma ReconciledThenBatch(p: Progress, storeId: Id, items: seq<ScrapedProduct>, index: nat,
                            send: (PriceAlert, Product) -> bool, now: Time)
    requires |items| > 0 && ProductRepo.Upsert(p.tables, storeId, items[0], now).Ok?
    ensures var u := ProductRepo.Upsert(p.tables, storeId, items[0], now).value;
      var p1 := Step(p, storeId, items[0], index, send, now);
      var (b, rs) := ProductRepo.UpsertAll(p.tables, storeId, items, now);
      var (b1, rs1) := ProductRepo.UpsertAll(p1.tables, storeId, items[1..], now);
      && b1.products == b.products && b1.snapshots == b.snapshots && b1.nextId == b.nextId
      && rs == [u.result] + rs1
  {
    var p1 := Step(p, storeId, items[0], index, send, now);
    var u := ProductRepo.Upsert(p.tables, storeId, items[0], now).value;
    StepMatchesUpsert(p, storeId, items[0], index, send, now);
    ProductRepo.UpsertAllIgnoresOtherTables(u.tables, p1.tables, storeId, items[1..], now);
  }

  /** A counter bumped by the first result's flag, plus the count over the
      rest, is the count over all results. */
  lemma CounterShift(before: nat, after: nat, r: ProductRepo.UpsertResult, rs: seq<ProductRepo.UpsertResult>,
                     flag: ProductRepo.UpsertResult -> bool)
    requires after == before + (if flag(r) then 1 else 0)
    ensures after + Seqs.Count(rs, flag) == before + Seqs.Count([r] + rs, flag)
  {
    Seqs.CountCons(r, rs, flag);
  }

  /** A first item whose reconciliation succeeds is counted and evaluated
      by the step and heads the batch's results. */
  lemma StepThenBatchReconciled(p: Progress, storeId: Id, items: seq<ScrapedProduct>, index: nat,
                                send: (PriceAlert, Product) -> bool, now: Time)
    requires |items| > 0 && ProductRepo.Upsert(p.tables, storeId, items[0], now).Ok?
    ensures StepAgrees(p, storeId, items, index, send, now)
  {
    var u := ProductRepo.Upsert(p.tables, storeId, items[0], now).value;
    var p1 := Step(p, storeId, items[0], index, send, now);
    var rs1 := ProductRepo.UpsertAll(p1.tables, storeId, items[1..], now).1;
    StepMatchesUpsert(p, storeId, items[0], index, send, now);
    ReconciledThenBatch(p, storeId, items, index, send, now);
    CounterShift(p.created, p1.created, u.result, rs1, IsNew);
    CounterShift(p.priceChanges, p1.priceChanges, u.result, rs1, PriceChanged);
    CounterShift(p.stockChanges, p1.stockChanges, u.result, rs1, StockChanged);
    EvaluatedShift(p.evaluated, p1.evaluated, u.result, rs1);
  }

  /** The loop's effect on the catalog is the batch reconciliation of the
      inventory, whatever the mail deliveries do: the same products and
      snapshots, the counters count the batch's new products, price
      changes and stock changes, and every reconciled product is handed to
      the alert engine in inventory order. */
  lemma {:induction false} ProcessFromMatchesBatch(p: Progress, storeId: Id, items: seq<ScrapedProduct>, index: nat,
                                                   send: (PriceAlert, Product) -> bool, now: Time)
    ensures var q := ProcessFrom(p, storeId, items, index, send, now);
      var (b, rs) := ProductRepo.UpsertAll(p.tables, storeId, items, now);
      && q.tables.products == b.products && q.tables.snapshots == b.snapshots && q.tables.nextId == b.nextId
      && q.created == p.created + Seqs.Count(rs, IsNew)
      && q.priceChanges == p.priceChanges + Seqs.Count(rs, PriceChanged)
      && q.stockChanges == p.stockChanges + Seqs.Count(rs, StockChanged)
      && q.evaluated == p.evaluated + ProductIds(rs)
    decreases |items|
  {
    if |items| > 0 {
      var p1 := Step(p, storeId, items[0], index, send, now);
      if ProductRepo.Upsert(p.tables, storeId, items[0], now).Ok? {
        StepThenBatchReconciled(p, storeId, items, index, send, now);
      } else {
        StepThenBatchFailed(p, storeId, items, index, send, now);
      }
      ProcessFromMatchesBatch(p1, storeId, items[1..], index + 1, send, now);
    }
  }

  /** The counters and the catalog do not depend on whether mail
      deliveries succeed. */
  lemma CountsIgnoreDelivery(t: Tables, storeId: Id, items: seq<ScrapedProduct>,
                             send1: (PriceAlert, Product) -> bool, send2: (PriceAlert, Product) -> bool, now: Time)
    ensures var q1 := ProcessItems(t, storeId, items, send1, now);
      var q2 := ProcessItems(t, storeId, items, send2, now);
      && q1.created == q2.created && q1.priceChanges == q2.priceChanges && q1.stockChanges == q2.stockChanges
      && q1.evaluated == q2.evaluated
      && q1.tables.products == q2.tables.products && q1.tables.snapshots == q2.tables.snapshots
  {
    ProcessFromMatchesBatch(Start(t), storeId, items, 0, send1, now);
    ProcessFromMatchesBatch(Start(t), storeId, items, 0, send2, now);
  }

  /** On well-formed tables every item reaches the alert engine: a failed
      delivery for one product does not keep the later ones from being
      reconciled and evaluated. */
  lemma EveryItemEvaluated(t: Tables, storeId: Id, items: seq<ScrapedProduct>,
                           send: (PriceAlert, Product) -> bool, now: Time)
    requires Valid(t)
    ensures |ProcessItems(t, storeId, items, send, now).evaluated| == |items|
  {
    ProcessFromMatchesBatch(Start(t), storeId, items, 0, send, now);
  }

  /** What processing one store leaves: the tables, and the summary or the
      error that ended it. */
  datatype StoreRun = StoreRun(tables: Tables, summary: Result<Summary, string>)

  /** `processStore`: the store record is ensured first (and stays written
      even when the fetch then fails); a failed fetch ends the store with
      its error and no flush; otherwise every item is processed, the
      database is flushed, and the counters are returned with the total. */
  function ProcessStore(t: Tables, scraper: StoreIndex.StoreScraper, inventory: Result<seq<ScrapedProduct>, string>,
                        send: (PriceAlert, Product) -> bool, now: Time): (r: StoreRun)
    ensures var ensured := StoreRepo.EnsureStore(t, scraper.slug, scraper.displayName, scraper.baseUrl, now);
      inventory.Err? ==> r == StoreRun(ensured.1, Err(inventory.error))
    ensures inventory.Ok? ==>
      && r.summary.Ok? && r.summary.value.total == |inventory.value|
      && r.summary.value.created <= r.summary.value.total
      && r.summary.value.priceChanges <= r.summary.value.total
      && r.summary.value.stockChanges <= r.summary.value.total
  {
    var (store, t1) := StoreRepo.EnsureStore(t, scraper.slug, scraper.displayName, scraper.baseUrl, now);
    match inventory
    case Err(message) => StoreRun(t1, Err(message))
    case Ok(items) =>
      var q := ProcessItems(t1, store.id, items, send, now);
      StoreRun(q.tables, Ok(Summary(|items|, q.created, q.priceChanges, q.stockChanges)))
  }

  /** On well-formed tables a fetched store's summary counts exactly the
      new products, price changes and stock changes of reconciling its
      inventory against the catalog, under the store's id. */
  lemma ProcessStoreCounts(t: Tables, scraper: StoreIndex.StoreScraper, items: seq<ScrapedProduct>,
                           send: (PriceAlert, Product) -> bool, now: Time)
    requires Valid(t)
    ensures var (store, t1) := StoreRepo.EnsureStore(t, scraper.slug, scraper.displayName, scraper.baseUrl, now);
      var (b, rs) := ProductRepo.UpsertAll(t1, store.id, items, now);
      var r := ProcessStore(t, scraper, Ok(items), send, now);
      && r.summary == Ok(Summary(|items|, Seqs.Count(rs, IsNew), Seqs.Count(rs, PriceChanged), Seqs.Count(rs, StockChanged)))
      && r.tables.products == b.products && r.tables.snapshots == b.snapshots
  {
    var (store, t1) := StoreRepo.EnsureStore(t, scraper.slug, scraper.displayName, scraper.baseUrl, now);
    ProcessFromMatchesBatch(Start(t1), store.id, items, 0, send, now);
  }

  /** The stores a run covers: every registered store when no slug (or an
      empty one) is given; otherwise the one store with that slug, and an
      unknown slug is an error before anything is processed. */
  function Targets(slug: Option<string>): (r: Result<seq<StoreIndex.StoreScraper>, string>)
    ensures slug.None? || slug.value == "" ==> r == Ok(StoreIndex.StoreScrapers)
    ensures slug.Some? && slug.value != "" ==>
      && (r.Err? <==> forall i :: 0 <= i < |StoreIndex.StoreScrapers| ==> StoreIndex.StoreScrapers[i].slug != slug.value)
      && (r.Err? ==> r.error == "Unknown store slug: " + slug.value)
      && (r.Ok? ==> |r.value| == 1 && r.value[0].slug == slug.value && r.value[0] in StoreIndex.StoreScrapers)
  {
    if slug.None? || slug.value == "" then Ok(StoreIndex.StoreScrapers)
    else
      match StoreIndex.GetStoreScraper(slug.value)
      case None => Err("Unknown store slug: " + slug.value)
      case Some(scraper) => Ok([scraper])
  }

  /** What a run leaves: the tables, each target's outcome in order, and
      the slugs of the stores whose database flush ran, in order. */
  datatype Run = Run(tables: Tables, outcomes: seq<Result<Summary, string>>, flushed: seq<string>)

  function Slugs(scrapers: seq<StoreIndex.StoreScraper>): (r: seq<string>)
    ensures |r| == |scrapers| && forall i :: 0 <= i < |scrapers| ==> r[i] == scrapers[i].slug
  {
    seq(|scrapers|, i requires 0 <= i < |scrapers| => scrapers[i].slug)
  }

  /** Whether a store's fetch succeeds. */
  function Fetches(scrapeAll: string -> Result<seq<ScrapedProduct>, string>): string -> bool
  {
    (slug: string) => scrapeAll(slug).Ok?
  }

  /** The loop of `runStoreScrape` over its targets: every target is
      processed in order, whatever happened to the ones before it. */
  function RunTargets(t: Tables, targets: seq<StoreIndex.StoreScraper>,
                      scrapeAll: string -> Result<seq<ScrapedProduct>, string>,
                      send: (PriceAlert, Product) -> bool, now: Time): (r: Run)
    ensures |r.outcomes| == |targets|
    decreases |targets|
  {
    if |targets| == 0 then Run(t, [], [])
    else
      var s := ProcessStore(t, targets[0], scrapeAll(targets[0].slug), send, now);
      var rest := RunTargets(s.tables, targets[1..], scrapeAll, send, now);
      Run(rest.tables, [s.summary] + rest.outcomes,
          (if s.summary.Ok? then [targets[0].slug] else []) + rest.flushed)
  }

  /** A target's outcome fails exactly when its own fetch fails, and a
      successful one totals its inventory. */
  lemma {:induction false} RunTargetsOutcomes(t: Tables, targets: seq<StoreIndex.StoreScraper>,
                                              scrapeAll: string -> Result<seq<ScrapedProduct>, string>,
                                              send: (PriceAlert, Product) -> bool, now: Time)
    ensures var r := RunTargets(t, targets, scrapeAll, send, now);
      && (forall i :: 0 <= i < |targets| ==> (r.outcomes[i].Ok? <==> scrapeAll(targets[i].slug).Ok?))
      && (forall i :: 0 <= i < |targets| && r.outcomes[i].Ok? ==>
            r.outcomes[i].value.total == |scrapeAll(targets[i].slug).value|)
    decreases |targets|
  {
    if |targets| > 0 {
      var s := ProcessStore(t, targets[0], scrapeAll(targets[0].slug), send, now);
      RunTargetsOutcomes(s.tables, targets[1..], scrapeAll, send, now);
    }
  }

  /** The flushes are those of the targets whose fetch succeeded, in
      order. */
  lemma {:induction false} RunTargetsFlushes(t: Tables, targets: seq<StoreIndex.StoreScraper>,
                                             scrapeAll: string -> Result<seq<ScrapedProduct>, string>,
                                             send: (PriceAlert, Product) -> bool, now: Time)
    ensures RunTargets(t, targets, scrapeAll, send, now).flushed == Seqs.Filter(Slugs(targets), Fetches(scrapeAll))
    decreases |targets|
  {
    if |targets| > 0 {
      var s := ProcessStore(t, targets[0], scrapeAll(targets[0].slug), send, now);
      RunTargetsFlushes(s.tables, targets[1..], scrapeAll, send, now);
      assert Slugs(targets)[1..] == Slugs(targets[1..]);
      assert Fetches(scrapeAll)(targets[0].slug) == scrapeAll(targets[0].slug).Ok?;
    }
  }

  /** `runStoreScrape`: the targets are chosen first, so an unknown slug
      throws before any store is touched; otherwise the targets are run. */
  function RunStoreScrape(t: Tables, slug: Option<string>,
                          scrapeAll: string -> Result<seq<ScrapedProduct>, string>,
                          send: (PriceAlert, Product) -> bool, now: Time): (r: Result<Run, string>)
    ensures r.Err? <==> Targets(slug).Err?
    ensures r.Err? ==> r.error == Targets(slug).error
    ensures r.Ok? ==> |r.value.outcomes| == |Targets(slug).value|
  {
    match Targets(slug)
    case Err(message) => Err(message)
    case Ok(targets) => Ok(RunTargets(t, targets, scrapeAll, send, now))
  }

  /** A run over all stores visits Metagames, Varázslatos Játékok and
      TCGBolt in that order, each with its own outcome. */
  lemma RunAllCoversEveryStore(t: Tables, scrapeAll: string -> Result<seq<ScrapedProduct>, string>,
                               send: (PriceAlert, Product) -> bool, now: Time)
    ensures var r := RunStoreScrape(t, None, scrapeAll, send, now);
      && r.Ok? && |r.value.outcomes| == 3
      && (forall i :: 0 <= i < 3 ==>
            (r.value.outcomes[i].Ok? <==> scrapeAll(StoreIndex.StoreScrapers[i].slug).Ok?))
  {
    RunTargetsOutcomes(t, StoreIndex.StoreScrapers, scrapeAll, send, now);
  }

  /** `primeScraper`: a run over all stores, which never fails. */
  function PrimeScraper(t: Tables, scrapeAll: string -> Result<seq<ScrapedProduct>, string>,
                        send: (PriceAlert, Product) -> bool, now: Time): (r: Run)
    ensures RunStoreScrape(t, None, scrapeAll, send, now) == Ok(r)
  {
    match RunStoreScrape(t, None, scrapeAll, send, now)
    case Ok(run) => run
    case Err(_) => assert false; Run(t, [], [])
  }
}

=== FILE: seqs.dfy ===
/** Sequence helpers: first match (`Array.prototype.find`, a SQL lookup that
    takes the first row), filtering, counting and an insertion sort standing
    in for SQL `ORDER BY`. */
module Seqs {
  import opened Wrappers

  /** Index of the first element satisfying `p`, if any. */
  function FindFirst<T>(s: seq<T>, p: T -> bool): (r: Option<nat>)
    ensures r.Some? ==> r.value < |s| && p(s[r.value])
    ensures r.Some? ==> forall j :: 0 <= j < r.value ==> !p(s[j])
    ensures r.None? <==> forall j :: 0 <= j < |s| ==> !p(s[j])
  {
    if |s| == 0 then None
    else if p(s[0]) then Some(0)
    else match FindFirst(s[1..], p)
      case None => None
      case Some(i) => Some(i + 1)
  }

  lemma FindFirstAt<T>(s: seq<T>, p: T -> bool, k: nat)
    requires k < |s| && p(s[k])
    requires forall j :: 0 <= j < k ==> !p(s[j])
    ensures FindFirst(s, p) == Some(k)
  {
  }

  /** Two sequences that match position by position have their first
      match at the same place. */
  lemma FindFirstSameMatches<T, U>(s: seq<T>, p: T -> bool, s2: seq<U>, p2: U -> bool)
    requires |s2| == |s| && forall i :: 0 <= i < |s| ==> p2(s2[i]) == p(s[i])
    ensures FindFirst(s2, p2) == FindFirst(s, p)
  {
    var r, r2 := FindFirst(s, p), FindFirst(s2, p2);
    if r.Some? && r2.Some? {
      assert !(r.value < r2.value) && !(r2.value < r.value);
    }
  }

  /** The elements satisfying `p`, in their original order. */
  function Filter<T>(s: seq<T>, p: T -> bool): (r: seq<T>)
    ensures |r| <= |s|
    ensures forall i :: 0 <= i < |r| ==> p(r[i])
  {
    if |s| == 0 then []
    else if p(s[0]) then [s[0]] + Filter(s[1..], p)
    else Filter(s[1..], p)
  }

  /** The filtered elements are exactly the elements of `s` satisfying
      `p`. */
  lemma {:induction false} FilterMembers<T>(s: seq<T>, p: T -> bool)
    ensures forall i :: 0 <= i < |Filter(s, p)| ==> Filter(s, p)[i] in s
    ensures forall i :: 0 <= i < |s| && p(s[i]) ==> s[i] in Filter(s, p)
  {
    if |s| > 0 {
      FilterMembers(s[1..], p);
      var r := Filter(s, p);
      var rest := Filter(s[1..], p);
      forall i | 0 <= i < |r| ensures r[i] in s {
        if !p(s[0]) || i > 0 {
          var i' := if p(s[0]) then i - 1 else i;
          assert r[i] == rest[i'];
          var j :| 0 <= j < |s[1..]| && s[1..][j] == rest[i'];
          assert s[j + 1] == r[i];
        }
      }
      forall i | 0 <= i < |s| && p(s[i]) ensures s[i] in r {
        if i > 0 {
          assert s[i] == s[1..][i - 1];
        }
      }
    }
  }

  /** Filtering by two tests that agree on every element gives the same
      result. */
  lemma {:induction false} FilterSameTest<T>(s: seq<T>, p: T -> bool, q: T -> bool)
    requires forall i :: 0 <= i < |s| ==> p(s[i]) == q(s[i])
    ensures Filter(s, p) == Filter(s, q)
  {
    if |s| > 0 {
      FilterSameTest(s[1..], p, q);
    }
  }

  lemma FilterNone<T>(s: seq<T>, p: T -> bool)
    requires forall i :: 0 <= i < |s| ==> !p(s[i])
    ensures Filter(s, p) == []
  {
  }

  /** No two elements share a key. */
  predicate DistinctBy<T, K(==)>(s: seq<T>, key: T -> K)
  {
    forall i, j :: 0 <= i < j < |s| ==> key(s[i]) != key(s[j])
  }

  /** Filtering keeps elements with distinct keys distinct. */
  lemma {:induction false} FilterDistinct<T, K>(s: seq<T>, p: T -> bool, key: T -> K)
    requires DistinctBy(s, key)
    ensures DistinctBy(Filter(s, p), key)
  {
    if |s| > 0 {
      FilterDistinct(s[1..], p, key);
      FilterMembers(s[1..], p);
      var rest := Filter(s[1..], p);
      forall i | 0 <= i < |rest| ensures key(rest[i]) != key(s[0]) {
        assert rest[i] in s[1..];
        var m :| 0 <= m < |s[1..]| && s[1..][m] == rest[i];
        assert s[m + 1] == rest[i];
      }
      if p(s[0]) {
        var r := Filter(s, p);
        assert r == [s[0]] + rest;
        forall i, j | 0 <= i < j < |r| ensures key(r[i]) != key(r[j]) {
          if i > 0 {
            assert r[i] == rest[i - 1] && r[j] == rest[j - 1];
            assert key(rest[i - 1]) != key(rest[j - 1]);
          } else {
            assert r[j] == rest[j - 1];
            assert key(rest[j - 1]) != key(s[0]);
          }
        }
      }
    }
  }

  /** Dropping elements none of which match leaves the first match in
      place: the first match in the filtered sequence is the first match
      in the whole. */
  lemma {:induction false} FindFirstFiltered<T>(s: seq<T>, keep: T -> bool, p: T -> bool)
    requires forall i :: 0 <= i < |s| && p(s[i]) ==> keep(s[i])
    ensures var r, r2 := FindFirst(s, p), FindFirst(Filter(s, keep), p);
      && (r2.Some? <==> r.Some?)
      && (r.Some? ==> Filter(s, keep)[r2.value] == s[r.value])
  {
    if |s| > 0 {
      FindFirstFiltered(s[1..], keep, p);
      var f, rest := Filter(s, keep), Filter(s[1..], keep);
      if keep(s[0]) {
        assert f == [s[0]] + rest;
        assert f[1..] == rest;
        if !p(s[0]) {
          var r1, r2 := FindFirst(s[1..], p), FindFirst(rest, p);
          assert FindFirst(f, p) == match r2 case None => None case Some(i) => Some(i + 1);
          if r1.Some? {
            assert f[r2.value + 1] == rest[r2.value] == s[1..][r1.value] == s[r1.value + 1];
          }
        }
      } else {
        assert f == rest;
        assert !p(s[0]);
      }
    }
  }

  lemma FilterAppend<T>(a: seq<T>, b: seq<T>, p: T -> bool)
    ensures Filter(a + b, p) == Filter(a, p) + Filter(b, p)
  {
    if |a| == 0 {
      assert a + b == b;
    } else {
      assert (a + b)[1..] == a[1..] + b;
      FilterAppend(a[1..], b, p);
    }
  }

  /** Number of elements satisfying `p`. */
  function Count<T>(s: seq<T>, p: T -> bool): (n: nat)
    ensures n <= |s|
  {
    if |s| == 0 then 0 else (if p(s[0]) then 1 else 0) + Count(s[1..], p)
  }

  lemma CountCons<T>(x: T, s: seq<T>, p: T -> bool)
    ensures Count([x] + s, p) == (if p(x) then 1 else 0) + Count(s, p)
  {
    assert ([x] + s)[1..] == s;
  }

  lemma CountIsFilterLength<T>(s: seq<T>, p: T -> bool)
    ensures Count(s, p) == |Filter(s, p)|
  {
  }

  lemma CountAppend<T>(a: seq<T>, b: seq<T>, p: T -> bool)
    ensures Count(a + b, p) == Count(a, p) + Count(b, p)
  {
    if |a| == 0 {
      assert a + b == b;
    } else {
      assert (a + b)[1..] == a[1..] + b;
      CountAppend(a[1..], b, p);
    }
  }

  /** `before` is a total preorder: the comparison an `ORDER BY` induces. */
  ghost predicate TotalPreorder<T(!new)>(before: (T, T) -> bool)
  {
    && (forall a, b :: before(a, b) || before(b, a))
    && (forall a, b, c :: before(a, b) && before(b, c) ==> before(a, c))
  }

  ghost predicate SortedBy<T>(s: seq<T>, before: (T, T) -> bool)
  {
    forall i, j :: 0 <= i < j < |s| ==> before(s[i], s[j])
  }

  /** Inserts `x` in front of the first element it may precede. */
  function InsertBy<T>(x: T, s: seq<T>, before: (T, T) -> bool): (r: seq<T>)
    ensures multiset(r) == multiset(s) + multiset{x}
    ensures |r| == |s| + 1
  {
    if |s| == 0 || before(x, s[0]) then [x] + s
    else
      assert s == [s[0]] + s[1..];
      [s[0]] + InsertBy(x, s[1..], before)
  }

  lemma InsertBySorted<T(!new)>(x: T, s: seq<T>, before: (T, T) -> bool)
    requires TotalPreorder(before)
    requires SortedBy(s, before)
    ensures SortedBy(InsertBy(x, s, before), before)
  {
    if |s| == 0 || before(x, s[0]) {
    } else {
      InsertBySorted(x, s[1..], before);
      var t := InsertBy(x, s[1..], before);
      assert before(s[0], x);
      forall k | 0 <= k < |t|
        ensures before(s[0], t[k])
      {
        assert t[k] in multiset(t);
        assert t[k] == x || t[k] in multiset(s[1..]);
        if t[k] != x {
          assert t[k] in s[1..];
        }
      }
    }
  }

  /** Insertion sort by a total preorder. Elements the order does not
      separate come out in some order the sort fixes; SQL leaves that order
      open, so nothing here relies on it. */
  function SortBy<T>(s: seq<T>, before: (T, T) -> bool): (r: seq<T>)
    ensures multiset(r) == multiset(s)
    ensures |r| == |s|
  {
    if |s| == 0 then []
    else
      assert s == [s[0]] + s[1..];
      InsertBy(s[0], SortBy(s[1..], before), before)
  }

  lemma {:induction false} SortBySorted<T(!new)>(s: seq<T>, before: (T, T) -> bool)
    requires TotalPreorder(before)
    ensures SortedBy(SortBy(s, before), before)
  {
    if |s| == 0 {
    } else {
      assert s == [s[0]] + s[1..];
      SortBySorted(s[1..], before);
      InsertBySorted(s[0], SortBy(s[1..], before), before);
    }
  }

  /** The window `LIMIT limit OFFSET offset` of a result list. */
  function Window<T>(s: seq<T>, limit: nat, offset: nat): (r: seq<T>)
    ensures |r| <= limit
    ensures offset >= |s| ==> r == []
    ensures forall i :: 0 <= i < |r| ==> offset + i < |s| && r[i] == s[offset + i]
    ensures |r| == (if offset >= |s| then 0 else if |s| - offset < limit then |s| - offset else limit)
  {
    if offset >= |s| then []
    else if |s| - offset < limit then s[offset..]
    else s[offset..offset + limit]
  }

  /** Consecutive pages tile: the page of `a` at `offset` followed by the
      page of `b` right after it is the page of `a + b` at `offset`. */
  lemma WindowTile<T>(s: seq<T>, a: nat, b: nat, offset: nat)
    ensures Window(s, a, offset) + Window(s, b, offset + a) == Window(s, a + b, offset)
  {
    var w1, w2, w := Window(s, a, offset), Window(s, b, offset + a), Window(s, a + b, offset);
    if offset < |s| && a <= |s| - offset {
      assert |w1| == a;
      forall i | 0 <= i < |w| ensures (w1 + w2)[i] == w[i] {
        if i >= a {
          assert w2[i - a] == s[offset + a + (i - a)];
        }
      }
    }
  }
}

=== FILE: store_index.dfy ===
/** The scraper registry (backend/stores/index.js): the stores scraped, in
    order, and the lookup of one by its slug. A scraper's `scrapeAll` is
    network I/O and is not part of this value; the ingestion loop receives
    it as an oracle. */
module StoreIndex {
  import opened Wrappers
  import Seqs
  import Metagames
  import Varazslatos
  import TcgBolt

  /** A registered scraper: the slug the store is kept under, the name it
      is shown with and the shop's base URL. */
  datatype StoreScraper = StoreScraper(slug: string, displayName: string, baseUrl: string)

  const MetagamesScraper := StoreScraper(Metagames.Slug, Metagames.DisplayName, Metagames.BaseUrl)
  const VarazslatosScraper := StoreScraper(Varazslatos.Slug, Varazslatos.DisplayName, Varazslatos.BaseUrl)
  const TcgBoltScraper := StoreScraper(TcgBolt.Slug, TcgBolt.DisplayName, TcgBolt.BaseUrl)

  /** `storeScrapers`: Metagames, then Varázslatos Játékok, then TCGBolt. */
  const StoreScrapers: seq<StoreScraper> := [MetagamesScraper, VarazslatosScraper, TcgBoltScraper]

  predicate HasSlug(slug: string, s: StoreScraper)
  {
    s.slug == slug
  }

  /** `getStoreScraper`: the first scraper in list order with the slug, or
      nothing. */
  function GetStoreScraper(slug: string): (r: Option<StoreScraper>)
    ensures r.Some? ==> r.value.slug == slug && r.value in StoreScrapers
    ensures r.None? <==> forall i :: 0 <= i < |StoreScrapers| ==> StoreScrapers[i].slug != slug
  {
    match Seqs.FindFirst(StoreScrapers, s => HasSlug(slug, s))
    case Some(i) => Some(StoreScrapers[i])
    case None => None
  }

  /** The lookup takes the first of several scrapers sharing a slug. */
  lemma GetStoreScraperTakesFirst(slug: string, k: nat)
    requires k < |StoreScrapers| && StoreScrapers[k].slug == slug
    requires forall j :: 0 <= j < k ==> StoreScrapers[j].slug != slug
    ensures GetStoreScraper(slug) == Some(StoreScrapers[k])
  {
    Seqs.FindFirstAt(StoreScrapers, s => HasSlug(slug, s), k);
  }

  /** The three slugs are distinct, so every registered scraper is found
      by its own slug. */
  lemma SlugsDistinct()
    ensures forall i, j :: 0 <= i < j < |StoreScrapers| ==> StoreScrapers[i].slug != StoreScrapers[j].slug
  {
    assert Metagames.Slug[0] == 'm' && Varazslatos.Slug[0] == 'v' && TcgBolt.Slug[0] == 't';
  }

  lemma EveryScraperFound(k: nat)
    requires k < |StoreScrapers|
    ensures GetStoreScraper(StoreScrapers[k].slug) == Some(StoreScrapers[k])
  {
    SlugsDistinct();
    GetStoreScraperTakesFirst(StoreScrapers[k].slug, k);
  }
}

=== FILE: store_repo.dfy ===
/** The store repository (backend/repositories/storeRepo.js): the store
    table keyed by slug. */
module StoreRepo {
  import opened Wrappers
  import opened Types
  import opened Schema
  import Seqs
  import Text

  /** `SELECT * FROM stores WHERE slug = ?`. */
  function FindBySlug(stores: seq<Store>, slug: string): Option<nat>
  {
    Seqs.FindFirst(stores, (s: Store) => s.slug == slug)
  }

  function InsertStore(t: Tables, slug: string, name: string, baseUrl: string, now: Time): Tables
  {
    t.(stores := t.stores + [Store(t.nextId, slug, name, baseUrl, now, now)], nextId := t.nextId + 1)
  }

  lemma InsertStoreFacts(t: Tables, slug: string, name: string, baseUrl: string, now: Time)
    requires FindBySlug(t.stores, slug).None?
    ensures var t' := InsertStore(t, slug, name, baseUrl, now);
      && FindBySlug(t'.stores, slug) == Some(|t.stores|)
      && (Valid(t) ==> Valid(t'))
  {
    var t' := InsertStore(t, slug, name, baseUrl, now);
    Seqs.FindFirstAt(t'.stores, (s: Store) => s.slug == slug, |t.stores|);
    if Valid(t) {
      assert ValidStores(t');
      forall i | 0 <= i < |t.alerts| ensures ValidAlertRow(t'.alerts[i], t'.nextId) {
        assert ValidAlertRow(t.alerts[i], t.nextId);
      }
    }
  }

  function UpdateStore(t: Tables, i: nat, name: string, baseUrl: string, now: Time): Tables
    requires i < |t.stores|
  {
    t.(stores := t.stores[i := t.stores[i].(name := name, baseUrl := baseUrl, updatedAt := now)])
  }

  lemma UpdateStoreFacts(t: Tables, i: nat, slug: string, name: string, baseUrl: string, now: Time)
    requires FindBySlug(t.stores, slug) == Some(i) && i < |t.stores|
    ensures var t' := UpdateStore(t, i, name, baseUrl, now);
      && FindBySlug(t'.stores, slug) == Some(i)
      && (Valid(t) ==> Valid(t'))
  {
    var t' := UpdateStore(t, i, name, baseUrl, now);
    Seqs.FindFirstAt(t'.stores, (s: Store) => s.slug == slug, i);
  }

  /** `ensureStore`: a slug not seen before is inserted with a fresh id; a
      known slug whose name or base URL drifted is rewritten in place,
      keeping its id, slug and creation time; a known slug with the same
      name and base URL is returned as stored and nothing is written. The
      store is always read back by slug, and the read cannot miss. */
  function EnsureStore(t: Tables, slug: string, name: string, baseUrl: string, now: Time): (r: (Store, Tables))
    ensures r.0.slug == slug && r.0.name == name && r.0.baseUrl == baseUrl
    ensures FindBySlug(t.stores, slug).None? ==>
      && r.0 == Store(t.nextId, slug, name, baseUrl, now, now)
      && r.1.stores == t.stores + [r.0] && r.1.nextId == t.nextId + 1
    ensures FindBySlug(t.stores, slug).Some? ==>
      var i := FindBySlug(t.stores, slug).value;
      && i < |t.stores| && r.0.id == t.stores[i].id && r.0.createdAt == t.stores[i].createdAt
      && (t.stores[i].name == name && t.stores[i].baseUrl == baseUrl <==> r.1 == t)
      && r.1.stores == t.stores[i := r.0] && r.1.nextId == t.nextId
    ensures r.1.products == t.products && r.1.snapshots == t.snapshots
            && r.1.alerts == t.alerts && r.1.users == t.users
    ensures FindBySlug(r.1.stores, slug).Some? && r.1.stores[FindBySlug(r.1.stores, slug).value] == r.0
    ensures Valid(t) ==> Valid(r.1)
  {
    match FindBySlug(t.stores, slug)
    case Some(i) =>
      if t.stores[i].name != name || t.stores[i].baseUrl != baseUrl then
        var t' := UpdateStore(t, i, name, baseUrl, now);
        UpdateStoreFacts(t, i, slug, name, baseUrl, now);
        assert t'.stores[i] != t.stores[i];
        (t'.stores[i], t')
      else
        (t.stores[i], t)
    case None =>
      var t' := InsertStore(t, slug, name, baseUrl, now);
      InsertStoreFacts(t, slug, name, baseUrl, now);
      (t'.stores[|t.stores|], t')
  }

  /** Ensuring the same store twice: the second call finds it unchanged,
      returns the same store (same id) and writes nothing. */
  lemma EnsureStoreTwice(t: Tables, slug: string, name: string, baseUrl: string, now1: Time, now2: Time)
    ensures var (s1, t1) := EnsureStore(t, slug, name, baseUrl, now1);
      EnsureStore(t1, slug, name, baseUrl, now2) == (s1, t1)
  {
  }

  /** `ORDER BY name ASC`. */
  predicate NameBefore(a: Store, b: Store)
  {
    Text.LexLe(a.name, b.name)
  }

  lemma NameBeforeIsTotalPreorder()
    ensures Seqs.TotalPreorder(NameBefore)
  {
    forall a: Store, b: Store ensures NameBefore(a, b) || NameBefore(b, a) {
      Text.LexLeTotal(a.name, b.name);
    }
    forall a: Store, b: Store, c: Store | NameBefore(a, b) && NameBefore(b, c) ensures NameBefore(a, c) {
      Text.LexLeTransitive(a.name, b.name, c.name);
    }
  }

  /** `listStores`: every store once, by name ascending. */
  function ListStores(t: Tables): (r: seq<Store>)
    ensures multiset(r) == multiset(t.stores)
    ensures Seqs.SortedBy(r, NameBefore)
  {
    NameBeforeIsTotalPreorder();
    Seqs.SortBySorted(t.stores, NameBefore);
    Seqs.SortBy(t.stores, NameBefore)
  }
}

=== FILE: tcgbolt.dfy ===
/** The pure helpers of the TCGBolt scraper (backend/stores/tcgbolt.js):
    the slug of a product link, the stock decision, the status text with
    its fallback, and the product a listing card yields. Resolving a link
    against the shop's base (`new URL(href, BASE_URL)`) is the oracle
    `resolve` and taking the path of an absolute URL (`new URL(url).pathname`)
    the oracle `pathOf`; `None` stands for the URL constructor throwing. */
module TcgBolt {
  import opened Wrappers
  import opened Types
  import Text
  import Listing

  const BaseUrl := "https://tcgbolt.hu"

  /** The category pages swept, in order. */
  const Categories: seq<Listing.Category> := [
    Listing.Category("/termekkategoria/pokemon/", "Pokemon"),
    Listing.Category("/termekkategoria/pokemon/booster-pokemon/", "Booster"),
    Listing.Category("/termekkategoria/pokemon/booster-display/", "Display"),
    Listing.Category("/termekkategoria/pokemon/ex-box/", "EX Box"),
    Listing.Category("/termekkategoria/pokemon/premium-collection/", "Premium"),
    Listing.Category("/termekkategoria/pokemon/elite-trainer-box/", "Elite Trainer Box"),
    Listing.Category("/termekkategoria/pokemon/tin/", "Tin"),
    Listing.Category("/termekkategoria/pokemon/kiegeszitok/", "Kieg\U{00E9}sz\U{00ED}t\U{0151}k")
  ]

  /** `extractSlug`: the last non-empty segment of the URL's path; nothing
      when the URL does not parse or its path has no segment. */
  function ExtractSlug(url: string, pathOf: string -> Option<string>): (r: Option<string>)
    ensures pathOf(url).None? ==> r.None?
    ensures pathOf(url).Some? ==> r == Text.LastSegmentFromEnd(pathOf(url).value, '/')
    ensures r.Some? ==> |r.value| > 0 && '/' !in r.value
  {
    match pathOf(url)
    case None => None
    case Some(path) =>
      Text.LastSegmentMatchesScanFromEnd(path, '/');
      Text.LastSegment(path, '/')
  }

  /** A product path `<prefix>/<slug>/`, with or without its closing slash,
      yields `<slug>`. */
  lemma SlugOfProductPath(url: string, pathOf: string -> Option<string>, prefix: string, slug: string)
    requires |slug| > 0 && '/' !in slug
    requires pathOf(url) == Some(prefix + "/" + slug + "/") || pathOf(url) == Some(prefix + "/" + slug)
    ensures ExtractSlug(url, pathOf) == Some(slug)
  {
    var a := prefix + "/";
    assert a[|a| - 1] == '/';
    Text.LastSegmentAfterSeparator(a, slug, '/');
    assert a + slug + ['/'] == prefix + "/" + slug + "/";
  }

  /** `determineStock`: out of stock when the card has the `outofstock`
      class, holds an `.out-of-stock` or `.sold-out` element, or the
      lower-cased text of its stock labels (run together) mentions
      "elfogyott" or "nincs". */
  predicate DetermineStock(hasOutOfStockClass: bool, hasSoldOutChild: bool, stockTexts: seq<string>)
  {
    var text := Text.Lower(Text.Concat(stockTexts));
    !(hasOutOfStockClass || hasSoldOutChild || Text.Contains(text, "elfogyott") || Text.Contains(text, "nincs"))
  }

  /** The broad "nincs" test covers the full "nincs készleten" phrase: a
      label with that phrase puts the card out of stock. */
  lemma NotInStockPhraseDecides(hasOutOfStockClass: bool, hasSoldOutChild: bool, stockTexts: seq<string>)
    requires Text.Contains(Text.Lower(Text.Concat(stockTexts)), Listing.NotInStock)
    ensures !DetermineStock(hasOutOfStockClass, hasSoldOutChild, stockTexts)
  {
    var phrase := Listing.NotInStock;
    assert "nincs" <= phrase;
    Text.ContainsPrefixOf(Text.Lower(Text.Concat(stockTexts)), phrase, "nincs");
  }

  /** "Készleten" ("in stock"), the fallback status of an in-stock card. */
  const InStockLabel := "K\U{00E9}szleten"

  /** "Nincs készleten", the fallback status of an out-of-stock card. */
  const OutOfStockLabel := "Nincs k\U{00E9}szleten"

  /** `statusText || (inStock ? "Készleten" : "Nincs készleten")` with
      `statusText` the trimmed text of the stock labels. */
  function StatusText(stockTexts: seq<string>, inStock: bool): (r: string)
    ensures |r| > 0
    ensures |Text.Trim(Text.Concat(stockTexts))| > 0 ==> r == Text.Trim(Text.Concat(stockTexts))
    ensures |Text.Trim(Text.Concat(stockTexts))| == 0 ==> r == (if inStock then InStockLabel else OutOfStockLabel)
  {
    var text := Text.Trim(Text.Concat(stockTexts));
    if |text| > 0 then text else if inStock then InStockLabel else OutOfStockLabel
  }

  /** A string sharing a character with `t` is needed for `t` to occur. */
  lemma ContainsNeedsChar(s: string, t: string, k: nat)
    requires k < |t| && Text.Contains(s, t)
    ensures t[k] in s
  {
    var i := Text.ContainsWitness(s, t);
    assert s[i + k] == t[k];
  }

  /** The lower-cased in-stock label mentions neither "nincs" nor
      "elfogyott" (it has no 'c' and no 'f'); stated for any string equal
      to the label so that the solver does not evaluate it as a constant. */
  lemma InStockLabelIsPlain(x: string)
    requires x == InStockLabel
    ensures !Text.Contains(Text.Lower(x), "nincs") && !Text.Contains(Text.Lower(x), "elfogyott")
  {
    var lower := Text.Lower(x);
    assert 'c' !in lower && 'f' !in lower by {
      forall i | 0 <= i < |lower| ensures lower[i] != 'c' && lower[i] != 'f' {
        assert lower[i] == Text.LowerChar(x[i]);
      }
    }
    if Text.Contains(lower, "nincs") {
      ContainsNeedsChar(lower, "nincs", 3);
    }
    if Text.Contains(lower, "elfogyott") {
      ContainsNeedsChar(lower, "elfogyott", 2);
    }
  }

  /** The status shown never contradicts the stock decision: the status of
      an in-stock card never says "nincs" or "elfogyott", in any case. */
  lemma StatusAgreesWithStock(hasOutOfStockClass: bool, hasSoldOutChild: bool, stockTexts: seq<string>)
    ensures var inStock := DetermineStock(hasOutOfStockClass, hasSoldOutChild, stockTexts);
      var status := Text.Lower(StatusText(stockTexts, inStock));
      inStock ==> !Text.Contains(status, "nincs") && !Text.Contains(status, "elfogyott")
  {
    var inStock := DetermineStock(hasOutOfStockClass, hasSoldOutChild, stockTexts);
    if inStock {
      var whole := Text.Concat(stockTexts);
      var trimmed := Text.Trim(whole);
      if |trimmed| > 0 {
        if Text.Contains(Text.Lower(trimmed), "nincs") {
          Text.ContainsInTrimmedLower(whole, "nincs");
        }
        if Text.Contains(Text.Lower(trimmed), "elfogyott") {
          Text.ContainsInTrimmedLower(whole, "elfogyott");
        }
      } else {
        var fallback := InStockLabel;
        InStockLabelIsPlain(fallback);
      }
    }
  }

  /** `a ?? b ?? …`: the first value present, even an empty one. */
  function FirstPresent(values: seq<Option<string>>): (r: Option<string>)
    ensures r.None? <==> forall i :: 0 <= i < |values| ==> values[i].None?
    ensures r.Some? ==> exists i :: 0 <= i < |values| && values[i] == r
                                    && forall j :: 0 <= j < i ==> values[j].None?
  {
    if |values| == 0 then None
    else if values[0].Some? then values[0]
    else
      var rest := FirstPresent(values[1..]);
      assert forall i :: 1 <= i < |values| ==> values[i] == values[1..][i - 1];
      rest
  }

  /** One product card as the scraper reads it: its links, the text of its
      first price element, its image's `data-src`, `data-lazy-src` and
      `src`, the card's `data-product-id` and its button's
      `data-product_id`, the stock flags and the stock labels' texts. */
  datatype Card = Card(
    anchors: seq<Listing.Anchor>,
    priceText: string,
    imageDataSrc: Option<string>,
    imageLazySrc: Option<string>,
    imageSrc: Option<string>,
    productId: Option<string>,
    buttonProductId: Option<string>,
    hasOutOfStockClass: bool,
    hasSoldOutChild: bool,
    stockTexts: seq<string>)

  /** The product a card yields in category `category`: none without a
      name, without a link, or when the link does not resolve; otherwise
      the resolved link and the slug of its path, the parsed price with HUF
      exactly for a nonzero price, the first image attribute present (an
      empty one yields no image), the first product id present, the stock
      decision and the status text that falls back on it. */
  function CardProduct(card: Card, category: string, resolve: (string, string) -> Option<string>,
                       pathOf: string -> Option<string>): (r: Option<ScrapedProduct>)
    ensures var (name, href) := Listing.NameAndLink(card.anchors);
      r.None? <==> |name| == 0 || href.None? || |href.value| == 0 || resolve(href.value, BaseUrl).None?
    ensures r.Some? ==>
      var (name, href) := Listing.NameAndLink(card.anchors);
      var price := Listing.ParseBarePrice(card.priceText);
      var image := FirstPresent([card.imageDataSrc, card.imageLazySrc, card.imageSrc]);
      var inStock := DetermineStock(card.hasOutOfStockClass, card.hasSoldOutChild, card.stockTexts);
      && href.Some? && resolve(href.value, BaseUrl) == Some(r.value.url)
      && r.value.name == name && |name| > 0
      && r.value.slug == ExtractSlug(r.value.url, pathOf)
      && r.value.category == Some(category)
      && r.value.remoteId == FirstPresent([card.productId, card.buttonProductId])
      && r.value.priceHuf == price.priceHuf && r.value.rawPrice == price.raw
      && (r.value.currency.Some? <==> r.value.priceHuf.Some? && r.value.priceHuf.value != 0)
      && (r.value.currency.Some? ==> r.value.currency.value == "HUF")
      && (image.None? || |image.value| == 0 ==> r.value.imageUrl.None?)
      && (image.Some? && |image.value| > 0 ==> r.value.imageUrl == resolve(image.value, BaseUrl))
      && r.value.inStock == inStock
      && r.value.statusText == Some(StatusText(card.stockTexts, inStock))
  {
    var (name, href) := Listing.NameAndLink(card.anchors);
    if |href.GetOr("")| == 0 || |name| == 0 then None
    else
      match resolve(href.value, BaseUrl)
      case None => None
      case Some(url) =>
        var price := Listing.ParseBarePrice(card.priceText);
        var image := FirstPresent([card.imageDataSrc, card.imageLazySrc, card.imageSrc]);
        var inStock := DetermineStock(card.hasOutOfStockClass, card.hasSoldOutChild, card.stockTexts);
        Some(ScrapedProduct(
          FirstPresent([card.productId, card.buttonProductId]), ExtractSlug(url, pathOf), name, url,
          if image.Some? && |image.value| > 0 then resolve(image.value, BaseUrl) else None,
          Some(category), price.priceHuf, Listing.HufIfPriced(price.priceHuf),
          Some(StatusText(card.stockTexts, inStock)), inStock, price.raw))
  }

  /** The scraper's entry in the store list. */
  const Slug := "tcgbolt"
  const DisplayName := "TCGBolt"
}

=== FILE: text.dfy ===
/** String helpers with JavaScript's meaning: the `\s` character class and
    `trim`, the `replace(/\s+/g, " ")` and `replace(/[^\d]/g, "")` rewrites,
    `includes`, `startsWith`, `split("/")`, `toLowerCase` and decimal
    numbers. */
module Text {
  import opened Wrappers

  /** JavaScript's `\s` class, which is also what `String.prototype.trim`
      removes. */
  predicate IsSpace(c: char)
  {
    || c == ' ' || c == '\t' || c == '\n' || c == '\r'
    || c == '\U{000B}' || c == '\U{000C}' || c == '\U{00A0}' || c == '\U{1680}'
    || ('\U{2000}' <= c <= '\U{200A}')
    || c == '\U{2028}' || c == '\U{2029}' || c == '\U{202F}' || c == '\U{205F}'
    || c == '\U{3000}' || c == '\U{FEFF}'
  }

  predicate IsDigit(c: char)
  {
    '0' <= c <= '9'
  }

  predicate AllDigits(s: string)
  {
    forall i :: 0 <= i < |s| ==> IsDigit(s[i])
  }

  predicate NoSpace(s: string)
  {
    forall i :: 0 <= i < |s| ==> !IsSpace(s[i])
  }

  /** `includes`: `t` occurs in `s` at some position. */
  predicate Contains(s: string, t: string)
    decreases |s|
  {
    t <= s || (|s| > 0 && Contains(s[1..], t))
  }

  lemma {:induction false} ContainsAt(s: string, t: string, i: nat)
    requires i + |t| <= |s| && s[i..i + |t|] == t
    ensures Contains(s, t)
    decreases i
  {
    if i == 0 {
      assert t <= s;
    } else {
      assert s[1..][i - 1..i - 1 + |t|] == s[i..i + |t|];
      ContainsAt(s[1..], t, i - 1);
    }
  }

  lemma {:induction false} ContainsWitness(s: string, t: string) returns (i: nat)
    requires Contains(s, t)
    ensures i + |t| <= |s| && s[i..i + |t|] == t
    decreases |s|
  {
    if t <= s {
      i := 0;
    } else {
      var k := ContainsWitness(s[1..], t);
      assert s[1..][k..k + |t|] == s[k + 1..k + 1 + |t|];
      i := k + 1;
    }
  }

  /** The end of the whitespace run that starts at `i`. */
  function SpaceRunEnd(s: string, i: nat): (j: nat)
    requires i <= |s|
    ensures i <= j <= |s|
    ensures j < |s| ==> !IsSpace(s[j])
    ensures forall k :: i <= k < j ==> IsSpace(s[k])
    decreases |s| - i
  {
    if i < |s| && IsSpace(s[i]) then SpaceRunEnd(s, i + 1) else i
  }

  /** The start of the whitespace run that ends at `j`. */
  function SpaceRunStart(s: string, j: nat): (i: nat)
    requires j <= |s|
    ensures i <= j
    ensures i > 0 ==> !IsSpace(s[i - 1])
    ensures forall k :: i <= k < j ==> IsSpace(s[k])
  {
    if j > 0 && IsSpace(s[j - 1]) then SpaceRunStart(s, j - 1) else j
  }

  /** `trimStart`. */
  function TrimStart(s: string): (r: string)
    ensures |r| <= |s| && r == s[|s| - |r|..]
    ensures |r| > 0 ==> !IsSpace(r[0])
    ensures forall i :: 0 <= i < |s| - |r| ==> IsSpace(s[i])
  {
    s[SpaceRunEnd(s, 0)..]
  }

  /** `trimEnd`. */
  function TrimEnd(s: string): (r: string)
    ensures |r| <= |s| && r == s[..|r|]
    ensures |r| > 0 ==> !IsSpace(r[|r| - 1])
    ensures forall i :: |r| <= i < |s| ==> IsSpace(s[i])
  {
    s[..SpaceRunStart(s, |s|)]
  }

  /** `String.prototype.trim`. */
  function Trim(s: string): (r: string)
    ensures |r| > 0 ==> !IsSpace(r[0]) && !IsSpace(r[|r| - 1])
    ensures NoSpace(s) ==> r == s
  {
    TrimEnd(TrimStart(s))
  }

  /** `replace(/\s+/g, " ")`: every run of whitespace becomes one space. */
  function CollapseSpaces(s: string): (r: string)
    ensures |r| <= |s|
    ensures forall i :: 0 <= i < |r| ==> r[i] == ' ' || !IsSpace(r[i])
    ensures forall i :: 0 <= i < |r| - 1 ==> !(IsSpace(r[i]) && IsSpace(r[i + 1]))
    ensures |r| > 0 && IsSpace(r[0]) ==> |s| > 0 && IsSpace(s[0])
    ensures NoSpace(s) ==> r == s
    decreases |s|
  {
    if |s| == 0 then []
    else if IsSpace(s[0]) then [' '] + CollapseSpaces(TrimStart(s[1..]))
    else [s[0]] + CollapseSpaces(s[1..])
  }

  /** The `text.replace(/\s+/g, " ").trim()` step shared by the price parsers. */
  function Clean(s: string): (r: string)
    ensures |r| > 0 ==> !IsSpace(r[0]) && !IsSpace(r[|r| - 1])
    ensures NoSpace(s) ==> r == s
  {
    Trim(CollapseSpaces(s))
  }

  /** `replace(/[^\d]/g, "")`. */
  function Digits(s: string): (r: string)
    ensures AllDigits(r)
    ensures |r| == 0 <==> forall i :: 0 <= i < |s| ==> !IsDigit(s[i])
    ensures AllDigits(s) ==> r == s
  {
    if |s| == 0 then []
    else if IsDigit(s[0]) then [s[0]] + Digits(s[1..])
    else Digits(s[1..])
  }

  lemma {:induction false} DigitsAppend(a: string, b: string)
    ensures Digits(a + b) == Digits(a) + Digits(b)
  {
    if |a| == 0 {
      assert a + b == b;
    } else {
      assert (a + b)[1..] == a[1..] + b;
      DigitsAppend(a[1..], b);
    }
  }

  /** The number a string of decimal digits denotes (`Number.parseInt(d, 10)`). */
  function DigitsValue(d: string): nat
    requires AllDigits(d)
  {
    if |d| == 0 then 0
    else 10 * DigitsValue(d[..|d| - 1]) + (d[|d| - 1] as int - '0' as int)
  }

  /** Decimal rendering of a natural number (a template literal `${n}`). */
  function NatToString(n: nat): (r: string)
    ensures |r| > 0 && AllDigits(r)
  {
    if n < 10 then [('0' as int + n) as char]
    else NatToString(n / 10) + [('0' as int + n % 10) as char]
  }

  lemma {:induction false} NatToStringValue(n: nat)
    ensures DigitsValue(NatToString(n)) == n
  {
    var r := NatToString(n);
    if n >= 10 {
      NatToStringValue(n / 10);
      assert r[..|r| - 1] == NatToString(n / 10);
    }
  }

  /** `toLowerCase` on the letters the stores' texts use: ASCII and the
      Latin-1 and Hungarian capitals. */
  function LowerChar(c: char): char
  {
    if 'A' <= c <= 'Z' then (c as int + 32) as char
    else if '\U{00C0}' <= c <= '\U{00DE}' && c != '\U{00D7}' then (c as int + 32) as char
    else if c == '\U{0150}' || c == '\U{0170}' then (c as int + 1) as char
    else c
  }

  function Lower(s: string): (r: string)
    ensures |r| == |s|
    ensures forall i :: 0 <= i < |s| ==> r[i] == LowerChar(s[i])
  {
    seq(|s|, i requires 0 <= i < |s| => LowerChar(s[i]))
  }

  /** SQLite's `LOWER`, which folds ASCII letters only. */
  function AsciiLower(s: string): (r: string)
    ensures |r| == |s|
    ensures forall i :: 0 <= i < |s| ==> r[i] == (if 'A' <= s[i] <= 'Z' then LowerChar(s[i]) else s[i])
  {
    seq(|s|, i requires 0 <= i < |s| => if 'A' <= s[i] <= 'Z' then LowerChar(s[i]) else s[i])
  }

  /** `s.split(sep)`: the pieces between separators, empty ones included.
      Written from the end: one more character either closes the last
      piece (a separator) or extends it. */
  function Split(s: string, sep: char): (r: seq<string>)
    ensures |r| >= 1
    ensures forall k :: 0 <= k < |r| ==> sep !in r[k]
  {
    if |s| == 0 then [""]
    else
      var p := Split(s[..|s| - 1], sep);
      var c := s[|s| - 1];
      if c == sep then p + [""]
      else p[..|p| - 1] + [p[|p| - 1] + [c]]
  }

  /** The inverse of `Split`: `pieces.join(sep)`. */
  function Join(pieces: seq<string>, sep: char): string
    requires |pieces| >= 1
  {
    if |pieces| == 1 then pieces[0]
    else Join(pieces[..|pieces| - 1], sep) + [sep] + pieces[|pieces| - 1]
  }

  lemma {:induction false} JoinSplit(s: string, sep: char)
    ensures Join(Split(s, sep), sep) == s
  {
    if |s| > 0 {
      var s' := s[..|s| - 1];
      var c := s[|s| - 1];
      assert s == s' + [c];
      var p := Split(s', sep);
      JoinSplit(s', sep);
      var r := Split(s, sep);
      if c == sep {
        assert r == p + [""] && r[..|r| - 1] == p;
        assert Join(r, sep) == s' + [sep] + "";
      } else if |p| == 1 {
        assert r == [p[0] + [c]];
      } else {
        JoinSnoc(p, c, sep);
      }
    }
  }

  /** Extending the last piece extends the joined string. */
  lemma JoinSnoc(p: seq<string>, c: char, sep: char)
    requires |p| >= 2
    ensures Join(p[..|p| - 1] + [p[|p| - 1] + [c]], sep) == Join(p, sep) + [c]
  {
    var n := |p|;
    var r := p[..n - 1] + [p[n - 1] + [c]];
    assert r[..n - 1] == p[..n - 1];
  }

  function NonEmpty(pieces: seq<string>): (r: seq<string>)
    ensures forall k :: 0 <= k < |r| ==> |r[k]| > 0 && r[k] in pieces
  {
    if |pieces| == 0 then []
    else if |pieces[0]| > 0 then [pieces[0]] + NonEmpty(pieces[1..])
    else NonEmpty(pieces[1..])
  }

  /** `s.split(sep).filter(Boolean)` followed by taking the last element:
      the last non-empty segment, if any. */
  function LastSegment(s: string, sep: char): (r: Option<string>)
    ensures r.Some? ==> |r.value| > 0 && sep !in r.value
  {
    var segments := NonEmpty(Split(s, sep));
    if |segments| == 0 then None else Some(segments[|segments| - 1])
  }

  /** The run of non-separator characters that ends `s`. */
  function TailRun(s: string, sep: char): (r: string)
    ensures |r| <= |s| && r == s[|s| - |r|..]
    ensures sep !in r
  {
    if |s| == 0 || s[|s| - 1] == sep then []
    else TailRun(s[..|s| - 1], sep) + [s[|s| - 1]]
  }

  /** Reference reading of "the last non-empty segment", scanning from the
      end: skip trailing separators, then take the run before them. */
  function LastSegmentFromEnd(s: string, sep: char): Option<string>
  {
    if |s| == 0 then None
    else if s[|s| - 1] == sep then LastSegmentFromEnd(s[..|s| - 1], sep)
    else Some(TailRun(s, sep))
  }

  lemma {:induction false} SplitLastIsTailRun(s: string, sep: char)
    ensures var p := Split(s, sep); p[|p| - 1] == TailRun(s, sep)
  {
    if |s| > 0 {
      SplitLastIsTailRun(s[..|s| - 1], sep);
    }
  }

  lemma {:induction false} NonEmptyAppend(a: seq<string>, b: seq<string>)
    ensures NonEmpty(a + b) == NonEmpty(a) + NonEmpty(b)
  {
    if |a| == 0 {
      assert a + b == b;
    } else {
      assert (a + b)[1..] == a[1..] + b;
      NonEmptyAppend(a[1..], b);
    }
  }

  /** The split-and-filter reading of the last segment agrees with the
      scan from the end. */
  lemma {:induction false} LastSegmentMatchesScanFromEnd(s: string, sep: char)
    ensures LastSegment(s, sep) == LastSegmentFromEnd(s, sep)
  {
    if |s| > 0 {
      var s' := s[..|s| - 1];
      var c := s[|s| - 1];
      assert s == s' + [c];
      var p := Split(s', sep);
      LastSegmentMatchesScanFromEnd(s', sep);
      if c == sep {
        NonEmptyAppend(p, [""]);
        assert NonEmpty(Split(s, sep)) == NonEmpty(p);
      } else {
        var last := p[|p| - 1] + [c];
        assert p[..|p| - 1] + [last] == Split(s, sep);
        NonEmptyAppend(p[..|p| - 1], [last]);
        assert NonEmpty([last]) == [last];
        SplitLastIsTailRun(s', sep);
        assert TailRun(s, sep) == TailRun(s', sep) + [c];
        assert LastSegmentFromEnd(s, sep) == Some(TailRun(s, sep));
      }
    }
  }

  /** Byte-wise string order (SQLite's default `BINARY` collation; UTF-8
      preserves code point order): `a` sorts no later than `b`. */
  predicate LexLe(a: string, b: string)
  {
    |a| == 0 || (|b| > 0 && (a[0] < b[0] || (a[0] == b[0] && LexLe(a[1..], b[1..]))))
  }

  lemma {:induction false} LexLeTotal(a: string, b: string)
    ensures LexLe(a, b) || LexLe(b, a)
  {
    if |a| > 0 && |b| > 0 && a[0] == b[0] {
      LexLeTotal(a[1..], b[1..]);
    }
  }

  lemma {:induction false} LexLeTransitive(a: string, b: string, c: string)
    requires LexLe(a, b) && LexLe(b, c)
    ensures LexLe(a, c)
  {
    if |a| > 0 && a[0] == b[0] && b[0] == c[0] {
      LexLeTransitive(a[1..], b[1..], c[1..]);
    }
  }

  /** The order only ties equal strings. */
  lemma {:induction false} LexLeAntisymmetric(a: string, b: string)
    requires LexLe(a, b) && LexLe(b, a)
    ensures a == b
  {
    if |a| > 0 {
      LexLeAntisymmetric(a[1..], b[1..]);
      assert a == [a[0]] + a[1..] && b == [b[0]] + b[1..];
    }
  }

  lemma CollapseSpacesStep(a: string, b: string)
    requires |a| > 0 && !IsSpace(a[0])
    ensures CollapseSpaces(a + b) == [a[0]] + CollapseSpaces(a[1..] + b)
  {
    var ab := a + b;
    assert ab[0] == a[0] && !IsSpace(ab[0]);
    assert ab[1..] == a[1..] + b;
  }

  lemma ConcatSlices(a: string, b: string, c: string)
    ensures (a + b + c)[..|a|] == a
    ensures (a + b + c)[|a|..|a| + |b|] == b
    ensures (a + b + c)[|a| + |b|..] == c
  {
  }

  lemma ConsConcat(a: string, b: string)
    requires |a| > 0
    ensures [a[0]] + (a[1..] + b) == a + b
  {
  }

  /** A prefix without whitespace passes through the collapsing unchanged. */
  lemma {:induction false} CollapseSpacesNoSpacePrefix(a: string, b: string)
    requires NoSpace(a)
    ensures CollapseSpaces(a + b) == a + CollapseSpaces(b)
    decreases |a|
  {
    if |a| > 0 {
      var tail := a[1..];
      assert NoSpace(tail);
      CollapseSpacesNoSpacePrefix(tail, b);
      CollapseSpacesStep(a, b);
      ConsConcat(a, CollapseSpaces(b));
    } else {
      assert a + b == b;
    }
  }

  /** Two words joined by one space are already clean. */
  lemma CleanTwoWords(a: string, b: string)
    requires |a| > 0 && |b| > 0 && NoSpace(a) && NoSpace(b)
    ensures Clean(a + " " + b) == a + " " + b
  {
    CollapseTwoWords(a, b);
    TrimUnpadded(a + " " + b);
  }

  /** A space before a word is kept as it is. */
  lemma CollapseSpaceWord(b: string)
    requires |b| > 0 && NoSpace(b)
    ensures CollapseSpaces(" " + b) == " " + b
  {
    assert (" " + b)[1..] == b;
    assert TrimStart(b) == b;
  }

  lemma CollapseTwoWords(a: string, b: string)
    requires |a| > 0 && |b| > 0 && NoSpace(a) && NoSpace(b)
    ensures CollapseSpaces(a + " " + b) == a + " " + b
  {
    var c := " " + b;
    assert a + " " + b == a + c;
    CollapseSpaceWord(b);
    CollapseSpacesNoSpacePrefix(a, c);
  }

  /** A string that neither starts nor ends with whitespace is its own
      trim. */
  lemma TrimUnpadded(s: string)
    requires |s| > 0 && !IsSpace(s[0]) && !IsSpace(s[|s| - 1])
    ensures Trim(s) == s
  {
    assert SpaceRunEnd(s, 0) == 0;
    assert SpaceRunStart(s, |s|) == |s|;
  }

  /** No string occurs in a shorter one. */
  lemma NotContainedInShorter(s: string, t: string)
    requires |s| < |t|
    ensures !Contains(s, t)
  {
    if Contains(s, t) {
      var i := ContainsWitness(s, t);
    }
  }

  /** An occurrence inside a piece is an occurrence in any string the piece
      is embedded in. */
  lemma ContainsWithin(a: string, b: string, c: string, t: string)
    requires Contains(b, t)
    ensures Contains(a + b + c, t)
  {
    var i := ContainsWitness(b, t);
    var s := a + b + c;
    assert s[|a| + i..|a| + i + |t|] == b[i..i + |t|];
    ContainsAt(s, t, |a| + i);
  }

  /** An occurrence in a slice is an occurrence in the whole. */
  lemma ContainsSlice(s: string, i: nat, j: nat, piece: string, t: string)
    requires i <= j <= |s| && piece == s[i..j] && Contains(piece, t)
    ensures Contains(s, t)
  {
    assert s == s[..i] + piece + s[j..];
    ContainsWithin(s[..i], piece, s[j..], t);
  }

  /** A string containing `t` contains every prefix of `t`. */
  lemma ContainsPrefixOf(s: string, t: string, u: string)
    requires Contains(s, t) && u <= t
    ensures Contains(s, u)
  {
    var i := ContainsWitness(s, t);
    assert s[i..i + |u|] == t[..|u|];
    ContainsAt(s, u, i);
  }

  /** `pieces.join("")`, which is also what cheerio's `.text()` gives for a
      selection of several elements. */
  function Concat(pieces: seq<string>): (r: string)
    ensures |pieces| == 0 ==> r == []
  {
    if |pieces| == 0 then [] else pieces[0] + Concat(pieces[1..])
  }

  /** Every piece sits inside the concatenation. */
  lemma {:induction false} ConcatAround(pieces: seq<string>, k: nat)
    requires k < |pieces|
    ensures Concat(pieces) == Concat(pieces[..k]) + pieces[k] + Concat(pieces[k + 1..])
  {
    if k > 0 {
      ConcatAround(pieces[1..], k - 1);
      assert pieces[1..][..k - 1] == pieces[1..k];
      assert pieces[1..][k..] == pieces[k + 1..];
      assert pieces[..k][1..] == pieces[1..k];
    } else {
      assert pieces[..0] == [];
    }
  }

  lemma LowerAppend(a: string, b: string)
    ensures Lower(a + b) == Lower(a) + Lower(b)
  {
  }

  lemma LowerCongruent(a: string, b: string)
    requires a == b
    ensures Lower(a) == Lower(b)
  {
  }

  lemma LowerSlice(s: string, i: nat, j: nat)
    requires i <= j <= |s|
    ensures Lower(s[i..j]) == Lower(s)[i..j]
  {
  }

  /** `trim` keeps a contiguous part of its input. */
  lemma TrimIsSlice(s: string) returns (k: nat)
    ensures k + |Trim(s)| <= |s| && Trim(s) == s[k..k + |Trim(s)|]
  {
    k := SpaceRunEnd(s, 0);
    var start := s[k..];
    assert TrimStart(s) == start;
    assert Trim(s) == start[..|Trim(s)|];
  }

  /** Trimming before lower-casing cannot create an occurrence. */
  lemma ContainsInTrimmedLower(s: string, t: string)
    requires Contains(Lower(Trim(s)), t)
    ensures Contains(Lower(s), t)
  {
    var k, piece := TrimmedLowerIsSlice(s);
    ContainsSlice(Lower(s), k, k + |piece|, piece, t);
  }

  /** Lower-casing the trimmed text gives a slice of the lower-cased text. */
  lemma TrimmedLowerIsSlice(s: string) returns (k: nat, piece: string)
    ensures piece == Lower(Trim(s))
    ensures k + |piece| <= |Lower(s)| && piece == Lower(s)[k..k + |piece|]
  {
    var t := Trim(s);
    k := TrimIsSlice(s);
    piece := Lower(t);
    LowerOfSlice(s, k, t);
    assert |piece| == |t|;
  }

  /** Lower-casing a slice gives the slice of the lower-cased string. */
  lemma LowerOfSlice(s: string, k: nat, piece: string)
    requires k + |piece| <= |s| && piece == s[k..k + |piece|]
    ensures Lower(piece) == Lower(s)[k..k + |piece|]
  {
    forall j | 0 <= j < |piece| ensures Lower(piece)[j] == Lower(s)[k + j] {
      assert piece[j] == s[k + j];
    }
  }

  /** After a separator (or from the start), the run up to the end is
      exactly what follows. */
  lemma {:induction false} TailRunAfterSeparator(a: string, w: string, sep: char)
    requires |a| == 0 || a[|a| - 1] == sep
    requires sep !in w
    ensures TailRun(a + w, sep) == w
    decreases |w|
  {
    if |w| == 0 {
      assert a + w == a;
    } else {
      var w' := w[..|w| - 1];
      var c := w[|w| - 1];
      assert sep !in w' by {
        forall i | 0 <= i < |w'| ensures w'[i] != sep {
          assert w'[i] == w[i];
        }
      }
      TailRunAfterSeparator(a, w', sep);
      SnocSplit(a, w);
      TailRunSnoc(a + w', c, sep);
    }
  }

  /** `a + w` is `a` with all of `w` but its last element, then that
      element. */
  lemma SnocSplit(a: string, w: string)
    requires |w| > 0
    ensures a + w == (a + w[..|w| - 1]) + [w[|w| - 1]]
    ensures w == w[..|w| - 1] + [w[|w| - 1]]
  {
  }

  /** A character other than the separator extends the tail run. */
  lemma TailRunSnoc(x: string, c: char, sep: char)
    requires c != sep
    ensures TailRun(x + [c], sep) == TailRun(x, sep) + [c]
  {
    var s := x + [c];
    assert s[..|s| - 1] == x;
  }

  /** The last segment of `a + w`, with or without a trailing separator,
      is `w` when `a` is empty or ends with the separator and `w` is a
      non-empty run without it. */
  lemma LastSegmentAfterSeparator(a: string, w: string, sep: char)
    requires |a| == 0 || a[|a| - 1] == sep
    requires |w| > 0 && sep !in w
    ensures LastSegment(a + w, sep) == Some(w)
    ensures LastSegment(a + w + [sep], sep) == Some(w)
  {
    var s := a + w;
    TailRunAfterSeparator(a, w, sep);
    assert s[|s| - 1] == w[|w| - 1] != sep;
    LastSegmentMatchesScanFromEnd(s, sep);
    var s' := s + [sep];
    assert s'[..|s'| - 1] == s;
    LastSegmentMatchesScanFromEnd(s', sep);
  }

  /** Lower-casing twice is lower-casing once. */
  lemma LowerIdempotent(s: string)
    ensures Lower(Lower(s)) == Lower(s)
  {
    var once := Lower(s);
    forall i | 0 <= i < |s| ensures LowerChar(once[i]) == once[i] {
      assert once[i] == LowerChar(s[i]);
    }
  }

  /** Trimming twice is trimming once. */
  lemma TrimIdempotent(s: string)
    ensures Trim(Trim(s)) == Trim(s)
  {
    var r := Trim(s);
    if |r| > 0 {
      assert SpaceRunEnd(r, 0) == 0;
      assert SpaceRunStart(r, |r|) == |r|;
    }
  }
}

=== FILE: types.dfy ===
/** The records the catalog hands to its callers (the shapes of
    backend/types.d.ts). Identifiers are naturals drawn from a counter and
    timestamps are abstract clock readings. */
module Types {
  import opened Wrappers

  /** A row identifier (a `cuid` or `randomUUID` in the program). */
  type Id = nat

  /** A reading of the clock (`datetime('now')`, `new Date()`). */
  type Time = nat

  datatype Store = Store(
    id: Id,
    slug: string,
    name: string,
    baseUrl: string,
    createdAt: Time,
    updatedAt: Time)

  datatype Product = Product(
    id: Id,
    storeId: Id,
    remoteId: Option<string>,
    slug: Option<string>,
    name: string,
    productUrl: string,
    imageUrl: Option<string>,
    category: Option<string>,
    currentPriceHuf: Option<nat>,
    currentCurrency: Option<string>,
    status: Option<string>,
    inStock: bool,
    lastSeenAt: Time,
    lastChangeAt: Option<Time>,
    createdAt: Time,
    updatedAt: Time)

  datatype PriceSnapshot = PriceSnapshot(
    id: Id,
    productId: Id,
    priceHuf: Option<nat>,
    currency: Option<string>,
    inStock: bool,
    status: Option<string>,
    rawPrice: Option<string>,
    collectedAt: Time)

  /** An alert rule, owned by an email address as the alert repository
      keys it. */
  datatype PriceAlert = PriceAlert(
    id: Id,
    productId: Id,
    email: string,
    targetPriceHuf: Option<nat>,
    notifyOnInStock: bool,
    notifyOnRestock: bool,
    active: bool,
    lastNotifiedAt: Option<Time>,
    lastNotifiedPriceHuf: Option<nat>,
    lastNotifiedInStock: Option<bool>,
    createdAt: Time,
    updatedAt: Time)

  /** One listing as a store scraper produces it. */
  datatype ScrapedProduct = ScrapedProduct(
    remoteId: Option<string>,
    slug: Option<string>,
    name: string,
    url: string,
    imageUrl: Option<string>,
    category: Option<string>,
    priceHuf: Option<nat>,
    currency: Option<string>,
    statusText: Option<string>,
    inStock: bool,
    rawPrice: Option<string>)

  /** A user as the user repository returns it (never with its hash). */
  datatype User = User(
    id: Id,
    email: string,
    isAdmin: bool,
    createdAt: Time,
    updatedAt: Time)
}

=== FILE: user_repo.dfy ===
/** The user repository (backend/repositories/userRepo.js): accounts keyed
    by a normalised email, with the password kept only as a hash. Hashing
    (`bcrypt.hashSync`, salt included) is the oracle `hash` and checking a
    password against a stored hash (`bcrypt.compareSync`) the oracle
    `compare`. */
module UserRepo {
  import opened Wrappers
  import opened Types
  import opened Schema
  import Seqs
  import Text

  /** `email.toLowerCase().trim()`: the form an email is stored in and
      looked up by. */
  function NormalizeEmail(email: string): (r: string)
    ensures |r| > 0 ==> !Text.IsSpace(r[0]) && !Text.IsSpace(r[|r| - 1])
  {
    Text.Trim(Text.Lower(email))
  }

  /** A normalised email normalises to itself, so looking up a stored
      email finds it again. */
  lemma NormalizeEmailIdempotent(email: string)
    ensures NormalizeEmail(NormalizeEmail(email)) == NormalizeEmail(email)
  {
    var lowered := Text.Lower(email);
    var trimmed := Text.Trim(lowered);
    LowerOfTrimmedLower(email);
    Text.TrimIdempotent(lowered);
  }

  /** The trimmed lower-cased email is already lower case. */
  lemma LowerOfTrimmedLower(email: string)
    ensures Text.Lower(Text.Trim(Text.Lower(email))) == Text.Trim(Text.Lower(email))
  {
    var lowered := Text.Lower(email);
    var trimmed := Text.Trim(lowered);
    var k := Text.TrimIsSlice(lowered);
    var piece := email[k..k + |trimmed|];
    Text.LowerSlice(email, k, k + |trimmed|);
    assert trimmed == Text.Lower(piece);
    Text.LowerIdempotent(piece);
  }

  /** The columns the repository returns; the hash never leaves it. */
  function MapUser(row: UserRow): User
  {
    User(row.id, row.email, IntToBool(row.isAdmin), row.createdAt, row.updatedAt)
  }

  /** `SELECT … FROM users WHERE id = $id`. */
  function FindById(users: seq<UserRow>, id: Id): Option<nat>
  {
    Seqs.FindFirst(users, (u: UserRow) => u.id == id)
  }

  /** `SELECT … FROM users WHERE email = $email`. */
  function FindByEmail(users: seq<UserRow>, email: string): Option<nat>
  {
    Seqs.FindFirst(users, (u: UserRow) => u.email == email)
  }

  /** `getUserById`: the user with the id, or nothing. */
  function GetUserById(t: Tables, id: Id): (r: Option<User>)
    ensures r.None? <==> forall i :: 0 <= i < |t.users| ==> t.users[i].id != id
    ensures r.Some? ==> r.value.id == id && exists i :: 0 <= i < |t.users| && r.value == MapUser(t.users[i])
  {
    match FindById(t.users, id)
    case Some(i) => Some(MapUser(t.users[i]))
    case None => None
  }

  /** `getUserByEmail`: the query is normalised as stored emails are. */
  function GetUserByEmail(t: Tables, email: string): (r: Option<User>)
    ensures r.None? <==> forall i :: 0 <= i < |t.users| ==> t.users[i].email != NormalizeEmail(email)
    ensures r.Some? ==> r.value.email == NormalizeEmail(email)
                        && exists i :: 0 <= i < |t.users| && r.value == MapUser(t.users[i])
  {
    match FindByEmail(t.users, NormalizeEmail(email))
    case Some(i) => Some(MapUser(t.users[i]))
    case None => None
  }

  /** Emails differing only in letter case or surrounding whitespace name
      the same account. */
  lemma LookupIgnoresCaseAndSpace(t: Tables, email: string)
    ensures GetUserByEmail(t, NormalizeEmail(email)) == GetUserByEmail(t, email)
  {
    NormalizeEmailIdempotent(email);
  }

  /** `verifyUserPassword`: the user whose normalised email matches, only
      when the password checks against the stored hash; nothing when the
      user is absent or the check fails. */
  function VerifyUserPassword(t: Tables, email: string, password: string,
                              compare: (string, string) -> bool): (r: Option<User>)
    ensures var k := FindByEmail(t.users, NormalizeEmail(email));
      r.Some? <==> k.Some? && compare(password, t.users[k.value].passwordHash)
    ensures r.Some? ==> r == GetUserByEmail(t, email)
  {
    match FindByEmail(t.users, NormalizeEmail(email))
    case None => None
    case Some(i) =>
      if !compare(password, t.users[i].passwordHash) then None
      else Some(MapUser(t.users[i]))
  }

  /** `createUser`: refused when an account already has the normalised
      email; otherwise a row with a fresh id, the normalised email, the
      password's hash and the admin flag as 1 or 0 (an omitted flag is
      false) is appended and read back by id. */
  function CreateUser(t: Tables, email: string, password: string, isAdmin: Option<bool>,
                      hash: string -> string, now: Time): (r: Result<(User, Tables), string>)
    ensures r.Err? <==> GetUserByEmail(t, email).Some?
    ensures r.Err? ==> r.error == "User with this email already exists"
    ensures r.Ok? ==>
      var (u, t') := r.value;
      var row := UserRow(t.nextId, NormalizeEmail(email), hash(password), BoolToInt(isAdmin.GetOr(false)), now, now);
      && t'.users == t.users + [row] && t'.nextId == t.nextId + 1
      && t'.stores == t.stores && t'.products == t.products && t'.snapshots == t.snapshots && t'.alerts == t.alerts
      && u.id == t.nextId
      && (Valid(t) ==> u == MapUser(row) && Valid(t'))
  {
    if GetUserByEmail(t, email).Some? then Err("User with this email already exists")
    else
      var row := UserRow(t.nextId, NormalizeEmail(email), hash(password), BoolToInt(isAdmin.GetOr(false)), now, now);
      var t' := t.(users := t.users + [row], nextId := t.nextId + 1);
      assert t'.users[|t.users|] == row;
      match GetUserById(t', t.nextId)
      case None => assert false; Err("")
      case Some(u) =>
        assert Valid(t) ==> u == MapUser(row) && Valid(t') by {
          if Valid(t) {
            Seqs.FindFirstAt(t'.users, (u: UserRow) => u.id == t.nextId, |t.users|);
            CreatedRowValid(t, row);
          }
        }
        Ok((u, t'))
  }

  lemma CreatedRowValid(t: Tables, row: UserRow)
    requires Valid(t) && row.id == t.nextId && IsBit(row.isAdmin)
    requires forall i :: 0 <= i < |t.users| ==> t.users[i].email != row.email
    ensures Valid(t.(users := t.users + [row], nextId := t.nextId + 1))
  {
    var t' := t.(users := t.users + [row], nextId := t.nextId + 1);
    forall i | 0 <= i < |t.alerts| ensures ValidAlertRow(t'.alerts[i], t'.nextId) {
      assert ValidAlertRow(t.alerts[i], t.nextId);
    }
  }

  /** A created account is found by its id and by its email in any letter
      case, and the password it was created with logs it in exactly when
      the hash checks; creating it again, in any letter case, is refused. */
  lemma CreateThenFind(t: Tables, email: string, password: string, isAdmin: Option<bool>,
                       hash: string -> string, now: Time, compare: (string, string) -> bool,
                       again: string, now2: Time)
    requires Valid(t) && CreateUser(t, email, password, isAdmin, hash, now).Ok?
    requires NormalizeEmail(again) == NormalizeEmail(email)
    ensures var (u, t') := CreateUser(t, email, password, isAdmin, hash, now).value;
      && GetUserById(t', u.id) == Some(u)
      && GetUserByEmail(t', again) == Some(u)
      && VerifyUserPassword(t', again, password, compare) == (if compare(password, hash(password)) then Some(u) else None)
      && CreateUser(t', again, password, isAdmin, hash, now2).Err?
  {
    var (u, t') := CreateUser(t, email, password, isAdmin, hash, now).value;
    var n := |t.users|;
    Seqs.FindFirstAt(t'.users, (r: UserRow) => r.id == u.id, n);
    Seqs.FindFirstAt(t'.users, (r: UserRow) => r.email == NormalizeEmail(email), n);
  }

  /** Rewrites the rows with the id (`UPDATE users SET … WHERE id = $id`). */
  function UpdateById(users: seq<UserRow>, id: Id, change: UserRow -> UserRow): (r: seq<UserRow>)
    ensures |r| == |users|
    ensures forall i :: 0 <= i < |users| ==> r[i] == if users[i].id == id then change(users[i]) else users[i]
  {
    seq(|users|, i requires 0 <= i < |users| => if users[i].id == id then change(users[i]) else users[i])
  }

  /** `makeAdmin`: the account's admin flag is set to 1 and its update time
      moved; the account is read back by id (nothing when there is none). */
  function MakeAdmin(t: Tables, userId: Id, now: Time): (r: (Option<User>, Tables))
    ensures r.1 == t.(users := r.1.users)
    ensures |r.1.users| == |t.users|
    ensures forall i :: 0 <= i < |t.users| ==>
      r.1.users[i] == if t.users[i].id == userId then t.users[i].(isAdmin := 1, updatedAt := now) else t.users[i]
    ensures r.0 == GetUserById(r.1, userId)
  {
    var t' := t.(users := UpdateById(t.users, userId, (u: UserRow) => u.(isAdmin := 1, updatedAt := now)));
    (GetUserById(t', userId), t')
  }

  /** After `makeAdmin` the account exists exactly when it did before, is
      an admin, and keeps its id, email and creation time. */
  lemma MakeAdminPromotes(t: Tables, userId: Id, now: Time)
    ensures var (u, t') := MakeAdmin(t, userId, now);
      && (u.Some? <==> GetUserById(t, userId).Some?)
      && (u.Some? ==>
            var before := GetUserById(t, userId).value;
            && u.value.isAdmin && u.value.id == userId
            && u.value.email == before.email && u.value.createdAt == before.createdAt)
  {
    var (u, t') := MakeAdmin(t, userId, now);
    Seqs.FindFirstSameMatches(t.users, (r: UserRow) => r.id == userId, t'.users, (r: UserRow) => r.id == userId);
  }

  /** `makeAdmin` keeps the tables well-formed. */
  lemma MakeAdminKeepsValid(t: Tables, userId: Id, now: Time)
    requires Valid(t)
    ensures Valid(MakeAdmin(t, userId, now).1)
  {
    var t' := MakeAdmin(t, userId, now).1;
    assert forall i :: 0 <= i < |t'.users| ==>
      t'.users[i].id == t.users[i].id && t'.users[i].email == t.users[i].email && IsBit(t'.users[i].isAdmin);
    SameKeysValid(t, t'.users);
  }

  /** Rewriting accounts in place, keeping every id and email and a 0 or 1
      admin flag, keeps the tables well-formed. */
  lemma SameKeysValid(t: Tables, users: seq<UserRow>)
    requires Valid(t) && |users| == |t.users|
    requires forall i :: 0 <= i < |users| ==>
      users[i].id == t.users[i].id && users[i].email == t.users[i].email && IsBit(users[i].isAdmin)
    ensures Valid(t.(users := users))
  {
    var t' := t.(users := users);
    assert ValidUsers(t');
  }

  /** `updateUserPassword`: the account's hash becomes the new password's
      hash and its update time moves; the account is read back by id. */
  function UpdateUserPassword(t: Tables, userId: Id, newPassword: string, hash: string -> string, now: Time)
    : (r: (Option<User>, Tables))
    ensures r.1 == t.(users := r.1.users)
    ensures |r.1.users| == |t.users|
    ensures forall i :: 0 <= i < |t.users| ==>
      r.1.users[i] == if t.users[i].id == userId then t.users[i].(passwordHash := hash(newPassword), updatedAt := now)
                      else t.users[i]
    ensures r.0 == GetUserById(r.1, userId)
  {
    var t' := t.(users := UpdateById(t.users, userId, (u: UserRow) => u.(passwordHash := hash(newPassword), updatedAt := now)));
    (GetUserById(t', userId), t')
  }

  /** A password change moves no account to another email. */
  lemma PasswordUpdateKeepsEmails(t: Tables, userId: Id, newPassword: string, hash: string -> string, now: Time,
                                  email: string)
    ensures FindByEmail(UpdateUserPassword(t, userId, newPassword, hash, now).1.users, email) == FindByEmail(t.users, email)
  {
    var t' := UpdateUserPassword(t, userId, newPassword, hash, now).1;
    Seqs.FindFirstSameMatches(t.users, (r: UserRow) => r.email == email, t'.users, (r: UserRow) => r.email == email);
  }

  /** After a password change the account logs in with the new password
      exactly when its hash checks, whatever the old one was. */
  lemma PasswordChangeTakesEffect(t: Tables, userId: Id, newPassword: string, hash: string -> string, now: Time,
                                  email: string, compare: (string, string) -> bool)
    requires GetUserById(t, userId).Some? && GetUserByEmail(t, email) == GetUserById(t, userId)
    ensures var t' := UpdateUserPassword(t, userId, newPassword, hash, now).1;
      VerifyUserPassword(t', email, newPassword, compare).Some? <==> compare(newPassword, hash(newPassword))
  {
    var t' := UpdateUserPassword(t, userId, newPassword, hash, now).1;
    var e := NormalizeEmail(email);
    PasswordUpdateKeepsEmails(t, userId, newPassword, hash, now, e);
    var k := FindByEmail(t.users, e).value;
    assert t.users[k].id == userId;
    assert t'.users[k].passwordHash == hash(newPassword);
  }

  /** `deleteUser`: the rows with the id are removed. */
  function DeleteUser(t: Tables, userId: Id): (r: Tables)
    ensures r == t.(users := Seqs.Filter(t.users, (u: UserRow) => u.id != userId))
    ensures GetUserById(r, userId).None?
  {
    t.(users := Seqs.Filter(t.users, (u: UserRow) => u.id != userId))
  }

  /** Deleting one account leaves every other account as it was. */
  lemma DeleteUserKeepsOthers(t: Tables, userId: Id, other: Id)
    requires other != userId
    ensures GetUserById(DeleteUser(t, userId), other) == GetUserById(t, other)
  {
    Seqs.FindFirstFiltered(t.users, (u: UserRow) => u.id != userId, (u: UserRow) => u.id == other);
  }

  /** `deleteUser` keeps the tables well-formed. */
  lemma DeleteUserKeepsValid(t: Tables, userId: Id)
    requires Valid(t)
    ensures Valid(DeleteUser(t, userId))
  {
    var keep := (u: UserRow) => u.id != userId;
    Seqs.FilterMembers(t.users, keep);
    Seqs.FilterDistinct(t.users, keep, (u: UserRow) => u.id);
    Seqs.FilterDistinct(t.users, keep, (u: UserRow) => u.email);
  }

  /** `ORDER BY created_at DESC`. */
  predicate NewerFirst(a: UserRow, b: UserRow)
  {
    a.createdAt >= b.createdAt
  }

  lemma NewerFirstIsTotalPreorder()
    ensures Seqs.TotalPreorder(NewerFirst)
  {
  }

  function MapUsers(rows: seq<UserRow>): (r: seq<User>)
    ensures |r| == |rows| && forall i :: 0 <= i < |rows| ==> r[i] == MapUser(rows[i])
  {
    seq(|rows|, i requires 0 <= i < |rows| => MapUser(rows[i]))
  }

  /** Every account, newest first. */
  function NewestFirst(t: Tables): (o: seq<UserRow>)
    ensures multiset(o) == multiset(t.users)
  {
    Seqs.SortBy(t.users, NewerFirst)
  }

  /** The accounts newest first are a sorted rearrangement of the table. */
  lemma NewestFirstSortedPermutation(t: Tables)
    ensures var o := NewestFirst(t);
      multiset(o) == multiset(t.users) && forall i, j :: 0 <= i < j < |o| ==> o[i].createdAt >= o[j].createdAt
  {
    NewerFirstIsTotalPreorder();
    Seqs.SortBySorted(t.users, NewerFirst);
  }

  /** `listUsers`: the accounts newest first, windowed by `limit` (50 when
      omitted) and `offset` (0 when omitted). */
  function ListUsers(t: Tables, limit: Option<nat>, offset: Option<nat>): (r: seq<User>)
    ensures |r| <= limit.GetOr(50)
    ensures var n, lim, off := |t.users|, limit.GetOr(50), offset.GetOr(0);
      |r| == (if off >= n then 0 else if n - off < lim then n - off else lim)
    ensures forall i :: 0 <= i < |r| ==>
      offset.GetOr(0) + i < |NewestFirst(t)| && r[i] == MapUser(NewestFirst(t)[offset.GetOr(0) + i])
    ensures forall i, j :: 0 <= i < j < |r| ==> r[i].createdAt >= r[j].createdAt
    ensures forall i :: 0 <= i < |r| ==> exists k :: 0 <= k < |t.users| && r[i] == MapUser(t.users[k])
  {
    var ordered := NewestFirst(t);
    NewerFirstIsTotalPreorder();
    Seqs.SortBySorted(t.users, NewerFirst);
    var w := Seqs.Window(ordered, limit.GetOr(50), offset.GetOr(0));
    forall i | 0 <= i < |w| ensures exists k :: 0 <= k < |t.users| && w[i] == t.users[k] {
      assert w[i] in multiset(ordered);
    }
    MapUsers(w)
  }

  /** A first page at least as long as the table lists every account. */
  lemma ListUsersCoversAll(t: Tables, limit: Option<nat>)
    requires |t.users| <= limit.GetOr(50)
    ensures var r := ListUsers(t, limit, None);
      |r| == |t.users| && forall k :: 0 <= k < |t.users| ==> MapUser(t.users[k]) in r
  {
    ListUsersWhole(t, limit);
    MapUsersCovers(t);
  }

  lemma MapUsersCovers(t: Tables)
    ensures var r := MapUsers(NewestFirst(t));
      |r| == |t.users| && forall k :: 0 <= k < |t.users| ==> MapUser(t.users[k]) in r
  {
    var ordered := NewestFirst(t);
    var r := MapUsers(ordered);
    forall k | 0 <= k < |t.users| ensures MapUser(t.users[k]) in r {
      assert t.users[k] in multiset(ordered);
      var m :| 0 <= m < |ordered| && ordered[m] == t.users[k];
      assert r[m] == MapUser(ordered[m]);
    }
  }

  lemma ListUsersWhole(t: Tables, limit: Option<nat>)
    requires |t.users| <= limit.GetOr(50)
    ensures ListUsers(t, limit, None) == MapUsers(NewestFirst(t))
  {
    assert Seqs.Window(NewestFirst(t), limit.GetOr(50), 0) == NewestFirst(t);
  }

  /** An omitted limit lists like a limit of 50, and an omitted offset like
      an offset of 0. */
  lemma ListUsersDefaults(t: Tables)
    ensures ListUsers(t, None, None) == ListUsers(t, Some(50), Some(0))
  {
  }

  lemma MapUsersAppend(a: seq<UserRow>, b: seq<UserRow>)
    ensures MapUsers(a) + MapUsers(b) == MapUsers(a + b)
  {
  }

  /** Paging walks the accounts without gaps or overlaps: the page of `a`
      at `offset` followed by the page of `b` after it is the page of
      `a + b` at `offset`. */
  lemma ListUsersPagesTile(t: Tables, a: nat, b: nat, offset: nat)
    ensures ListUsers(t, Some(a), Some(offset)) + ListUsers(t, Some(b), Some(offset + a))
         == ListUsers(t, Some(a + b), Some(offset))
  {
    assert Some(a).GetOr(50) == a && Some(b).GetOr(50) == b && Some(a + b).GetOr(50) == a + b;
    assert Some(offset).GetOr(0) == offset && Some(offset + a).GetOr(0) == offset + a;
    MapUsersTile(NewestFirst(t), a, b, offset);
  }

  lemma MapUsersTile(o: seq<UserRow>, a: nat, b: nat, offset: nat)
    ensures MapUsers(Seqs.Window(o, a, offset)) + MapUsers(Seqs.Window(o, b, offset + a))
         == MapUsers(Seqs.Window(o, a + b, offset))
  {
    Seqs.WindowTile(o, a, b, offset);
    MapUsersAppend(Seqs.Window(o, a, offset), Seqs.Window(o, b, offset + a));
  }
}

=== FILE: varazslatos.dfy ===
/** The pure helpers of the Varázslatos Játékok scraper
    (backend/stores/varazslatos.js): category page references, the price
    text, the stock decision and the product a listing card yields. URL
    resolution against the shop's base (`new URL(href, BASE_URL)`, which may
    throw) is the oracle `resolve`, `None` standing for the throw. */
module Varazslatos {
  import opened Wrappers
  import opened Types
  import Text
  import Listing

  const BaseUrl := "https://www.varazslatosjatekok.hu"

  /** The category pages swept, in order. */
  const Categories: seq<Listing.Category> := [
    Listing.Category("/pokemon-boosterek/", "Boosterek"),
    Listing.Category("/pokemon-elite-trainer-boxok/", "Elite Trainer Boxok"),
    Listing.Category("/pokemon-booster-boxok/", "Booster Boxok"),
    Listing.Category("/pokemon-ajandek-v-boxok/", "Aj\U{00E1}nd\U{00E9}k Boxok"),
    Listing.Category("/pokemon-kis-ajandekok/", "Kis Aj\U{00E1}nd\U{00E9}kok"),
    Listing.Category("/pokemon-kellekek/", "Kell\U{00E9}kek"),
    Listing.Category("/pokemon-kartya-boritok/", "K\U{00E1}rtyav\U{00E9}d\U{0151}k"),
    Listing.Category("/pokemon-albumok/", "Albumok")
  ]

  /** `path.endsWith("/") ? path : path + "/"`. */
  function SlashTerminated(path: string): (r: string)
    ensures |r| > 0 && r[|r| - 1] == '/'
    ensures path <= r && |r| <= |path| + 1
    ensures |path| > 0 && path[|path| - 1] == '/' ==> r == path
  {
    if |path| > 0 && path[|path| - 1] == '/' then path else path + "/"
  }

  /** The reference `buildCategoryUrl` resolves against the shop's base:
      the bare path for the first page (and for any page number below it),
      otherwise the path with a trailing slash followed by `oldal-<page>/`. */
  function PageReference(path: string, page: int): (r: string)
    ensures page <= 1 ==> r == path
    ensures page > 1 ==> path <= r && |r| > |path| + 7 && r[|r| - 1] == '/'
  {
    if page <= 1 then path
    else SlashTerminated(path) + "oldal-" + Text.NatToString(page) + "/"
  }

  /** `buildCategoryUrl`: the page reference resolved against the base. */
  function BuildCategoryUrl(path: string, page: int, resolve: (string, string) -> Option<string>): Option<string>
  {
    resolve(PageReference(path, page), BaseUrl)
  }

  /** A later page's reference names the page in its last segment, which
      is what the paginator's `oldal-<n>` links are matched against; the
      number in it reads back as the page. */
  lemma PageReferenceNamesPage(path: string, page: int)
    requires page > 1
    ensures Text.LastSegment(PageReference(path, page), '/') == Some("oldal-" + Text.NatToString(page))
    ensures Text.DigitsValue(Text.NatToString(page)) == page
  {
    var d := Text.NatToString(page);
    var w := "oldal-" + d;
    assert '/' !in w by {
      forall i | 0 <= i < |w| ensures w[i] != '/' {
        if i >= 6 {
          assert w[i] == d[i - 6] && Text.IsDigit(d[i - 6]);
        }
      }
    }
    var a := SlashTerminated(path);
    assert PageReference(path, page) == a + w + ['/'];
    Text.LastSegmentAfterSeparator(a, w, '/');
    Text.NatToStringValue(page);
  }

  /** Whether the path is written with its trailing slash or without it
      makes no difference to a later page. */
  lemma PageReferenceIgnoresTrailingSlash(path: string, page: int)
    requires page > 1
    requires |path| == 0 || path[|path| - 1] != '/'
    ensures PageReference(path + "/", page) == PageReference(path, page)
  {
    var p := path + "/";
    assert |p| > 0 && p[|p| - 1] == '/';
  }

  /** `determineStock`: out of stock when the card's class mentions
      "inactive" or "out-of-stock", when it holds a disabled button or link,
      or when the lower-cased text of its availability labels (all of them
      run together) says "nincs készleten" or "elfogyott". */
  predicate DetermineStock(classAttr: Option<string>, hasDisabledControl: bool, availabilityTexts: seq<string>)
  {
    var stateClass := classAttr.GetOr("");
    var stockText := Text.Lower(Text.Concat(availabilityTexts));
    !(|| Text.Contains(stateClass, "inactive")
      || Text.Contains(stateClass, "out-of-stock")
      || hasDisabledControl
      || Text.Contains(stockText, Listing.NotInStock)
      || Text.Contains(stockText, "elfogyott"))
  }

  /** One availability label saying "elfogyott" or "nincs készleten" (in
      any letter case) puts the card out of stock, whatever the others say. */
  lemma SoldOutLabelDecides(classAttr: Option<string>, hasDisabledControl: bool, texts: seq<string>, k: nat)
    requires k < |texts|
    requires Text.Contains(Text.Lower(texts[k]), "elfogyott") || Text.Contains(Text.Lower(texts[k]), Listing.NotInStock)
    ensures !DetermineStock(classAttr, hasDisabledControl, texts)
  {
    var before, after := Text.Concat(texts[..k]), Text.Concat(texts[k + 1..]);
    Text.ConcatAround(texts, k);
    Text.LowerAppend(before + texts[k], after);
    Text.LowerAppend(before, texts[k]);
    var phrase := if Text.Contains(Text.Lower(texts[k]), "elfogyott") then "elfogyott" else Listing.NotInStock;
    Text.ContainsWithin(Text.Lower(before), Text.Lower(texts[k]), Text.Lower(after), phrase);
  }

  /** A card with no state class, no disabled control and no availability
      label is in stock. */
  lemma UnmarkedCardInStock()
    ensures DetermineStock(None, false, [])
  {
    Text.NotContainedInShorter("", "inactive");
    Text.NotContainedInShorter("", "out-of-stock");
    Text.NotContainedInShorter("", Listing.NotInStock);
    Text.NotContainedInShorter("", "elfogyott");
  }

  /** `a || b || null` on two attribute values: the first that is present
      and not empty. */
  function FirstTruthy(a: Option<string>, b: Option<string>): (r: Option<string>)
    ensures r.Some? ==> |r.value| > 0 && (r == a || r == b)
    ensures r.None? <==> (a.None? || |a.value| == 0) && (b.None? || |b.value| == 0)
    ensures a.Some? && |a.value| > 0 ==> r == a
  {
    if a.Some? && |a.value| > 0 then a
    else if b.Some? && |b.value| > 0 then b
    else None
  }

  /** One product card as the scraper reads it: its links, its class
      attribute, whether it holds a disabled button or link, the texts of
      its availability labels, the three price candidates in the order
      they are tried (the test-id price, the final price, the plain price),
      the image's `data-src` and `src`, and the micro-data product id. */
  datatype Card = Card(
    anchors: seq<Listing.Anchor>,
    classAttr: Option<string>,
    hasDisabledControl: bool,
    availabilityTexts: seq<string>,
    priceTexts: seq<string>,
    imageDataSrc: Option<string>,
    imageSrc: Option<string>,
    microProductId: Option<string>)

  /** The product a card yields in category `category`: none without a
      name, without a link, or when the link does not resolve; otherwise
      the resolved link, the last non-empty segment of it as the slug, the
      first non-blank price candidate parsed, HUF exactly for a nonzero
      price, the first non-blank availability text and the stock
      decision. */
  function CardProduct(card: Card, category: string, resolve: (string, string) -> Option<string>): (r: Option<ScrapedProduct>)
    ensures var (name, href) := Listing.NameAndLink(card.anchors);
      r.None? <==> |name| == 0 || href.None? || |href.value| == 0 || resolve(href.value, BaseUrl).None?
    ensures r.Some? ==>
      var (name, href) := Listing.NameAndLink(card.anchors);
      var price := Listing.ParseBarePrice(Listing.FirstNonEmpty(card.priceTexts).GetOr(""));
      var image := FirstTruthy(card.imageDataSrc, card.imageSrc);
      && href.Some? && resolve(href.value, BaseUrl) == Some(r.value.url)
      && r.value.name == name && |name| > 0
      && r.value.slug == Text.LastSegment(r.value.url, '/')
      && r.value.category == Some(category)
      && r.value.remoteId == card.microProductId
      && r.value.priceHuf == price.priceHuf && r.value.rawPrice == price.raw
      && (r.value.currency.Some? <==> r.value.priceHuf.Some? && r.value.priceHuf.value != 0)
      && (r.value.currency.Some? ==> r.value.currency.value == "HUF")
      && r.value.imageUrl == (if image.Some? then resolve(image.value, BaseUrl) else None)
      && r.value.statusText == Listing.FirstNonEmpty(card.availabilityTexts)
      && r.value.inStock == DetermineStock(card.classAttr, card.hasDisabledControl, card.availabilityTexts)
  {
    var (name, href) := Listing.NameAndLink(card.anchors);
    if |name| == 0 || href.None? || |href.value| == 0 then None
    else
      var price := Listing.ParseBarePrice(Listing.FirstNonEmpty(card.priceTexts).GetOr(""));
      var image := FirstTruthy(card.imageDataSrc, card.imageSrc);
      match resolve(href.value, BaseUrl)
      case None => None
      case Some(url) =>
        Some(ScrapedProduct(
          card.microProductId, Text.LastSegment(url, '/'), name, url,
          if image.Some? then resolve(image.value, BaseUrl) else None,
          Some(category), price.priceHuf, Listing.HufIfPriced(price.priceHuf),
          Listing.FirstNonEmpty(card.availabilityTexts),
          DetermineStock(card.classAttr, card.hasDisabledControl, card.availabilityTexts),
          price.raw))
  }

  /** A product page under the shop, `<prefix>/<slug>/`, yields `<slug>`
      as the product's slug. */
  lemma SlugOfProductUrl(prefix: string, slug: string)
    requires |slug| > 0 && '/' !in slug
    ensures Text.LastSegment(prefix + "/" + slug + "/", '/') == Some(slug)
    ensures Text.LastSegment(prefix + "/" + slug, '/') == Some(slug)
  {
    var a := prefix + "/";
    assert a[|a| - 1] == '/';
    Text.LastSegmentAfterSeparator(a, slug, '/');
    assert a + slug + ['/'] == prefix + "/" + slug + "/";
  }

  /** The scraper's entry in the store list. */
  const Slug := "varazslatosjatekok"
  const DisplayName := "Var\U{00E1}zslatos J\U{00E1}t\U{00E9}kok"
}

=== FILE: wrappers.dfy ===
/** Failure-compatible wrappers used across the model: `Option` stands for a
    JavaScript value that may be `null`/`undefined`, `Result` for a call that
    may throw. */
module Wrappers {

  datatype Option<+T> = None | Some(value: T) {

    /** The value, or `default` when absent (JavaScript's `??`). */
    function GetOr(default: T): T {
      match this
      case Some(v) => v
      case None => default
    }
  }

  /** The outcome of a call that may throw: `Err` carries the error. */
  datatype Result<+T, +E> = Ok(value: T) | Err(error: E)
}
